=== FILE: README.md ===
# geoxml3 KML parser, modelled in Dafny

This project models the core of geoxml3's KML parser (`GeoXML3Parser`) and its default style
(`DEFAULTSTYLE`). The parser turns KML documents into records for a map. For each document it:

- resolves its dependencies on other documents;
- builds a shared style table, keyed by document base URL and style id;
- decodes `Style` and `StyleMap` elements, including icons and KML colours;
- turns each `Placemark` into a record with its variables and geometry;
- creates, reactivates and splices point markers across reloads;
- reads `GroundOverlay` records;
- follows `NetworkLink` elements by parsing their targets into the same document set;
- registers each rendered document and counts the documents a batch still waits for.

The model is split into modules that follow the parser's concerns:

| module | what it models |
|---|---|
| `Xml` | the element tree and `getElementsByTagName` |
| `Text` | `trim`, `split` and the white-space regexes |
| `Numbers` | NaN-aware arithmetic |
| `Coords` | coordinate parsing |
| `Styles` | `processStyle`, the `DEFAULTSTYLE` record |
| `Colors` | `kmlColor` and the balloon template |
| `Icons` | `processStyleID` and the image handlers |
| `Records` | placemark variables and info windows |
| `Overlays` | ground overlays and network links |
| `Polygons` | the paths and options `createPolygon` computes |
| `Geometry` | the geometry dispatch |
| `Markers` | marker reactivation and removal |
| `StyleTable` | the style table and `processStyleMap` |
| `Placemarks` | placemark records and the point-marker logic |
| `Dependencies` | the dependency scan |
| `Render` | specification functions for a whole `render` |
| `Parser` | the parser object: a class `GeoParser` with the style table, the documents and `docsByUrl` as fields, and `Parse`, `Render` and `ParseKmlString` as methods |

The documents (`Doc`), the document lists (`DocList`) and the batch bookkeeping (`Batch`, the source's `doc.internals`) are classes, because the source updates them in place and shares them between documents. The loops of the source are methods, each proved against a specification function. The properties of those functions are proved as lemmas.

The XML parser and `fetchXML` are left to the host: `Render` receives the parsed response. The other host facilities the parser calls are parameters of the model, collected in an `Env` record:

- `cleanURL`, the page directory (`defileURL(location.pathname)`), the page path (`location.pathname`) and the directory `fetchDoc` derives from a base URL;
- `getBooleanValue` and `getOpacity`;
- the number syntax of `parseFloat`, `parseInt` and `isNaN`;
- the image loader: the state of a new `Image` for a URL (`probe`);
- `LatLng.equals`, `LatLng.toUrlValue` (`urlValue`) and the address encoding of the direction links (`encodeAddress`);
- the KMZ data URLs (`dataUrls`, from `kmzMetaData`);
- whether `createOverlay` returns an overlay (`overlayMade`).

## Model

All source paths are in `src/kmz/GeoXML3Parser.ts` unless they say `src/consts/default.ts`.

| member | source | states |
|---|---|---|
| Xml.SelectExactly | src/kmz/GeoXML3Parser.ts:15 | `getElementsByTagName` finds exactly the proper descendants with that node name, proved against an independent definition of descendant |
| Xml.SelectChildless | src/kmz/GeoXML3Parser.ts:15 | an element without children yields an empty list |
| Xml.ParentNames | src/kmz/GeoXML3Parser.ts:546-551 | there is one parent node name per element found, in the same order |
| Xml.FirstByTagMeaning | src/kmz/GeoXML3Parser.ts:481-482 | `getElementsByTagName(node, tag)[0]` is `undefined` exactly when no proper descendant has that node name, and is otherwise such a descendant |
| Xml.ChildValueMeaning | src/kmz/GeoXML3Parser.ts:481-482 | `nodeValue` of that first element is the default when no descendant has the name, and otherwise the text of one that does |
| Xml.Attr | src/kmz/GeoXML3Parser.ts:452 | `getAttribute` gives `null` exactly when the attribute is absent, and the attribute's value when it is present |
| Text.TrimMeaning | src/kmz/GeoXML3Parser.ts:336 | `trim()` removes white space only at the ends: the result has no white space at either end, loses no other character, and is a slice of the input |
| Text.TrimIsDropThenTrimEnd | src/kmz/GeoXML3Parser.ts:601 | trimming drops the leading white space, then the trailing white space |
| Text.TrimEndPrefix | src/kmz/GeoXML3Parser.ts:336 | trimming the end keeps a prefix |
| Text.DropSpacesSuffix | src/kmz/GeoXML3Parser.ts:336 | dropping leading white space keeps a suffix |
| Text.CollapseCommaSpaceMeaning | src/kmz/GeoXML3Parser.ts:337 | `replace(/,\s+/g, ',')` removes white space only, keeps every other character in order, and leaves no comma followed by white space |
| Text.FirstSpaceMeaning | src/kmz/GeoXML3Parser.ts:338 | the index found is the first white-space character, or the length when there is none |
| Text.SplitSpacesNoSpace | src/kmz/GeoXML3Parser.ts:338 | no piece of `split(/\s+/g)` holds white space |
| Text.SplitSpacesConcat | src/kmz/GeoXML3Parser.ts:338 | the pieces joined back together give the input without its white space |
| Text.SplitSpacesNonEmpty | src/kmz/GeoXML3Parser.ts:602 | on a trimmed non-empty string, no piece is empty |
| Text.TrimmedAfterSpace | src/kmz/GeoXML3Parser.ts:602 | in a trimmed string, the first piece is non-empty and what follows a white-space run is again trimmed and non-empty |
| Text.DropSpacesKeepsLast | src/kmz/GeoXML3Parser.ts:338 | leading white space never swallows a string that ends in a non-space character |
| Text.IndexOfMeaning | src/kmz/GeoXML3Parser.ts:166 | `indexOf(c)` is the first occurrence of `c`, or the length (read as -1) when there is none |
| Text.SplitJoin | src/kmz/GeoXML3Parser.ts:167 | `split(c)` and joining with `c` are inverse, and no piece contains `c` |
| Numbers.Abs | src/kmz/GeoXML3Parser.ts:968 | `Math.abs` is non-negative and keeps NaN |
| Numbers.RoundHalfUp | src/kmz/GeoXML3Parser.ts:965 | `Math.round` gives the nearest integer, with halves rounded up |
| Numbers.Round | src/kmz/GeoXML3Parser.ts:965 | `Math.round` on a number is its half-up rounding, and NaN stays NaN |
| Coords.KeptMembers | src/kmz/GeoXML3Parser.ts:341-350 | a coordinate is kept exactly when some token yields it; there are never more coordinates than tokens |
| Coords.KeptAppend | src/kmz/GeoXML3Parser.ts:341-350 | the tuple filter distributes over concatenation, so kept coordinates stay in token order |
| Coords.KeepTuples | src/kmz/GeoXML3Parser.ts:341-350 | the tuple loop equals the filter specification: the tokens whose first two fields are numbers, as latitude and longitude |
| Coords.ParseCoordinates | src/kmz/GeoXML3Parser.ts:336-349 | one `coordinates` element gives the kept tuples of its trimmed, comma-collapsed, split text |
| Coords.ParseCoordinateNodes | src/kmz/GeoXML3Parser.ts:335-350 | the inner loop gives one coordinate list per `coordinates` element, in order |
| Coords.ProcessPlacemarkCoords | src/kmz/GeoXML3Parser.ts:322-355 | `processPlacemarkCoords` gives the lists of every `coordinates` element under every `tag` element, in document order |
| Coords.PlacemarkCoordsMeaning | src/kmz/GeoXML3Parser.ts:322-355 | the `k`-th list comes from the `k`-th such `coordinates` element, with one list per element |
| Coords.Tracks | src/kmz/GeoXML3Parser.ts:594-614 | there is one coordinate list per `gx:Track`, the `k`-th holding the kept coordinates of that track's `gx:coord` elements |
| Coords.ParseTrackCoords | src/kmz/GeoXML3Parser.ts:600-610 | each `gx:coord` whose first two fields are numbers gives a coordinate, longitude first in the text |
| Coords.ParseTracks | src/kmz/GeoXML3Parser.ts:594-614 | a placemark without `gx:Track` gets no track; otherwise the track loop equals `Tracks` |
| Styles.DefaultStyleFacts | src/consts/default.ts:1-34 | the default line is one unit wide, white and in normal mode; the icon is unscaled with unknown (negative) size; the polygon is filled and outlined |
| Styles.ProcessStyleUrl | src/kmz/GeoXML3Parser.ts:163-173 | the result has at least two parts |
| Styles.ProcessStyleUrlMeaning | src/kmz/GeoXML3Parser.ts:163-173 | a `styleUrl` without `#` gives `["", ""]`; one with `#` gives the document part before the first `#`, the id after it, and joins back to the text |
| Styles.ApplyBalloon | src/kmz/GeoXML3Parser.ts:178-184 | each balloon field takes its child's text in the first `BalloonStyle`, and keeps its value otherwise |
| Styles.RecordSize | src/kmz/GeoXML3Parser.ts:230-237 | a loaded image sets the cell size when either dimension is unknown; otherwise it sets only the image height `th` |
| Styles.IconImage | src/kmz/GeoXML3Parser.ts:207-250 | the `Icon` href is resolved against the directory and replaced by the archive's data URL when there is one; the `gx:` cell fields are kept where absent; a new image is made |
| Styles.ApplyIcon | src/kmz/GeoXML3Parser.ts:188-251 | the scale and hot spot change only when given; the image part changes only when the node has an `Icon` descendant |
| Styles.ApplyLine | src/kmz/GeoXML3Parser.ts:255-264 | the line colour, colour mode and width change only where given |
| Styles.ApplyPoly | src/kmz/GeoXML3Parser.ts:266-272 | the polygon colour, colour mode, outline and fill change only where given |
| Styles.ApplyChildless | src/kmz/GeoXML3Parser.ts:300-306 | a node with no style blocks changes nothing; under the assumption stated under "Left out", a `StyleMap` pair's `Style` passed as text is such a node |
| Colors.HexRun | src/kmz/GeoXML3Parser.ts:896 | the run `parseInt(…, 16)` reads: every character before position `n` is a hexadecimal digit and the one at `n`, if any, is not |
| Colors.ParseIntHexByte | src/kmz/GeoXML3Parser.ts:896 | two hexadecimal digits read as their byte value |
| Colors.AlphaOpacityByte | src/kmz/GeoXML3Parser.ts:896 | the alpha byte over 256 is the opacity, in [0, 1) |
| Colors.KmlColorOpacity | src/kmz/GeoXML3Parser.ts:887-899 | the opacity of an eight-digit `aabbggrr` colour is `aa` over 256 |
| Colors.KmlColorRgb | src/kmz/GeoXML3Parser.ts:887-899 | the colour is `#rrggbb`, with the blue and red bytes swapped, except in random mode |
| Colors.KmlColorExample | src/kmz/GeoXML3Parser.ts:887-899 | `7fff0000` decodes to `#0000ff` at opacity 127/256 |
| Colors.KmlColorEmpty | src/kmz/GeoXML3Parser.ts:887-899 | an empty colour decodes as `ffffffff`, which is white at opacity 255/256 |
| Colors.InfoWindowStyleMeaning | src/kmz/GeoXML3Parser.ts:1254-1257 | there is a colour attribute exactly when a balloon colour is not its default; the background entry comes first |
| Colors.DefaultBalloonPlain | src/kmz/GeoXML3Parser.ts:1254-1257 | the default balloon adds no colour attribute |
| Colors.WordRun | src/kmz/GeoXML3Parser.ts:1250 | the `\w+` run: every character before position `n` is a word character and the one at `n`, if any, is not |
| Colors.MatchAt | src/kmz/GeoXML3Parser.ts:1250 | a template match starts with `$[` and spans at least three characters within the text |
| Colors.ReplaceNoTemplate | src/kmz/GeoXML3Parser.ts:1250 | text without `$[` comes through the substitution unchanged |
| Colors.ReplaceLiteralPrefix | src/kmz/GeoXML3Parser.ts:1250 | a template-free prefix is copied, and substitution continues after it |
| Colors.WordRunOver | src/kmz/GeoXML3Parser.ts:1250 | a word followed by a non-word character is matched in full |
| Colors.ReplaceVariable | src/kmz/GeoXML3Parser.ts:1250 | `$[w]` is one match whose name is `w` |
| Colors.ReplaceDisplayName | src/kmz/GeoXML3Parser.ts:1250 | `$[w/displayName]` is one match whose name is `w`, with the display-name flag set |
| Colors.DefaultBalloonSubstitution | src/consts/default.ts:5 | the default balloon substitutes `name` and `geDirections`, and leaves `$>[description]` as written |
| Colors.DefaultBalloonRest | src/consts/default.ts:5 | after `$[name]`, only `$[geDirections]` is substituted |
| Colors.DefaultBalloonLast | src/consts/default.ts:5 | the last piece substitutes `geDirections` |
| Colors.DefaultBalloonPiecesPlain | src/consts/default.ts:5 | the fixed pieces of the default text contain no template |
| Colors.DisplayNameIntended | src/kmz/GeoXML3Parser.ts:1250 | with the intended replacement, `$[w/displayName]` gives `w`'s display name and substitution continues after it |
| Colors.DisplayNameAsWritten | src/kmz/GeoXML3Parser.ts:1250 | as written, `$[w/displayName]` looks up the key `w/displayName`, which is `undefined` unless such a key exists; the intended lookup gives `w`'s display name |
| Icons.SettleDims | src/kmz/GeoXML3Parser.ts:945-961 | a loaded image gives its recorded size; a missing or loading image gives a guessed 32x32 cell |
| Icons.ProcessStyleID | src/kmz/GeoXML3Parser.ts:917-1050 | an icon without href is unchanged; a waiting icon gets an empty queue and the resuming handler; otherwise the size is settled, the data URL is substituted, and the marker image has the icon's URL, with no size exactly when the size was guessed and no scaled size exactly at scale 1 |
| Icons.QueueAllOrder | src/kmz/GeoXML3Parser.ts:1062-1066 | marker requests join the end of the queue, first in first out, and nothing else changes |
| Icons.ImageLoaded | src/kmz/GeoXML3Parser.ts:926-942 | the image completes; the size-recording handler records the size and replays nothing |
| Icons.QueuedThenLoaded | src/kmz/GeoXML3Parser.ts:921-942 | requests queued while waiting are replayed in order after the load; the icon then has a marker image and no queue |
| Icons.ReplayIsBacklog | src/kmz/GeoXML3Parser.ts:926-942 | a load replays the queue exactly when the resuming handler is installed |
| Icons.FractionAnchorX | src/kmz/GeoXML3Parser.ts:986-995 | a fractional hot spot in [0, 1] gives a horizontal anchor inside the scaled width |
| Icons.FractionAnchorY | src/kmz/GeoXML3Parser.ts:986-995 | a fractional hot spot in [0, 1] gives a vertical anchor inside the scaled height, measured from the top |
| Icons.InsetMirrorsPixels | src/kmz/GeoXML3Parser.ts:986-995 | an inset of `x` from the right anchors where `w - x` pixels from the left do; `y` pixels up from the bottom anchor where an inset of `h - y` from the top does |
| Icons.ScaledFraction | src/kmz/GeoXML3Parser.ts:986-995 | a fraction of a scaled length, and its rounding, stay within that length |
| Icons.DefaultIconGuessed | src/kmz/GeoXML3Parser.ts:945-1016 | the default icon on a guessed cell anchors at (16, 16), has its origin at the corner, and has no size |
| Icons.PaletteFlip | src/kmz/GeoXML3Parser.ts:966-969 | the origin row is `y` unless the image height differs from the cell height; then it is `\|y - (th - h)\|` |
| Icons.StdIconShadow | src/kmz/GeoXML3Parser.ts:1018-1039 | the standard marker images get the marker shadow |
| Records.DescriptionLinkMeaning | src/kmz/GeoXML3Parser.ts:500-502 | a web-address description becomes a link that shows it; doing this twice changes nothing; any other description is kept |
| Records.SeedVarsDisplayed | src/kmz/GeoXML3Parser.ts:505-525 | every seeded variable has a display name; `geDirections` has one but no value yet |
| Records.AddExtendedData | src/kmz/GeoXML3Parser.ts:528-541 | the `ExtendedData` loop equals its specification on the variables |
| Records.DataVarsLast | src/kmz/GeoXML3Parser.ts:528-541 | the last `Data` element with a name decides that variable's value and its display name, which defaults to the name |
| Records.DataVarsOther | src/kmz/GeoXML3Parser.ts:528-541 | variables that no `Data` element names are unchanged |
| Records.DataVarsDisplayed | src/kmz/GeoXML3Parser.ts:528-541 | every value still has a display name |
| Records.WithDirectionsKeeps | src/kmz/GeoXML3Parser.ts:1238-1247 | setting the directions changes only `geDirections` |
| Records.InfoWindowMeaning | src/kmz/GeoXML3Parser.ts:1231-1265 | an info window is made exactly when the balloon is visible and not hidden; it changes only `geDirections`; it adds the position as a direction parameter exactly when there is one and directions are not suppressed |
| Records.InfoWindowDefault | src/kmz/GeoXML3Parser.ts:1231-1265 | the default balloon's content is the name as a heading, the description placeholder and the direction links |
| Records.WindowedMeaning | src/kmz/GeoXML3Parser.ts:1231-1247 | one `createInfoWindow` call on a shown balloon changes only the placemark's variables, sets `geDirections` and keeps every other value and display name, and pushes the position as a direction parameter exactly when there is one and directions are not suppressed (otherwise `geDirections` is empty) |
| Records.WindowsVarsMeaning | src/kmz/GeoXML3Parser.ts:1231-1247 | after one or more calls the display names and every value but `geDirections` are kept, `geDirections` is set, and the position is pushed once per call when there is one and directions are not suppressed |
| Records.DefaultContent | src/kmz/GeoXML3Parser.ts:1250-1260 | the content of a default-balloon info window |
| Overlays.GroundOverlayMeaning | src/kmz/GeoXML3Parser.ts:711-748 | rotation is the negated KML rotation (negating again restores it; NaN stays NaN); opacity is 1 without `color`; an archived image gives its data URL |
| Overlays.LinkModes | src/kmz/GeoXML3Parser.ts:803-823 | the refresh mode defaults to `onChange`; only `onInterval` has an interval, never NaN; only `onChange` has a view refresh mode, `never` by default; only `onStop` has a view format, which defaults to the bounding box and is otherwise the link's own |
| Overlays.AsWrittenOnStop | src/kmz/GeoXML3Parser.ts:817-818 | as written, the view format is the refresh-mode text or the bounding box, so a link's own view format is lost |
| Overlays.DocPathRooted | src/kmz/GeoXML3Parser.ts:787-788 | a rooted page path gives a directory that is empty or rooted |
| Overlays.QualifyAbsolute | src/kmz/GeoXML3Parser.ts:825-828 | the intended qualification makes any href absolute, and qualifying again changes nothing |
| Overlays.QualifyAsWrittenMisses | src/kmz/GeoXML3Parser.ts:825 | as written, the relative `tiles.kml` is left unqualified |
| Overlays.DefaultLinkLoadsOnce | src/kmz/GeoXML3Parser.ts:803-839 | a link with no refresh modes is loaded once |
| Polygons.PathPositions | src/kmz/GeoXML3Parser.ts:1181-1185 | there is one position per coordinate |
| Polygons.BoundaryPaths | src/kmz/GeoXML3Parser.ts:1177-1200 | there is one path per boundary |
| Polygons.BoundaryPath | src/kmz/GeoXML3Parser.ts:1181-1185 | the innermost push loop gives the boundary's positions, in order |
| Polygons.AppendBoundaries | src/kmz/GeoXML3Parser.ts:1177-1200 | the boundary loop appends one path per boundary and keeps the position count |
| Polygons.CollectPolygonPaths | src/kmz/GeoXML3Parser.ts:1177-1200 | the path loop equals the part-by-part specification (outer boundaries, then inner), with the total number of positions |
| Polygons.PolygonPathsAppend | src/kmz/GeoXML3Parser.ts:1177-1200 | the paths of concatenated parts are the concatenation of their paths |
| Polygons.SinglePartLayout | src/kmz/GeoXML3Parser.ts:1177-1200 | the `k`-th outer boundary is path `k`; inner boundaries follow all outer ones; each position is the coordinate's latitude and longitude |
| Polygons.PolygonSwitches | src/kmz/GeoXML3Parser.ts:1203-1221 | colours come from the styles; no fill zeroes only the fill opacity; no outline zeroes only the stroke weight and opacity |
| Polygons.DefaultPolygonOptions | src/kmz/GeoXML3Parser.ts:1203-1221 | the default style gives a white polygon with a one-unit stroke and opacities of 255/256 |
| Geometry.PolygonPartsOf | src/kmz/GeoXML3Parser.ts:561-578 | a `LinearRing` always leaves at least one polygon part |
| Geometry.WritePart | src/kmz/GeoXML3Parser.ts:571-576 | `polygon[pg] = part` overwrites entry `pg` or appends it, and keeps every other entry |
| Geometry.PolygonLoop | src/kmz/GeoXML3Parser.ts:563-577 | starting from the placeholder or from earlier parts, the loop gives one part per `Polygon` element |
| Geometry.ProcessGeometry | src/kmz/GeoXML3Parser.ts:544-591 | the dispatch loop over `coordinates` parents equals the geometry specification, including the throw of a `Point` without coordinates |
| Geometry.GeometryMeaning | src/kmz/GeoXML3Parser.ts:544-591 | a placemark has a position exactly when it has a point; the position is the point's first coordinate |
| Markers.FirstIndex | src/kmz/GeoXML3Parser.ts:635-642 | the search stops at the first accepted marker |
| Markers.AllInactive | src/kmz/GeoXML3Parser.ts:469-473 | there are as many markers as before |
| Markers.Deactivate | src/kmz/GeoXML3Parser.ts:469-473 | every marker becomes inactive and is otherwise unchanged |
| Markers.Reactivate | src/kmz/GeoXML3Parser.ts:634-644 | `found` holds exactly when some marker matches; the first match is made active and nothing else changes |
| Markers.ActiveOnlyAppend | src/kmz/GeoXML3Parser.ts:686-696 | the removal keeps the markers' order |
| Markers.SpliceInactive | src/kmz/GeoXML3Parser.ts:686-696 | the backward splice loop keeps exactly the active markers, in order |
| Markers.ActiveOnlyMeaning | src/kmz/GeoXML3Parser.ts:686-696 | a marker survives exactly when it is active; all survive when all are active, none when none is |
| Markers.ReactivatedSurvives | src/kmz/GeoXML3Parser.ts:469-696 | after a deactivation nothing would survive the removal, but a reactivated marker does |
| Markers.AsWrittenMatchesWrongMarker | src/kmz/GeoXML3Parser.ts:636-639 | as written, an id-less placemark matches the first id-less marker, whatever its position |
| StyleTable.StoreFrame | src/kmz/GeoXML3Parser.ts:176 | storing sets one slot and leaves every other slot present or absent as before |
| StyleTable.ProcessStyleMeaning | src/kmz/GeoXML3Parser.ts:175-274 | an inline style leaves the table alone; another throws exactly when its base has no table, and otherwise sets only its slot, created only when absent |
| StyleTable.ProcessStyleKeys | src/kmz/GeoXML3Parser.ts:175-274 | a base with a table never throws, and the bases are unchanged |
| StyleTable.ReadPairBase | src/kmz/GeoXML3Parser.ts:301-303 | a pair without a document part is read in the map's own base, otherwise in the resolved document |
| StyleTable.AddPairMeaning | src/kmz/GeoXML3Parser.ts:298-310 | a reference pair is added exactly when its slot exists, as a copy; a pair without an id is skipped; a `Style` pair is the slot |
| StyleTable.Replaced | src/kmz/GeoXML3Parser.ts:311-315 | the map's slot becomes a copy of `normal`, or the default |
| StyleTable.Highlighted | src/kmz/GeoXML3Parser.ts:316-318 | the highlight step keeps the bases, the entry keys and the map's own slot |
| StyleTable.StoredPairs | src/kmz/GeoXML3Parser.ts:319 | the stored copy has the same keys as the entries |
| StyleTable.PairReads | src/kmz/GeoXML3Parser.ts:298-310 | there is one read per `Pair` element, in document order |
| StyleTable.FinishStyleMapSlot | src/kmz/GeoXML3Parser.ts:311-319 | the map's slot is `normal` (or the default) carrying a copy of every entry |
| StyleTable.FinishStyleMapFrame | src/kmz/GeoXML3Parser.ts:311-319 | without the highlight step only the map's slot changes, and the stored entries are the entries' values |
| StyleTable.FinishStyleMapHighlight | src/kmz/GeoXML3Parser.ts:316-319 | with `processStyles`, a copied highlight entry is stored with its icon processed |
| StyleTable.CollectPairsThrown | src/kmz/GeoXML3Parser.ts:298-310 | once a pair throws, the later pairs change nothing |
| StyleTable.CollectPairsKeys | src/kmz/GeoXML3Parser.ts:298-310 | collecting pairs never adds or removes a base |
| StyleTable.ProcessStyleMapKeys | src/kmz/GeoXML3Parser.ts:293-320 | `processStyleMap` keeps the bases, whether or not it throws, and throws when its own base has no table |
| StyleTable.ProcessIconsMeaning | src/kmz/GeoXML3Parser.ts:1052-1056 | every slot is kept, with its icon processed and everything else as before |
| Placemarks.ReadPlacemark | src/kmz/GeoXML3Parser.ts:481-618 | building the record equals its specification |
| Placemarks.PlacemarkMeaning | src/kmz/GeoXML3Parser.ts:481-618 | the style is a table slot only without an own style and when that slot exists; every variable has a display name; there is a position exactly when there is a point |
| Placemarks.PlacemarkWithoutCoordinates | src/kmz/GeoXML3Parser.ts:544-591 | a placemark without `coordinates` is built and has no position |
| Placemarks.PointMarkerReactivates | src/kmz/GeoXML3Parser.ts:630-645 | a reload with a matching marker reactivates the first match and creates nothing |
| Placemarks.PointMarkerQueues | src/kmz/GeoXML3Parser.ts:1062-1066 | while the icon waits for its image, no marker is made and the request joins the end of the queue of that icon: the shared slot's, or the placemark's own inline style's |
| Placemarks.InlineQueuedReplayed | src/kmz/GeoXML3Parser.ts:926-941 | a point whose inline style's icon waits is replayed, after the earlier requests, when the image arrives |
| Placemarks.PointMarkerCreates | src/kmz/GeoXML3Parser.ts:1058-1089 | otherwise one marker is appended, with the placemark's id, position and visibility, and an info window exactly when the balloon is shown; the placemark keeps the variables that info window wrote |
| Placemarks.PointMarkerKeeps | src/kmz/GeoXML3Parser.ts:621-655 | the marker logic keeps the table's bases and, without a reload, the existing markers first |
| Placemarks.FreshDocumentMakesMarker | src/kmz/GeoXML3Parser.ts:621-655 | a first render makes a marker for a point exactly when the icon does not wait |
| Placemarks.ShapeWindowsMeaning | src/kmz/GeoXML3Parser.ts:662-677 | the polygon, line-string and track branches make one info window per shape a built-in creator draws, changing only the variables and pushing the position once per window |
| Placemarks.MarkerThenPolygon | src/kmz/GeoXML3Parser.ts:664-668 | a polygon drawn after a marker's info window pushes the position as a direction parameter a second time |
| Dependencies.IndexOfBase | src/kmz/GeoXML3Parser.ts:414 | `indexOfObjWithItem` finds the first document with that base URL, or none |
| Dependencies.FirstDependency | src/kmz/GeoXML3Parser.ts:396-443 | the scan passes over every earlier reference and stops at the first one it does not pass over |
| Dependencies.FirstDependencyAt | src/kmz/GeoXML3Parser.ts:396-443 | the stopping index is unique |
| Dependencies.RefUrls | src/kmz/GeoXML3Parser.ts:401 | there is one reference per `styleUrl` |
| Dependencies.Listing | src/kmz/GeoXML3Parser.ts:414-420 | the scan sees each document's base URL and failure flag |
| Dependencies.DependencyMeaning | src/kmz/GeoXML3Parser.ts:396-443 | only self-references mean no dependency; a dependency names another document that is neither loaded nor a listed failure |
| Render.WithBase | src/kmz/GeoXML3Parser.ts:446 | the document's base exists afterwards and the other bases are kept |
| Render.StyleNodesStep | src/kmz/GeoXML3Parser.ts:448-454 | one more `Style` element extends the loop by one `processStyle` |
| Render.StyleMapNodesStep | src/kmz/GeoXML3Parser.ts:456-461 | one more `StyleMap` element extends the loop by one `processStyleMap` |
| Render.StyleMapNodesThrown | src/kmz/GeoXML3Parser.ts:456-461 | once a `StyleMap` throws, the later ones change nothing |
| Render.ProcessedBase | src/kmz/GeoXML3Parser.ts:1052-1056 | processing the document's icons keeps every base |
| Render.StylePhaseMeaning | src/kmz/GeoXML3Parser.ts:445-466 | the style phase adds only the document's base, can throw only in the `StyleMap` loop, and processes every icon when `processStyles` runs |
| Render.PlacemarkPassLast | src/kmz/GeoXML3Parser.ts:476-684 | the pass over `i + 1` placemarks is one step after the pass over `i` |
| Render.PlacemarkPassThrown | src/kmz/GeoXML3Parser.ts:476-684 | once a placemark throws, the later ones change nothing |
| Render.PlacemarkPassMeaning | src/kmz/GeoXML3Parser.ts:476-684 | the loop appends one record per placemark when none throws; without a reload the old markers stay first; the bases are kept |
| Render.PlacemarkPassShort | src/kmz/GeoXML3Parser.ts:476-684 | a throwing loop has pushed fewer records than placemarks |
| Render.BuiltStepShort | src/kmz/GeoXML3Parser.ts:618 | a record is pushed at most once, and a throwing geometry pushes none |
| Render.PointAndPolygonDirections | src/kmz/GeoXML3Parser.ts:621-677 | a point and polygon placemark whose marker is made at once holds its position twice among the direction parameters |
| Render.StepMeaning | src/kmz/GeoXML3Parser.ts:476-684 | one pass appends at most one record and keeps the bases and, without a reload, the markers as a prefix |
| Render.ReloadWithoutPointsClears | src/kmz/GeoXML3Parser.ts:469-696 | a reload without point placemarks removes every kept marker |
| Render.PassWithoutPoints | src/kmz/GeoXML3Parser.ts:476-684 | placemarks without coordinates leave the markers and the table alone |
| Render.OverlaysOf | src/kmz/GeoXML3Parser.ts:711-748 | there is one record per `GroundOverlay`, in order |
| Render.LinkHrefs | src/kmz/GeoXML3Parser.ts:786-845 | there are never more loaded links than `NetworkLink` elements |
| Render.ContentMeaning | src/kmz/GeoXML3Parser.ts:445-783 | only the document's base is added; without a throw there is one record per placemark and per overlay; a throw comes from a `StyleMap`, a placemark geometry, or a ground overlay on a reload or when `createOverlay` makes no overlay |
| Render.OverlayNotMadeThrows | src/kmz/GeoXML3Parser.ts:748-770 | when `createOverlay` makes no overlay (no `window.ProjectedOverlay`, lines 1094-1096, or a caller's creator returning nothing), a document with a ground overlay always ends `render` with an exception, keeping at most one overlay record |
| Render.ContentKeepsMarkers | src/kmz/GeoXML3Parser.ts:469-696 | without a reload the old markers stay first |
| Render.ContentClearsMarkers | src/kmz/GeoXML3Parser.ts:469-696 | on a reload, a document without coordinates keeps no marker |
| Parser.Unlisted | src/kmz/GeoXML3Parser.ts:53-68 | every URL that gets a new document is one of the given URLs whose page URL is not loaded, and there are no more of them than URLs |
| Parser.UnlistedLinkStep | src/kmz/GeoXML3Parser.ts:836-839 | one more link adds its URL when it is loaded once and not yet loaded |
| Parser.ReplayMarkers | src/kmz/GeoXML3Parser.ts:935-941 | there is one marker per replayed request |
| Parser.Routed | src/kmz/GeoXML3Parser.ts:935-941 | a document gets at most one marker per request |
| Parser.RoutedMeaning | src/kmz/GeoXML3Parser.ts:935-941 | a document gets markers back exactly when it has a queued request |
| Parser.RoutedStep | src/kmz/GeoXML3Parser.ts:935-941 | each replayed request adds its marker to its own document only |
| Parser.GeoParser.FetchDoc | src/kmz/GeoXML3Parser.ts:70-96 | the document's directory is derived from its base URL |
| Parser.GeoParser.Reuse | src/kmz/GeoXML3Parser.ts:55-67 | a loaded document named again becomes a reload in the new batch, with the new URL |
| Parser.GeoParser.ReloadedUnlisted | src/kmz/GeoXML3Parser.ts:53-68 | an unloaded URL leaves the existing reloads as they are |
| Parser.GeoParser.AppendNew | src/kmz/GeoXML3Parser.ts:60-67 | a new document joins the set with the URL, the batch and the directory |
| Parser.GeoParser.ParseUrl | src/kmz/GeoXML3Parser.ts:53-68 | one URL either reuses a loaded document or appends a new one |
| Parser.GeoParser.ParseUrls | src/kmz/GeoXML3Parser.ts:53-68 | the set keeps its prefix and gains new documents exactly for the unloaded URLs, in order; loaded ones become reloads |
| Parser.GeoParser.Parse | src/kmz/GeoXML3Parser.ts:36-69 | one batch counts all URLs and is parse-only unless `afterParse` or `processStyles`; it reuses loaded documents and appends the rest |
| Parser.GeoParser.ProcessStyleMap | src/kmz/GeoXML3Parser.ts:293-320 | the method equals its table specification, including when it throws |
| Parser.GeoParser.CollectStylePairs | src/kmz/GeoXML3Parser.ts:298-310 | the pair loop equals the specification, ending at the first throw |
| Parser.GeoParser.ProcessStyles | src/kmz/GeoXML3Parser.ts:1052-1056 | every slot of the document's base gets its icon processed |
| Parser.GeoParser.ParseStyles | src/kmz/GeoXML3Parser.ts:445-466 | the style phase equals its specification |
| Parser.GeoParser.StyleElements | src/kmz/GeoXML3Parser.ts:448-454 | the `Style` loop equals its specification |
| Parser.GeoParser.StyleElement | src/kmz/GeoXML3Parser.ts:450-454 | one `Style` element is processed into the base exactly when its `id` is non-empty, and no base is added |
| Parser.GeoParser.StyleMapElements | src/kmz/GeoXML3Parser.ts:456-461 | the `StyleMap` loop equals its specification, ending at the first throw |
| Parser.GeoParser.ScanDependencies | src/kmz/GeoXML3Parser.ts:396-443 | it stops at the first dependency; a listed one is refetched, otherwise a new one joins and the batch counts one more |
| Parser.GeoParser.Enlist | src/kmz/GeoXML3Parser.ts:423-438 | a new document joins the list and the batch waits for one more |
| Parser.GeoParser.PlacePoint | src/kmz/GeoXML3Parser.ts:621-655 | the markers, table and placemark equal the point-marker specification, with a queued request kept on the slot or on the inline style |
| Parser.GeoParser.ParsePlacemarks | src/kmz/GeoXML3Parser.ts:476-684 | the loop equals the placemark pass, and `ok` means nothing threw |
| Parser.GeoParser.PlacemarkAt | src/kmz/GeoXML3Parser.ts:476-684 | one iteration extends the pass by one placemark |
| Parser.GeoParser.DrawShapes | src/kmz/GeoXML3Parser.ts:664-677 | the polygon, line-string and track branches, each making an info window when the built-in creator draws it, leave the placemark as the specified number of `createInfoWindow` calls does |
| Parser.GeoParser.PushPlacemark | src/kmz/GeoXML3Parser.ts:617-677 | the push, the marker logic and the shape info windows equal one specified step |
| Parser.GeoParser.ParseGroundOverlays | src/kmz/GeoXML3Parser.ts:698-783 | every overlay record is appended in order; on a reload, or when `createOverlay` makes no overlay, the first one throws |
| Parser.GeoParser.BuildContent | src/kmz/GeoXML3Parser.ts:445-783 | the table, records and markers equal the content specification, and `ok` means nothing threw |
| Parser.GeoParser.PlacemarkPhase | src/kmz/GeoXML3Parser.ts:468-696 | deactivation, the pass and the splice, as specified |
| Parser.GeoParser.FollowLink | src/kmz/GeoXML3Parser.ts:790-845 | one link is loaded once when its modes say so, adding its URL when unloaded |
| Parser.GeoParser.LoadLink | src/kmz/GeoXML3Parser.ts:839 | the set gains a document exactly when the link's base URL is not loaded |
| Parser.GeoParser.ParseOne | src/kmz/GeoXML3Parser.ts:36-69 | parsing one URL on a set gives a fresh batch of one, with the set's new documents as `parse` promises |
| Parser.GeoParser.FollowLinks | src/kmz/GeoXML3Parser.ts:786-845 | the document set keeps its prefix and gains exactly the unloaded qualified URLs of the links loaded once |
| Parser.GeoParser.Register | src/kmz/GeoXML3Parser.ts:856-869 | a first document is appended and filed; a known one is copied onto the filed one, which keeps its place and gains `markers` only if it already had them |
| Parser.GeoParser.CopyOnto | src/kmz/GeoXML3Parser.ts:864-866 | the filed document takes the rendered one's contents key by key: every field a rendered document always has, and `markers` only when the filed document already had that key |
| Parser.GeoParser.Finish | src/kmz/GeoXML3Parser.ts:852-883 | parse-only is cleared, the document is registered, the batch counts down by one, and it fires at zero |
| Parser.GeoParser.Complete | src/kmz/GeoXML3Parser.ts:445-884 | content as specified; a throw leaves the registry and the count alone, so the batch never fires; otherwise the links are followed and the document is registered and counted |
| Parser.GeoParser.LinksAndFinish | src/kmz/GeoXML3Parser.ts:785-884 | the records are unchanged, the links are followed, and the document is registered and counted |
| Parser.GeoParser.ScanPhase | src/kmz/GeoXML3Parser.ts:385-443 | a found dependency is the one waited for, appended when not listed; without one nothing is appended |
| Parser.GeoParser.Render | src/kmz/GeoXML3Parser.ts:357-884 | a failed response marks the document failed; a dependency defers it; otherwise as `Complete` |
| Parser.GeoParser.RenderLoaded | src/kmz/GeoXML3Parser.ts:385-884 | a loaded document is deferred exactly when the scan finds a dependency; otherwise it is registered and counted, and the batch fires at zero |
| Parser.GeoParser.ParseKmlString | src/kmz/GeoXML3Parser.ts:23-35 | a batch of one, and a document without a URL that is rendered at once and never registered |
| Parser.GeoParser.IconLoaded | src/kmz/GeoXML3Parser.ts:926-942 | the slot's icon takes the load, and each queued request adds an active marker to its own document, in order |
| Parser.GeoParser.InlineIconLoaded | src/kmz/GeoXML3Parser.ts:926-942 | the inline style's icon on the placemark takes the load, and each queued request adds an active marker to its own document, in order |
| Parser.GeoParser.ReplayRequests | src/kmz/GeoXML3Parser.ts:935-941 | each document's markers are extended by its routed replay markers, in queue order |
| Parser.GeoParser.ReplayAt | src/kmz/GeoXML3Parser.ts:935-941 | one request adds its marker to its own document |

## Left out

- The XML parser, `fetchXML`, KMZ unpacking and `fetchDoc`'s choice by URL scheme (source lines 70-96) are the host's. `Render` receives the parsed response; `FetchDoc` models only the directory it derives.
- All Google Maps objects are left out: `LatLng`, `LatLngBounds`, the map, `fitBounds`, `InfoWindow` objects, marker and overlay drawing, the `'parsed'` event, and hide/show/toggle. Bounds are not tracked, so the `parserOptions.zoom` call of `fitBounds` (source lines 875-877) is left out too. The `failedParse` callback (source lines 362-364, 372-374 and 380-382) and the `geoXML3.log` diagnostics are calls into the caller and the console; the `Failed` outcome of `Render` covers what `render` itself does in those cases.
- `randomColor` (source lines 902-915) uses `Math.random`. A random colour mode is modelled as "no fixed colour".
- Network links that reload on an interval (`setInterval`) or on map stop events are timers and map events, and are not followed. Only links loaded once are.
- Parser.GeoParser.ParseGroundOverlays: the overlay reconciliation on a reload (source lines 749-782) calls `bounds()` on the plain record just pushed, which throws. The model ends `render` there with an exception and does not model the reconciliation.
- Parser.GeoParser.Finish: the test at source line 852 always holds because lines 389-394 set the arrays, so parse-only is always cleared.
- Parser.GeoParser.Render: the document's records are reset after the dependency scan rather than before it. The scan does not read them, so the result is the same.
- Parser.GeoParser.Finish: the document is registered before `parseOnly` is cleared, not after. Line 852 always clears the flag here (`doc.groundoverlays` is set), so the guard at line 856 always holds and registration runs unconditionally; the end state is the same.
- Parser.GeoParser.IconLoaded and Parser.GeoParser.InlineIconLoaded: the markers a replay makes are computed from the table as the load left it, before they are distributed to their documents. The source writes the info window text back into replayed placemarks; the model does not. A queued request holds the placemark as it was when queued, while the source shares the object, so later writes to it (such as the shape info windows) are not seen by the replay.
- Placemarks.PointMarkerCreates: a document whose `markers` list is undefined when `createMarker` pushes (source line 1083) would throw. The model always has a list.
- Parser.GeoParser.Render states the outcome and the registry. The content facts are stated by `Complete` and `BuildContent`.
- Coords.ProcessPlacemarkCoords: the fallback for a missing `coordinates` list (source lines 327-333) cannot happen, because `getElementsByTagName` always returns a list.
- The source as written cannot run at several places, and the model follows the evident closure-based program there. The loop counters declared `const` at source lines 298, 335 and 341 would throw on the first increment. `const nodes` (line 397) is reassigned at line 448. `let styleID` (line 447) is declared again with `var` at lines 452 and 459. `render` is unbound at lines 34 and 71. `this.render` is called inside a `function` callback at lines 436-437, where `this` is not the parser. `nodeCount` and `thisNode` (lines 449-451) and `pm` (line 477) are never declared. `const coords` (line 336) is reassigned at lines 337 and 342.
- Two behaviours of `geoXML3` helpers outside this file are assumptions. `getElementsByTagName` on a string finds nothing: a `StyleMap` pair's `Style` is passed to `processStyle` as text (lines 300 and 306, reaching line 178), which then changes no field. `nodeValue` of a missing node with no default given (for example line 482) is `""`.
- `src/kmz/MultiGeometry.ts` is not part of this model. Of `createOverlay`, only whether it returns an overlay is modelled, as the `Env` flag `overlayMade`. Of `createPolygon` and `createPolyline`, only the info window each makes is part of the placemark step. The paths and options `createPolygon` computes are stated by `Polygons` on their own. The map objects, bounds, `doc.gpolygons` and `doc.gpolylines` are not kept.
- Numbers are reals with NaN as `None`. IEEE rounding is not modelled, and `parseFloat`, `Number` and `parseInt(…, 10)` are abstract functions.
- `cleanURL`, `defileURL`, `getBooleanValue`, `getOpacity`, the `Image` probe, `LatLng.equals`, `LatLng.toUrlValue` and the address encoding are abstract functions in `Env`. The page path, the KMZ data URLs and `overlayMade` are given values there.
- Polygons.PolygonOptionsOf and Records.InfoWindow: the caller's `parserOptions.polygonOptions` (combined with the computed polygon options at source line 1211) and `parserOptions.infoWindowOptions` (combined with the info window content at line 1259) are not modelled. `combineOptions` is outside this file. The model states only the options the parser itself computes.
- The `pmParseFn` callback (source line 617) can change a placemark arbitrarily and is not modelled.
- A caller-supplied `createMarker`, `createPolygon` or `createLineString` is an option flag. With one, the built-in creator does not run: no marker logic, or no info window for that shape. What the caller's function does is not modelled.
- Placemarks.PointMarker, Parser.GeoParser.PlacePoint, Parser.GeoParser.FollowLinks, Render.LinkHrefs, Records.InfoWindow and Records.DefaultContent run the corrected behaviour of the findings below, not the code as written. This covers the marker match, the link refresh modes, href qualification and the display-name lookup. Each finding's as-written member states what the code does instead.
- Render.LinkHrefs: its contract states only the bound. The meaning of the list is stated by `UnlistedLinkStep`, `FollowLinks` and `DefaultLinkLoadsOnce`.
- Xml.ParentNames: its contract states only the length. The parent names are used by `GeometryOf`.

## Findings

| source | as written | input that shows it | evidently intended | confidence | as-written member | corrected member |
|---|---|---|---|---|---|---|
| src/kmz/GeoXML3Parser.ts:825 | `/^[\/\|http]/` is a character class, so any href starting with `/`, `\|`, `h`, `t` or `p` counts as absolute | a `NetworkLink` href `tiles.kml` stays unqualified | qualify every href that is not rooted or `http(s)` | not executed | Overlays.QualifyAsWrittenMisses | Overlays.QualifyAbsolute |
| src/kmz/GeoXML3Parser.ts:817-818 | `viewRefreshTime` and `viewFormat` both read the `refreshMode` element | a link with `viewRefreshMode` `onStop` and its own `viewFormat` gets the bounding-box default | read `viewRefreshTime` and `viewFormat` | not executed | Overlays.AsWrittenOnStop | Overlays.LinkModes |
| src/kmz/GeoXML3Parser.ts:636-639 | an id-less placemark matches any marker with a falsy id, because `null == null` | two id-less points at different positions, reloaded: the second reactivates the first marker | match by id only when the marker has an id; an id-less marker matches by position | not executed | Markers.AsWrittenMatchesWrongMarker | Markers.Reactivate |
| src/kmz/GeoXML3Parser.ts:1250 | `$[w/displayName]` looks up the display key `w/displayName`, because group 1 holds the whole capture | `$[name/displayName]` yields `undefined` | look up the display name of `w` | not executed | Colors.DisplayNameAsWritten | Colors.DisplayNameIntended |

=== FILE: colors.dfy ===
/** The KML colour codec (`aabbggrr`, the colorType of KML 2.2, decoded to `#rrggbb` and
    an opacity), the colour attribute of an info window, and the `$[var]` substitution
    of balloon text. */
module Colors {
  import opened Wrappers
  import opened Text
  import opened Numbers
  import opened Model
  import opened Styles

  predicate IsHexDigit(c: char) {
    ('0' <= c <= '9') || ('a' <= c <= 'f') || ('A' <= c <= 'F')
  }

  function DigitValue(c: char): (v: nat)
    requires IsHexDigit(c)
    ensures v < 16
  {
    if '0' <= c <= '9' then c as int - '0' as int
    else if 'a' <= c <= 'f' then c as int - 'a' as int + 10
    else c as int - 'A' as int + 10
  }

  /** The length of the longest prefix of `s` made of hexadecimal digits. */
  function HexRun(s: string): (n: nat)
    ensures n <= |s|
    ensures forall k :: 0 <= k < n ==> IsHexDigit(s[k])
    ensures n < |s| ==> !IsHexDigit(s[n])
  {
    if s != [] && IsHexDigit(s[0]) then 1 + HexRun(s[1..]) else 0
  }

  /** The value of the longest prefix of hexadecimal digits of `s`, read after the
      digits already read into `acc`. */
  function HexPrefixValue(s: string, acc: nat): nat
  {
    if s != [] && IsHexDigit(s[0]) then HexPrefixValue(s[1..], 16 * acc + DigitValue(s[0])) else acc
  }

  /** `parseInt(s, 16)`: leading white space skipped, an optional sign, an optional `0x`
      or `0X`, then the longest run of hexadecimal digits; NaN (`None`) when that run is
      empty. */
  function ParseIntHex(s: string): Option<int> {
    var t := DropSpaces(s);
    var neg := |t| > 0 && t[0] == '-';
    var u := if |t| > 0 && (t[0] == '-' || t[0] == '+') then t[1..] else t;
    var v := if |u| >= 2 && u[0] == '0' && (u[1] == 'x' || u[1] == 'X') then u[2..] else u;
    if HexRun(v) == 0 then None
    else Some(if neg then -(HexPrefixValue(v, 0) as int) else HexPrefixValue(v, 0))
  }

  /** Two hexadecimal digits read as one byte. */
  lemma ParseIntHexByte(s: string)
    requires |s| == 2 && IsHexDigit(s[0]) && IsHexDigit(s[1])
    ensures ParseIntHex(s) == Some(16 * DigitValue(s[0]) + DigitValue(s[1]))
  {
    assert DropSpaces(s) == s;
    assert s[1..][1..] == [];
    assert HexRun(s) == 2;
    assert HexPrefixValue(s, 0) == HexPrefixValue(s[1..], DigitValue(s[0]));
    assert HexPrefixValue(s[1..], DigitValue(s[0])) == HexPrefixValue(s[1..][1..], 16 * DigitValue(s[0]) + DigitValue(s[1]));
  }

  /** `s.substr(start, 2)`. */
  function Substr2(s: string, start: nat): string {
    if start >= |s| then "" else s[start..if start + 2 <= |s| then start + 2 else |s|]
  }

  /** The decoded colour: `#rrggbb`, or `None` when the colour mode asks for a random
      colour; and the opacity, NaN when the alpha part is not hexadecimal. */
  datatype ColorResult = ColorResult(color: Option<string>, opacity: Num)

  /** The opacity of an alpha part: its hexadecimal value over 256. */
  function AlphaOpacity(aa: string): Num {
    match ParseIntHex(aa)
    case None => None
    case Some(v) => Some(v as real / 256.0)
  }

  /** Two hexadecimal digits give their value over 256 as the opacity, which lies in
      [0, 1). */
  lemma AlphaOpacityByte(aa: string)
    requires |aa| == 2 && IsHexDigit(aa[0]) && IsHexDigit(aa[1])
    ensures AlphaOpacity(aa) == Some((16 * DigitValue(aa[0]) + DigitValue(aa[1])) as real / 256.0)
    ensures 0.0 <= AlphaOpacity(aa).value < 1.0
  {
    var v := 16 * DigitValue(aa[0]) + DigitValue(aa[1]);
    AlphaOpacityValue(aa, v);
    ByteFraction(v);
  }

  lemma AlphaOpacityValue(aa: string, v: int)
    requires |aa| == 2 && IsHexDigit(aa[0]) && IsHexDigit(aa[1])
    requires v == 16 * DigitValue(aa[0]) + DigitValue(aa[1])
    ensures AlphaOpacity(aa) == Some(v as real / 256.0) && 0 <= v < 256
  {
    ParseIntHexByte(aa);
  }

  /** A byte over 256 lies in [0, 1). */
  lemma ByteFraction(v: int)
    requires 0 <= v < 256
    ensures 0.0 <= v as real / 256.0 < 1.0
  {
  }

  /** `kmlColor(kmlIn, colorMode)`: an empty colour means opaque white; the byte order
      of `aabbggrr` is reversed to `rrggbb`; the opacity is `aa / 256`. */
  function KmlColor(kmlIn: string, colorMode: string): ColorResult {
    DecodeColor(if kmlIn == "" then "ffffffff" else kmlIn, colorMode)
  }

  /** A non-empty colour is decoded as it is. */
  lemma KmlColorNonEmpty(s: string, colorMode: string)
    requires s != ""
    ensures KmlColor(s, colorMode) == DecodeColor(s, colorMode)
  {
  }

  /** The decoding of a non-empty colour. */
  function DecodeColor(k: string, colorMode: string): ColorResult {
    ColorResult(if colorMode == "random" then None
                else Some("#" + Substr2(k, 6) + Substr2(k, 4) + Substr2(k, 2)),
                AlphaOpacity(Substr2(k, 0)))
  }

  /** The alpha byte of an eight-digit colour over 256 is its opacity (in [0, 1), by
      `AlphaOpacityByte`). */
  lemma KmlColorOpacity(s: string, colorMode: string)
    requires |s| == 8 && IsHexDigit(s[0]) && IsHexDigit(s[1])
    ensures KmlColor(s, colorMode).opacity == Some((16 * DigitValue(s[0]) + DigitValue(s[1])) as real / 256.0)
  {
    KmlColorNonEmpty(s, colorMode);
    var aa := Substr2(s, 0);
    assert |aa| == 2 && aa[0] == s[0] && aa[1] == s[1];
    var v := 16 * DigitValue(s[0]) + DigitValue(s[1]);
    AlphaOpacityValue(aa, v);
    assert DecodeColor(s, colorMode).opacity == AlphaOpacity(aa);
  }

  /** On an eight-digit colour the decoder swaps the blue and red bytes into `#rrggbb`,
      unless the colour mode asks for a random colour. */
  lemma KmlColorRgb(s: string, colorMode: string)
    requires |s| == 8
    ensures KmlColor(s, colorMode).color ==
            if colorMode == "random" then None else Some("#" + s[6..8] + s[4..6] + s[2..4])
  {
    assert s != "";
    assert Substr2(s, 2) == s[2..4] && Substr2(s, 4) == s[4..6] && Substr2(s, 6) == s[6..8];
  }

  /** The KML example: `7fff0000` is half-transparent pure blue. */
  lemma KmlColorExample()
    ensures KmlColor("7fff0000", "normal") == ColorResult(Some("#0000ff"), Some(127.0 / 256.0))
  {
    var s := "7fff0000";
    assert |s| == 8 && s[0] == '7' && s[1] == 'f';
    KmlColorOpacity(s, "normal");
    assert 16 * DigitValue('7') + DigitValue('f') == 127;
    KmlColorRgb(s, "normal");
    var b, g, r := s[2..4], s[4..6], s[6..8];
    assert b == "ff" && g == "00" && r == "00";
    assert "#" + r + g + b == "#0000ff";
  }

  /** An empty colour decodes as `ffffffff`, opaque white up to the 255/256 opacity. */
  lemma KmlColorEmpty(colorMode: string)
    requires colorMode != "random"
    ensures KmlColor("", colorMode) == KmlColor("ffffffff", colorMode)
    ensures KmlColor("", colorMode) == ColorResult(Some("#ffffff"), Some(255.0 / 256.0))
  {
    var s := "ffffffff";
    var ff := "ff";
    assert Substr2(s, 0) == ff && Substr2(s, 2) == ff && Substr2(s, 4) == ff && Substr2(s, 6) == ff;
    assert "#" + ff + ff + ff == "#ffffff";
    AlphaOpacityByte(ff);
  }

  /** The background entry of an info window's `style` attribute. */
  function BackgroundEntry(b: Balloon): string {
    "background: " + KmlColor(b.bgColor, "").color.value + ";"
  }

  /** The text-colour entry of an info window's `style` attribute. */
  function TextColorEntry(b: Balloon): string {
    "color: " + KmlColor(b.textColor, "").color.value + ";"
  }

  /** The colour entries of an info window's `style` attribute (source lines 1254-1257):
      the background entry when the balloon background is not `ffffffff`, then the
      text-colour entry when the text colour is not `ff000000`. */
  function StyleEntries(b: Balloon): seq<string> {
    (if b.bgColor != "ffffffff" then [BackgroundEntry(b)] else [])
    + (if b.textColor != "ff000000" then [TextColorEntry(b)] else [])
  }

  /** The `style` attribute of an info window: the entries joined by a space, or nothing
      when there are none. */
  function InfoWindowStyleAttr(b: Balloon): string {
    var arr := StyleEntries(b);
    if |arr| > 0 then " style=\"" + Join(arr, ' ') + "\"" else ""
  }

  /** The info window carries a colour attribute exactly when a balloon colour differs
      from its default; the background entry comes first, and a lone text colour is the
      whole attribute. */
  lemma InfoWindowStyleMeaning(b: Balloon)
    ensures InfoWindowStyleAttr(b) == "" <==> b.bgColor == "ffffffff" && b.textColor == "ff000000"
    ensures b.bgColor != "ffffffff" ==>
              StartsWith(InfoWindowStyleAttr(b), " style=\"" + BackgroundEntry(b))
    ensures b.bgColor == "ffffffff" && b.textColor != "ff000000" ==>
              InfoWindowStyleAttr(b) == " style=\"" + TextColorEntry(b) + "\""
  {
    var arr := StyleEntries(b);
    if |arr| > 0 {
      assert InfoWindowStyleAttr(b) == " style=\"" + Join(arr, ' ') + "\"";
      if b.bgColor != "ffffffff" {
        JoinStartsWith(arr, ' ');
        StartsWithInside(" style=\"", Join(arr, ' '), "\"", arr[0]);
      }
    }
  }

  /** The default balloon colours add no colour attribute. */
  lemma DefaultBalloonPlain()
    ensures InfoWindowStyleAttr(DefaultStyle.balloon) == ""
  {
    InfoWindowStyleMeaning(DefaultStyle.balloon);
  }

  /** `\w`: the characters a `$[name]` variable name may contain. */
  predicate IsWordChar(c: char) {
    ('a' <= c <= 'z') || ('A' <= c <= 'Z') || ('0' <= c <= '9') || c == '_'
  }

  /** The length of the longest prefix of word characters. */
  function WordRun(s: string): (n: nat)
    ensures n <= |s|
    ensures forall k :: 0 <= k < n ==> IsWordChar(s[k])
    ensures n < |s| ==> !IsWordChar(s[n])
  {
    if s != [] && IsWordChar(s[0]) then 1 + WordRun(s[1..]) else 0
  }

  /** One match of `\$\[(\w+(\/displayName)?)\]`: the variable name, whether the
      `/displayName` suffix was present, and the length of the matched text. */
  datatype TemplateMatch = TemplateMatch(name: string, displayName: bool, len: nat)

  const DisplayNameSuffix: string := "/displayName]"

  /** The match at the start of `s`, if any. `\w+` is greedy and can only be followed by
      `/` or `]`, so the only candidate is the longest run of word characters. */
  function MatchAt(s: string): (r: Option<TemplateMatch>)
    ensures r.Some? ==> 3 <= r.value.len <= |s|
    ensures r.Some? ==> |s| >= 2 && s[0] == '$' && s[1] == '['
  {
    if |s| >= 2 && s[0] == '$' && s[1] == '[' then
      var w := WordRun(s[2..]);
      var rest := s[2 + w..];
      if w == 0 then None
      else if StartsWith(rest, "]") then Some(TemplateMatch(s[2..2 + w], false, 3 + w))
      else if StartsWith(rest, DisplayNameSuffix) then Some(TemplateMatch(s[2..2 + w], true, 2 + w + |DisplayNameSuffix|))
      else None
    else None
  }

  /** A global `replace` of the pattern: each match, scanning left to right and resuming
      after it, is replaced by `f` of the match; everything else is kept. */
  function Replace(s: string, f: TemplateMatch -> string): string
    decreases |s|
  {
    if s == [] then []
    else match MatchAt(s)
      case Some(m) => f(m) + Replace(s[m.len..], f)
      case None => [s[0]] + Replace(s[1..], f)
  }

  /** `vars.val[n]` / `vars.display[n]`: a missing variable reads as `undefined`, which
      the replacement turns into the text `"undefined"`. */
  function Lookup(m: map<string, string>, k: string): string {
    if k in m then m[k] else "undefined"
  }

  /** The replacement as written at source line 1250: the first capture group holds the
      whole `name/displayName`, and that is the key looked up in the display names. */
  function AsWrittenValue(vars: Vars): TemplateMatch -> string {
    (m: TemplateMatch) => if m.displayName then Lookup(vars.display, m.name + "/displayName") else Lookup(vars.val, m.name)
  }

  /** The evidently intended replacement: the display name of the variable itself. */
  function IntendedValue(vars: Vars): TemplateMatch -> string {
    (m: TemplateMatch) => if m.displayName then Lookup(vars.display, m.name) else Lookup(vars.val, m.name)
  }

  /** The balloon text after substitution, as the rest of the model uses it. */
  function BalloonText(text: string, vars: Vars): string {
    Replace(text, IntendedValue(vars))
  }

  /** No `$[` opens a variable anywhere in `s`. */
  predicate NoTemplate(s: string) {
    forall i :: 0 <= i < |s| - 1 ==> !(s[i] == '$' && s[i + 1] == '[')
  }

  /** Text with no `$[` comes through unchanged. */
  lemma {:induction false} ReplaceNoTemplate(s: string, f: TemplateMatch -> string)
    requires NoTemplate(s)
    ensures Replace(s, f) == s
    decreases |s|
  {
    if s != [] {
      assert MatchAt(s).None?;
      NoTemplateTail(s);
      ReplaceNoTemplate(s[1..], f);
      assert s == [s[0]] + s[1..];
    }
  }

  lemma NoTemplateTail(s: string)
    requires NoTemplate(s) && s != []
    ensures NoTemplate(s[1..])
  {
    forall i | 0 <= i < |s[1..]| - 1 ensures !(s[1..][i] == '$' && s[1..][i + 1] == '[') {
      assert s[1..][i] == s[i + 1] && s[1..][i + 1] == s[i + 2];
    }
  }

  /** A first character that does not open `$[` is copied, and the scan goes on after it. */
  lemma ReplacePlainStep(s: string, f: TemplateMatch -> string)
    requires s != [] && !(|s| >= 2 && s[0] == '$' && s[1] == '[')
    ensures Replace(s, f) == [s[0]] + Replace(s[1..], f)
  {
    assert MatchAt(s).None?;
  }

  /** The first character of a prefix that does not open `$[` is copied. */
  lemma PlainPrefixStep(a: string, b: string, f: TemplateMatch -> string)
    requires a != [] && !(|a| >= 2 && a[0] == '$' && a[1] == '[') && (|a| >= 2 || a[0] != '$')
    ensures Replace(a + b, f) == [a[0]] + Replace(a[1..] + b, f)
  {
    var s := a + b;
    assert s[0] == a[0];
    assert |a| >= 2 ==> s[1] == a[1];
    ReplacePlainStep(s, f);
    assert s[1..] == a[1..] + b;
  }

  /** Putting the first character back in front of the rest. */
  lemma ConsConcat(x: string, r: string)
    requires x != []
    ensures [x[0]] + (x[1..] + r) == x + r
  {
    assert x == [x[0]] + x[1..];
  }

  /** A prefix with no `$[` that does not end in `$` is copied, and the scan goes on
      after it. */
  lemma {:induction false} ReplaceLiteralPrefix(a: string, b: string, f: TemplateMatch -> string)
    requires NoTemplate(a) && (a == [] || a[|a| - 1] != '$')
    ensures Replace(a + b, f) == a + Replace(b, f)
    decreases |a|
  {
    if a == [] {
      assert a + b == b;
    } else {
      NoTemplateTail(a);
      ReplaceLiteralPrefix(a[1..], b, f);
      PlainPrefixStep(a, b, f);
      ConsConcat(a, Replace(b, f));
    }
  }

  /** A run of word characters is exactly as long as the word when what follows cannot
      continue it. */
  lemma {:induction false} WordRunOver(w: string, rest: string)
    requires forall k :: 0 <= k < |w| ==> IsWordChar(w[k])
    requires rest == [] || !IsWordChar(rest[0])
    ensures WordRun(w + rest) == |w|
  {
    if w != [] {
      assert (w + rest)[1..] == w[1..] + rest;
      WordRunOver(w[1..], rest);
    } else {
      assert w + rest == rest;
    }
  }

  /** `$[w]` followed by anything is one match, with `w` as the name. */
  lemma ReplaceVariable(w: string, b: string, f: TemplateMatch -> string)
    requires |w| > 0 && forall k :: 0 <= k < |w| ==> IsWordChar(w[k])
    ensures Replace("$[" + w + "]" + b, f) == f(TemplateMatch(w, false, |w| + 3)) + Replace(b, f)
  {
    var s := "$[" + w + "]" + b;
    assert s[2..] == w + ("]" + b);
    WordRunOver(w, "]" + b);
    assert s[2 + |w|..] == "]" + b;
    assert s[2..2 + |w|] == w;
    assert MatchAt(s) == Some(TemplateMatch(w, false, |w| + 3));
    assert s[|w| + 3..] == b;
  }

  /** `$[w/displayName]` followed by anything is one match, with `w` as the name and
      the display-name flag set. */
  lemma ReplaceDisplayName(w: string, b: string, f: TemplateMatch -> string)
    requires |w| > 0 && forall k :: 0 <= k < |w| ==> IsWordChar(w[k])
    ensures Replace("$[" + w + DisplayNameSuffix + b, f)
         == f(TemplateMatch(w, true, |w| + 15)) + Replace(b, f)
  {
    var s := "$[" + w + DisplayNameSuffix + b;
    assert s[2..] == w + (DisplayNameSuffix + b);
    WordRunOver(w, DisplayNameSuffix + b);
    assert s[2 + |w|..] == DisplayNameSuffix + b;
    StartsWithConcat(DisplayNameSuffix, b);
    assert s[2..2 + |w|] == w;
    assert MatchAt(s) == Some(TemplateMatch(w, true, |w| + 15));
    assert s[|w| + 15..] == b;
  }

  /** The default balloon text: `$[name]` and `$[geDirections]` are replaced by the
      placemark's values, and `$>[description]` does not match the pattern and stays as
      it is. */
  lemma DefaultBalloonSubstitution(vars: Vars)
    ensures BalloonText(DefaultBalloonText, vars)
         == "<h3>" + (Lookup(vars.val, "name") + ("</h3>\n<div>" + ("$>[description]</div>\n<div>"
            + (Lookup(vars.val, "geDirections") + "</div>"))))
  {
    DefaultBalloonReplaced(IntendedValue(vars));
  }

  /** The default balloon text with any value for each matched variable. */
  lemma DefaultBalloonReplaced(f: TemplateMatch -> string)
    ensures Replace(DefaultBalloonText, f)
         == "<h3>" + (f(TemplateMatch("name", false, 7)) + ("</h3>\n<div>" + ("$>[description]</div>\n<div>"
            + (f(TemplateMatch("geDirections", false, 15)) + "</div>"))))
  {
    var rest := "</h3>\n<div>" + ("$>[description]</div>\n<div>" + ("$[geDirections]" + "</div>"));
    DefaultBalloonPiecesPlain();
    assert "$[name]" + rest == "$[" + "name" + "]" + rest;
    ReplaceLiteralPrefix("<h3>", "$[name]" + rest, f);
    ReplaceVariable("name", rest, f);
    DefaultBalloonRest(f);
  }

  /** The part of the default balloon text after `$[name]`. */
  lemma DefaultBalloonRest(f: TemplateMatch -> string)
    ensures Replace("</h3>\n<div>" + ("$>[description]</div>\n<div>" + ("$[geDirections]" + "</div>")), f)
         == "</h3>\n<div>" + ("$>[description]</div>\n<div>"
            + (f(TemplateMatch("geDirections", false, 15)) + "</div>"))
  {
    var m2 := "$>[description]</div>\n<div>";
    var g := "$[geDirections]" + "</div>";
    DefaultBalloonPiecesPlain();
    ReplaceLiteralPrefix("</h3>\n<div>", m2 + g, f);
    ReplaceLiteralPrefix(m2, g, f);
    DefaultBalloonLast(f);
  }

  /** The last part of the default balloon text. */
  lemma DefaultBalloonLast(f: TemplateMatch -> string)
    ensures Replace("$[geDirections]" + "</div>", f) == f(TemplateMatch("geDirections", false, 15)) + "</div>"
  {
    DefaultBalloonPiecesPlain();
    assert "$[geDirections]" + "</div>" == "$[" + "geDirections" + "]" + "</div>";
    ReplaceVariable("geDirections", "</div>", f);
    ReplaceNoTemplate("</div>", f);
  }

  /** The fixed pieces of the default balloon text hold no `$[` and do not end in `$`. */
  lemma DefaultBalloonPiecesPlain()
    ensures NoTemplate("<h3>") && NoTemplate("</h3>\n<div>")
    ensures NoTemplate("$>[description]</div>\n<div>") && NoTemplate("</div>")
  {
  }

  /** As written, the display-name form never finds a display name unless some display
      key itself contains `/displayName`: `$[w/displayName]` looks up the key
      `w/displayName`, which reads as `"undefined"` when missing, whereas the evidently
      intended lookup gives the display name of `w`. */
  lemma DisplayNameAsWritten(w: string, vars: Vars)
    requires |w| > 0 && forall k :: 0 <= k < |w| ==> IsWordChar(w[k])
    requires w in vars.display && w + "/displayName" !in vars.display
    ensures Replace("$[" + w + DisplayNameSuffix, AsWrittenValue(vars)) == "undefined"
    ensures Replace("$[" + w + DisplayNameSuffix, IntendedValue(vars)) == vars.display[w]
  {
    var s := "$[" + w + DisplayNameSuffix;
    assert s == s + [];
    ReplaceDisplayName(w, [], AsWrittenValue(vars));
    ReplaceDisplayName(w, [], IntendedValue(vars));
  }

  /** With the intended replacement, `$[w/displayName]` gives the display name of `w`
      (`undefined` when it has none) and the text after it is substituted in turn. */
  lemma DisplayNameIntended(w: string, b: string, vars: Vars)
    requires |w| > 0 && forall k :: 0 <= k < |w| ==> IsWordChar(w[k])
    ensures Replace("$[" + w + DisplayNameSuffix + b, IntendedValue(vars))
         == Lookup(vars.display, w) + Replace(b, IntendedValue(vars))
  {
    ReplaceDisplayName(w, b, IntendedValue(vars));
  }
}

=== FILE: coords.dfy ===
/** Coordinate extraction: `processPlacemarkCoords` and the gx:Track coordinate loop. */
module Coords {
  import opened Wrappers
  import opened Xml
  import opened Text
  import opened Numbers

  const GX_NS: string := "http://www.google.com/kml/ext/2.2"

  /** One `{lat, lng, alt}` tuple; any part may be NaN. */
  datatype Coord = Coord(lat: Num, lng: Num, alt: Num)

  /** The tuple made from the tokens of one coordinate, or `None` when it is dropped:
      it is kept only when `Number()` of the first two tokens is not NaN (a missing
      token is `undefined`, which is NaN); then `lng` is token 0, `lat` token 1 and
      `alt` token 2 (NaN when absent), each through `parseFloat`. */
  function TupleFrom(parts: seq<string>, num: NumberSyntax): Option<Coord> {
    if |parts| >= 2 && num.toNumber(parts[0]).Some? && num.toNumber(parts[1]).Some?
    then Some(Coord(num.parseFloat(parts[1]), num.parseFloat(parts[0]),
                    if |parts| >= 3 then num.parseFloat(parts[2]) else None))
    else None
  }

  /** The coordinate of one white-space-separated `lng,lat[,alt]` token. */
  function TupleOf(token: string, num: NumberSyntax): Option<Coord> {
    TupleFrom(Split(token, ','), num)
  }

  function AsList(o: Option<Coord>): seq<Coord> {
    match o
    case Some(c) => [c]
    case None => []
  }

  /** The tuples of the tokens that are kept, in token order. */
  function Kept(tokens: seq<string>, num: NumberSyntax): seq<Coord> {
    if tokens == [] then [] else AsList(TupleOf(tokens[0], num)) + Kept(tokens[1..], num)
  }

  /** Filtering distributes over concatenation, so the survivors keep their relative
      order. */
  lemma {:induction false} KeptAppend(a: seq<string>, b: seq<string>, num: NumberSyntax)
    ensures Kept(a + b, num) == Kept(a, num) + Kept(b, num)
  {
    if a == [] {
      assert a + b == b;
    } else {
      assert (a + b)[1..] == a[1..] + b;
      KeptAppend(a[1..], b, num);
    }
  }

  /** A coordinate is in the result exactly when some token yields it; there are never
      more coordinates than tokens, and as many exactly when no token is dropped. */
  lemma {:induction false} KeptMembers(tokens: seq<string>, num: NumberSyntax)
    ensures forall c :: c in Kept(tokens, num) <==>
              exists k :: 0 <= k < |tokens| && TupleOf(tokens[k], num) == Some(c)
    ensures |Kept(tokens, num)| <= |tokens|
    ensures |Kept(tokens, num)| == |tokens| <==>
              forall k :: 0 <= k < |tokens| ==> TupleOf(tokens[k], num).Some?
  {
    if tokens != [] {
      KeptMembers(tokens[1..], num);
      forall c ensures c in Kept(tokens, num) <==>
               exists k :: 0 <= k < |tokens| && TupleOf(tokens[k], num) == Some(c)
      {
        if exists k :: 0 <= k < |tokens| && TupleOf(tokens[k], num) == Some(c) {
          var k :| 0 <= k < |tokens| && TupleOf(tokens[k], num) == Some(c);
          if k > 0 { assert tokens[1..][k - 1] == tokens[k]; }
        }
        if c in Kept(tokens[1..], num) {
          var k :| 0 <= k < |tokens[1..]| && TupleOf(tokens[1..][k], num) == Some(c);
          assert tokens[k + 1] == tokens[1..][k];
        }
      }
      if forall k :: 0 <= k < |tokens| ==> TupleOf(tokens[k], num).Some? {
        assert forall k :: 0 <= k < |tokens[1..]| ==> TupleOf(tokens[1..][k], num).Some? by {
          forall k | 0 <= k < |tokens[1..]| ensures TupleOf(tokens[1..][k], num).Some? {
            assert tokens[1..][k] == tokens[k + 1];
          }
        }
      }
      if |Kept(tokens, num)| == |tokens| {
        assert TupleOf(tokens[0], num).Some?;
        forall k | 0 <= k < |tokens| ensures TupleOf(tokens[k], num).Some? {
          if k > 0 { assert tokens[k] == tokens[1..][k - 1]; }
        }
      }
    }
  }

  /** The tokens of a `kml:coordinates` text: trimmed, `", "` collapsed to `","`, split on
      white space. */
  function Tokens(text: string): seq<string> {
    SplitSpaces(CollapseCommaSpace(Trim(text)))
  }

  /** The coordinate list of one `kml:coordinates` text. */
  function PathOf(text: string, num: NumberSyntax): seq<Coord> {
    Kept(Tokens(text), num)
  }

  /** `PathOf` as a function value, so that lists of paths can be reasoned about without
      unfolding the text pipeline. */
  function PathFn(num: NumberSyntax): string -> seq<Coord> {
    t => PathOf(t, num)
  }

  /** The tuple loop over the tokens of one coordinate text (source lines 341-350). */
  method KeepTuples(path: seq<string>, num: NumberSyntax) returns (coordList: seq<Coord>)
    ensures coordList == Kept(path, num)
  {
    coordList := [];
    var k := 0;
    while k < |path|
      invariant 0 <= k <= |path|
      invariant coordList == Kept(path[..k], num)
    {
      var c := TupleOf(path[k], num);
      if c.Some? {
        coordList := coordList + [c.value];
      }
      assert path[..k + 1] == path[..k] + [path[k]];
      KeptAppend(path[..k], [path[k]], num);
      k := k + 1;
    }
    assert path[..k] == path;
  }

  /** The loop body of `processPlacemarkCoords` for one `coordinates` element. */
  method ParseCoordinates(text: string, num: NumberSyntax) returns (coordList: seq<Coord>)
    ensures coordList == PathFn(num)(text)
  {
    var coords := Trim(text);
    coords := CollapseCommaSpace(coords);
    var path := SplitSpaces(coords);
    coordList := KeepTuples(path, num);
  }

  /** The `coordinates` descendants of each of `parents`, parent after parent. */
  function CoordinatesIn(parents: seq<Element>): seq<Element> {
    if parents == [] then []
    else CoordinatesIn(parents[..|parents| - 1]) + ByTag(parents[|parents| - 1], "coordinates")
  }

  /** `f` of the text of each of `cs`, in order. */
  function ListsFor(cs: seq<Element>, f: string -> seq<Coord>): (r: seq<seq<Coord>>)
    ensures |r| == |cs|
  {
    if cs == [] then [] else ListsFor(cs[..|cs| - 1], f) + [f(cs[|cs| - 1].text)]
  }

  lemma ListsForSnoc(cs: seq<Element>, x: Element, f: string -> seq<Coord>)
    ensures ListsFor(cs + [x], f) == ListsFor(cs, f) + [f(x.text)]
  {
    assert (cs + [x])[..|cs|] == cs;
  }

  lemma {:induction false} ListsForAt(cs: seq<Element>, f: string -> seq<Coord>, k: nat)
    requires k < |cs|
    ensures ListsFor(cs, f)[k] == f(cs[k].text)
  {
    if k < |cs| - 1 {
      ListsForAt(cs[..|cs| - 1], f, k);
    }
  }

  /** What `processPlacemarkCoords(node, tag)` returns: one list per `coordinates`
      element under each `tag` descendant of `node`, in document order. */
  function PlacemarkCoords(node: Element, tag: string, num: NumberSyntax): seq<seq<Coord>> {
    ListsFor(CoordinatesIn(ByTag(node, tag)), PathFn(num))
  }

  /** Each `coordinates` element under the `tag` elements yields exactly one list, the
      `k`-th list coming from the `k`-th such element in document order. */
  lemma PlacemarkCoordsMeaning(node: Element, tag: string, num: NumberSyntax, k: nat)
    requires k < |CoordinatesIn(ByTag(node, tag))|
    ensures |PlacemarkCoords(node, tag, num)| == |CoordinatesIn(ByTag(node, tag))|
    ensures PlacemarkCoords(node, tag, num)[k] == PathOf(CoordinatesIn(ByTag(node, tag))[k].text, num)
  {
    ListsForAt(CoordinatesIn(ByTag(node, tag)), PathFn(num), k);
  }

  lemma {:induction false} ListsForAppend(a: seq<Element>, b: seq<Element>, f: string -> seq<Coord>)
    ensures ListsFor(a + b, f) == ListsFor(a, f) + ListsFor(b, f)
    decreases |b|
  {
    if b == [] {
      assert a + b == a;
    } else {
      var b' := b[..|b| - 1];
      ListsForAppend(a, b', f);
      assert a + b == (a + b') + [b[|b| - 1]];
      ListsForSnoc(a + b', b[|b| - 1], f);
    }
  }

  /** The inner loop of `processPlacemarkCoords` (source lines 335-350): one coordinate
      list per `coordinates` element of one `tag` element. */
  method ParseCoordinateNodes(coordNodes: seq<Element>, num: NumberSyntax)
    returns (lists: seq<seq<Coord>>)
    ensures lists == ListsFor(coordNodes, PathFn(num))
  {
    lists := [];
    var j := 0;
    while j < |coordNodes|
      invariant 0 <= j <= |coordNodes|
      invariant lists == ListsFor(coordNodes[..j], PathFn(num))
    {
      var coordList := ParseCoordinates(coordNodes[j].text, num);
      assert coordNodes[..j + 1] == coordNodes[..j] + [coordNodes[j]];
      ListsForSnoc(coordNodes[..j], coordNodes[j], PathFn(num));
      lists := lists + [coordList];
      j := j + 1;
    }
    assert coordNodes[..j] == coordNodes;
  }

  /** `processPlacemarkCoords(node, tag)`. The fallback for a missing coordinate list
      (source lines 327-333) is not modelled: the descendant search always yields a list. */
  method ProcessPlacemarkCoords(node: Element, tag: string, num: NumberSyntax)
    returns (coordListA: seq<seq<Coord>>)
    ensures coordListA == PlacemarkCoords(node, tag, num)
  {
    var parent := ByTag(node, tag);
    coordListA := [];
    var i := 0;
    while i < |parent|
      invariant 0 <= i <= |parent|
      invariant coordListA == ListsFor(CoordinatesIn(parent[..i]), PathFn(num))
    {
      var coordNodes := ByTag(parent[i], "coordinates");
      var lists := ParseCoordinateNodes(coordNodes, num);
      assert parent[..i + 1][..i] == parent[..i];
      ListsForAppend(CoordinatesIn(parent[..i]), coordNodes, PathFn(num));
      coordListA := coordListA + lists;
      i := i + 1;
    }
    assert parent[..i] == parent;
  }

  /** The coordinate of one `gx:coord` text: trimmed and split on white space (no comma
      collapse), then the same filter as `kml:coordinates` tuples. */
  function TrackCoord(text: string, num: NumberSyntax): Option<Coord> {
    TupleFrom(SplitSpaces(Trim(text)), num)
  }

  /** The kept coordinates of a list of `gx:coord` elements, in order. */
  function TrackPath(coordNodes: seq<Element>, num: NumberSyntax): seq<Coord> {
    if coordNodes == [] then []
    else TrackPath(coordNodes[..|coordNodes| - 1], num) + AsList(TrackCoord(coordNodes[|coordNodes| - 1].text, num))
  }

  /** What the gx:Track loop builds: one list per `gx:Track` descendant of `node`, each
      the kept coordinates of that track's `gx:coord` descendants. */
  function Tracks(node: Element, num: NumberSyntax): (r: seq<seq<Coord>>)
    ensures var ts := ByTagNS(node, GX_NS, "Track");
            |r| == |ts| && forall k :: 0 <= k < |r| ==> r[k] == TrackPath(ByTagNS(ts[k], GX_NS, "coord"), num)
  {
    var ts := ByTagNS(node, GX_NS, "Track");
    seq(|ts|, k requires 0 <= k < |ts| => TrackPath(ByTagNS(ts[k], GX_NS, "coord"), num))
  }

  /** The inner gx:coord loop of `render` (source lines 600-610): each `gx:coord` whose
      first two fields are numbers gives a coordinate, longitude first. */
  method ParseTrackCoords(coordNodes: seq<Element>, num: NumberSyntax) returns (coordList: seq<Coord>)
    ensures coordList == TrackPath(coordNodes, num)
  {
    coordList := [];
    var j := 0;
    while j < |coordNodes|
      invariant 0 <= j <= |coordNodes|
      invariant coordList == TrackPath(coordNodes[..j], num)
    {
      var coords := SplitSpaces(Trim(coordNodes[j].text));
      assert TrackPath(coordNodes[..j + 1], num) == coordList + AsList(TupleFrom(coords, num)) by {
        assert coordNodes[..j + 1][..j] == coordNodes[..j];
      }
      if |coords| >= 2 && num.toNumber(coords[0]).Some? && num.toNumber(coords[1]).Some? {
        coordList := coordList + [Coord(num.parseFloat(coords[1]), num.parseFloat(coords[0]),
                                        if |coords| >= 3 then num.parseFloat(coords[2]) else None)];
      }
      j := j + 1;
    }
    assert coordNodes[..j] == coordNodes;
  }

  /** The gx:Track loop of `render` (source lines 594-614): `None` when the placemark has
      no track, so that `placemark.Track` stays unset. */
  method ParseTracks(node: Element, num: NumberSyntax) returns (track: Option<seq<seq<Coord>>>)
    ensures track.Some? <==> |ByTagNS(node, GX_NS, "Track")| > 0
    ensures track.Some? ==> track.value == Tracks(node, num)
  {
    var trackNodes := ByTagNS(node, GX_NS, "Track");
    var coordListA := [];
    if |trackNodes| > 0 {
      var i := 0;
      while i < |trackNodes|
        invariant 0 <= i <= |trackNodes|
        invariant |coordListA| == i
        invariant forall k :: 0 <= k < i ==> coordListA[k] == TrackPath(ByTagNS(trackNodes[k], GX_NS, "coord"), num)
      {
        var coordList := ParseTrackCoords(ByTagNS(trackNodes[i], GX_NS, "coord"), num);
        coordListA := coordListA + [coordList];
        i := i + 1;
      }
      track := Some(coordListA);
    } else {
      track := None;
    }
  }
}

=== FILE: deps.dfy ===
/** The dependency scan at the start of `render` (source lines 396-443). Every `styleUrl`
    names a document; the first one that is not the document itself, not already loaded
    and not a listed document that failed before has to be rendered first. */
module Dependencies {
  import opened Wrappers
  import opened Xml
  import opened Text
  import opened Model

  /** The document part of a `styleUrl`: its text up to the first `#`. */
  function RefUrl(n: Element): string {
    Split(n.text, '#')[0]
  }

  /** What the scan looks at in a listed document: its base URL and whether it failed. */
  datatype Listed = Listed(baseUrl: Option<string>, failed: bool)

  /** The index of the first listed document with base URL `u`, or the length when there
      is none (`indexOfObjWithItem('baseUrl', u)` with -1 read as the length). */
  function IndexOfBase(ls: seq<Listed>, u: string): (j: nat)
    ensures j <= |ls|
    ensures forall i :: 0 <= i < j ==> ls[i].baseUrl != Some(u)
    ensures j < |ls| ==> ls[j].baseUrl == Some(u)
  {
    if ls == [] then 0 else if ls[0].baseUrl == Some(u) then 0 else 1 + IndexOfBase(ls[1..], u)
  }

  /** Why the scan passes over a reference: it names no other document (`#id`), it
      resolves to the document itself, to a loaded document, or to a listed document
      that failed to load. */
  predicate Skipped(url: string, self: Option<string>, baseDir: Option<string>,
                    loaded: set<string>, ls: seq<Listed>, env: Env)
  {
    url == "" ||
    var r := env.cleanURL(baseDir, url);
    Some(r) == self || r in loaded || (IndexOfBase(ls, r) < |ls| && ls[IndexOfBase(ls, r)].failed)
  }

  /** The index of the first reference the scan does not pass over, or the number of
      references when it passes over all of them. */
  function FirstDependency(urls: seq<string>, self: Option<string>, baseDir: Option<string>,
                           loaded: set<string>, ls: seq<Listed>, env: Env): (k: nat)
    ensures k <= |urls|
    ensures forall i :: 0 <= i < k ==> Skipped(urls[i], self, baseDir, loaded, ls, env)
    ensures k < |urls| ==> !Skipped(urls[k], self, baseDir, loaded, ls, env)
    decreases |urls|
  {
    if urls == [] then 0
    else if !Skipped(urls[0], self, baseDir, loaded, ls, env) then 0
    else 1 + FirstDependency(urls[1..], self, baseDir, loaded, ls, env)
  }

  /** The scan stops exactly at the first reference it does not pass over: an index
      with every earlier reference passed over and this one (if any) not, is the one. */
  lemma FirstDependencyAt(urls: seq<string>, self: Option<string>, baseDir: Option<string>,
                          loaded: set<string>, ls: seq<Listed>, env: Env, i: nat)
    requires i <= |urls|
    requires forall j :: 0 <= j < i ==> Skipped(urls[j], self, baseDir, loaded, ls, env)
    requires i < |urls| ==> !Skipped(urls[i], self, baseDir, loaded, ls, env)
    ensures FirstDependency(urls, self, baseDir, loaded, ls, env) == i
  {
  }

  /** The references of a document, in document order. */
  function RefUrls(root: Element): (r: seq<string>)
    ensures |r| == |ByTag(root, "styleUrl")|
  {
    var ns := ByTag(root, "styleUrl");
    seq(|ns|, i requires 0 <= i < |ns| => RefUrl(ns[i]))
  }

  /** What the scan sees of the documents of a batch. */
  function Listing(ds: seq<Doc>): (r: seq<Listed>)
    reads ds
    ensures |r| == |ds|
    ensures forall i :: 0 <= i < |ds| ==> r[i] == Listed(ds[i].baseUrl, ds[i].failed)
  {
    seq(|ds|, i requires 0 <= i < |ds| reads ds => Listed(ds[i].baseUrl, ds[i].failed))
  }

  /** A document that only refers to itself and to its own ids has no dependency; and a
      reference the scan stops at names another document that is neither loaded nor a
      listed failure. */
  lemma DependencyMeaning(urls: seq<string>, self: Option<string>, baseDir: Option<string>,
                          loaded: set<string>, ls: seq<Listed>, env: Env)
    ensures (forall i :: 0 <= i < |urls| ==> urls[i] == "" || Some(env.cleanURL(baseDir, urls[i])) == self) ==>
              FirstDependency(urls, self, baseDir, loaded, ls, env) == |urls|
    ensures var k := FirstDependency(urls, self, baseDir, loaded, ls, env);
            k < |urls| ==>
              var r := env.cleanURL(baseDir, urls[k]);
              urls[k] != "" && Some(r) != self && r !in loaded &&
              (IndexOfBase(ls, r) < |ls| ==> !ls[IndexOfBase(ls, r)].failed)
  {
  }
}

=== FILE: geometry.dfy ===
/** The geometry of a placemark (source lines 547-591): every `coordinates` element of
    the placemark is looked at in document order, and the node name of its parent
    decides what it contributes: a `Point`, the polygon parts of a `LinearRing`, or a
    `LineString`'s lists. */
module Geometry {
  import opened Wrappers
  import opened Xml
  import opened Numbers
  import opened Coords
  import opened Model

  /** The part a `LinearRing` outside any `Polygon` leaves: an outer boundary that is
      not a list (so it adds no path) and one empty inner boundary. */
  const PlaceholderPart: PolygonPart := PolygonPart([], [[]])

  /** One polygon's part: its outer and its inner boundary lists. */
  function PartOf(polygonNode: Element, num: NumberSyntax): PolygonPart {
    PolygonPart(PlacemarkCoords(polygonNode, "outerBoundaryIs", num),
                PlacemarkCoords(polygonNode, "innerBoundaryIs", num))
  }

  /** The polygon parts: one per `Polygon` descendant, or the placeholder when there is
      none. */
  function PolygonPartsOf(node: Element, num: NumberSyntax): (r: seq<PolygonPart>)
    ensures |r| >= 1
  {
    var pns := ByTag(node, "Polygon");
    if |pns| == 0 then [PlaceholderPart]
    else seq(|pns|, k requires 0 <= k < |pns| => PartOf(pns[k], num))
  }

  /** The geometry fields of a placemark; `None` where the placemark has none. */
  datatype Geometry = Geometry(point: Option<seq<Coord>>, latlng: Option<Pos>,
                               polygon: Option<seq<PolygonPart>>,
                               lineString: Option<seq<seq<Coord>>>)

  /** The outcome of the dispatch: the geometry, or the exception a `Point` without a
      coordinate raises when its first coordinate is read. */
  datatype GeometryResult = PointThrew | Parsed(geometry: Geometry)

  /** A `Point`'s coordinate lists have a first coordinate to read. */
  predicate HasFirstCoord(lists: seq<seq<Coord>>) {
    |lists| > 0 && |lists[0]| > 0
  }

  /** What the dispatch yields. Each kind of parent sets its field to the same value
      every time it is met, so only which parent names occur matters. */
  function GeometryOf(node: Element, num: NumberSyntax): GeometryResult {
    var names := ParentNames(node, Tag("coordinates"));
    var pts := PlacemarkCoords(node, "Point", num);
    if "Point" in names && !HasFirstCoord(pts) then PointThrew
    else
      Parsed(Geometry(if "Point" in names then Some(pts[0]) else None,
                      if "Point" in names then Some(Pos(pts[0][0].lat, pts[0][0].lng)) else None,
                      if "LinearRing" in names then Some(PolygonPartsOf(node, num)) else None,
                      if "LineString" in names then Some(PlacemarkCoords(node, "LineString", num)) else None))
  }

  /** `polygon[pg] = part` on a JavaScript array: it overwrites an existing entry, or
      appends one when `pg` is the length. */
  method WritePart(parts: seq<PolygonPart>, pg: nat, part: PolygonPart) returns (r: seq<PolygonPart>)
    requires pg <= |parts|
    ensures |r| == if pg < |parts| then |parts| else pg + 1
    ensures r[pg] == part
    ensures forall k :: 0 <= k < |parts| && k != pg ==> r[k] == parts[k]
  {
    if pg < |parts| {
      r := parts[pg := part];
    } else {
      r := parts + [part];
    }
  }

  /** The `Polygon` loop of the `LinearRing` case (source lines 563-577): starting from
      the placeholder or from the parts an earlier `LinearRing` left, part `pg` is
      (re)written for each `Polygon` descendant. */
  method PolygonLoop(node: Element, num: NumberSyntax, base: seq<PolygonPart>) returns (parts: seq<PolygonPart>)
    requires base == [PlaceholderPart] || base == PolygonPartsOf(node, num)
    ensures parts == PolygonPartsOf(node, num)
  {
    var polygonNodes := ByTag(node, "Polygon");
    parts := base;
    var pg := 0;
    while pg < |polygonNodes|
      invariant 0 <= pg <= |polygonNodes|
      invariant |parts| == if pg <= |base| then |base| else pg
      invariant forall k :: 0 <= k < pg ==> parts[k] == PartOf(polygonNodes[k], num)
      invariant forall k :: pg <= k < |base| ==> parts[k] == base[k]
    {
      var outer := ProcessPlacemarkCoords(polygonNodes[pg], "outerBoundaryIs", num);
      var inner := ProcessPlacemarkCoords(polygonNodes[pg], "innerBoundaryIs", num);
      parts := WritePart(parts, pg, PolygonPart(outer, inner));
      pg := pg + 1;
    }
    if |polygonNodes| > 0 {
      var spec := PolygonPartsOf(node, num);
      assert |base| <= |polygonNodes|;
      assert |parts| == |spec|;
      assert forall k :: 0 <= k < |parts| ==> parts[k] == spec[k];
    }
  }

  /** The dispatch loop of `render` over the placemark's `coordinates` elements. */
  method ProcessGeometry(node: Element, num: NumberSyntax) returns (r: GeometryResult)
    ensures r == GeometryOf(node, num)
  {
    var names := ParentNames(node, Tag("coordinates"));
    var pts := PlacemarkCoords(node, "Point", num);
    var point: Option<seq<Coord>> := None;
    var latlng: Option<Pos> := None;
    var polygon: Option<seq<PolygonPart>> := None;
    var lineString: Option<seq<seq<Coord>>> := None;
    var gn := 0;
    while gn < |names|
      invariant 0 <= gn <= |names|
      invariant "Point" in names[..gn] ==> HasFirstCoord(pts)
      invariant point == if "Point" in names[..gn] then Some(pts[0]) else None
      invariant latlng == if "Point" in names[..gn] then Some(Pos(pts[0][0].lat, pts[0][0].lng)) else None
      invariant polygon == if "LinearRing" in names[..gn] then Some(PolygonPartsOf(node, num)) else None
      invariant lineString == if "LineString" in names[..gn] then Some(PlacemarkCoords(node, "LineString", num)) else None
    {
      assert names[..gn + 1] == names[..gn] + [names[gn]];
      var geometry := names[gn];
      if geometry == "Point" {
        var lists := ProcessPlacemarkCoords(node, "Point", num);
        if !HasFirstCoord(lists) {
          assert "Point" in names;
          return PointThrew;
        }
        point := Some(lists[0]);
        latlng := Some(Pos(lists[0][0].lat, lists[0][0].lng));
      } else if geometry == "LinearRing" {
        var base := if polygon.None? then [PlaceholderPart] else polygon.value;
        var parts := PolygonLoop(node, num, base);
        polygon := Some(parts);
      } else if geometry == "LineString" {
        var lists := ProcessPlacemarkCoords(node, "LineString", num);
        lineString := Some(lists);
      }
      gn := gn + 1;
    }
    assert names[..gn] == names;
    r := Parsed(Geometry(point, latlng, polygon, lineString));
  }

  /** A placemark has a position exactly when it has a point, and the position is the
      point's first coordinate; a `LinearRing` always leaves at least one part. */
  lemma GeometryMeaning(node: Element, num: NumberSyntax)
    requires GeometryOf(node, num).Parsed?
    ensures var g := GeometryOf(node, num).geometry;
            (g.point.Some? <==> g.latlng.Some?) &&
            (g.point.Some? ==> |g.point.value| > 0 &&
                               g.latlng.value == Pos(g.point.value[0].lat, g.point.value[0].lng)) &&
            (g.polygon.Some? ==> |g.polygon.value| >= 1)
  {
  }
}

=== FILE: icons.dfy ===
/** `processStyleID`: turning a style's icon into the marker image the map draws (its
    size, palette origin, hot-spot anchor and scaled size), the wait for an image that
    has not loaded yet, and the queue of markers that wait with it. All arithmetic is
    exact (`real`); `Math.round` is round-half-up. */
module Icons {
  import opened Wrappers
  import opened Text
  import opened Numbers
  import opened Model
  import opened Styles

  /** The icon has to wait for its image: the image exists, has not loaded and neither
      cell dimension is known (source line 921). */
  predicate Waiting(icon: Icon) {
    icon.img.Some? && !icon.img.value.complete && IsNegative(icon.dim.w) && IsNegative(icon.dim.h)
  }

  /** The cell dimensions once the image state is consulted (source lines 945-961): the
      loaded image's size, or a 32x32 guess when the image is missing or still loading. */
  function SettleDims(icon: Icon): (d: Dim)
    ensures icon.img.Some? && icon.img.value.complete ==>
              d == RecordSize(icon.dim, icon.img.value.width, icon.img.value.height)
    ensures !(icon.img.Some? && icon.img.value.complete) ==>
              d.whGuess && d.w == Some(32) && d.h == Some(32) && d.th == Some(32)
              && d.x == icon.dim.x && d.y == icon.dim.y
  {
    if icon.img.Some? && icon.img.value.complete then
      RecordSize(icon.dim, icon.img.value.width, icon.img.value.height)
    else
      icon.dim.(whGuess := true, w := Some(32), h := Some(32), th := Some(32))
  }

  /** The palette row, with KML's bottom-up `y` turned top-down when the image height
      `th` is known and differs from the cell height (source lines 965-969). */
  function PaletteY(dim: Dim): Num {
    if dim.th.Some? && dim.th != dim.h then Abs(Sub(OfInt(dim.y), Sub(OfInt(dim.th), OfInt(dim.h))))
    else OfInt(dim.y)
  }

  /** The horizontal anchor (source lines 986-990): a fraction of the scaled width, an
      inset from the right edge, or pixels from the left. */
  function AnchorX(dim: Dim, hs: HotSpot, s: Num): Num {
    var ax := Mul(hs.x, s);
    match hs.xunits
    case Some("fraction") => Round(Mul(ax, OfInt(dim.w)))
    case Some("insetPixels") => Round(Sub(Mul(OfInt(dim.w), s), ax))
    case _ => Round(ax)
  }

  /** The vertical anchor (source lines 991-995): KML measures from the bottom, the map
      from the top, so a fraction or a pixel count is subtracted from the scaled height,
      while an inset is already measured from the top. */
  function AnchorY(dim: Dim, hs: HotSpot, s: Num): Num {
    var ay := Mul(hs.y, s);
    match hs.yunits
    case Some("fraction") => Sub(Mul(OfInt(dim.h), s), Round(Mul(OfInt(dim.h), ay)))
    case Some("insetPixels") => Round(ay)
    case _ => Round(Sub(Mul(OfInt(dim.h), s), ay))
  }

  /** The image's own size when there is an image, the cell size otherwise. */
  function ImageW(icon: Icon): Num {
    if icon.img.Some? then Some(icon.img.value.width as real) else OfInt(icon.dim.w)
  }

  function ImageH(icon: Icon): Num {
    if icon.img.Some? then Some(icon.img.value.height as real) else OfInt(icon.dim.h)
  }

  /** The marker image of an icon whose dimensions are settled (source lines 964-1016):
      no size when the dimensions were guessed, no scaled size at scale 1, the scaled
      palette cell as origin and the anchor rules above. */
  function MarkerOf(icon: Icon, url: string): MarkerImage {
    var s := icon.scale;
    var dim := icon.dim;
    var sw := Mul(OfInt(dim.w), s);
    var sh := Mul(OfInt(dim.h), s);
    MarkerImage(
      url,
      if dim.whGuess then None else Some(Size2(Round(sw), Round(sh))),
      Point2(Round(Mul(OfInt(dim.x), s)), Round(Mul(PaletteY(dim), s))),
      Point2(AnchorX(dim, icon.hotSpot, s), AnchorY(dim, icon.hotSpot, s)),
      if s == Some(1.0) then None
      else if dim.whGuess then Some(Size2(Round(sw), Round(sh)))
      else Some(Size2(Round(Mul(ImageW(icon), s)), Round(Mul(ImageH(icon), s)))))
  }

  /** The colours of the standard map marker icons. */
  const StdColors: seq<string> := ["red", "blue", "green", "yellow", "lightblue", "purple", "pink", "orange"]

  /** `/(red|blue|…|orange)(-dot)?\.png/` finds a match in `href`. */
  predicate StdIcon(href: string) {
    exists k :: 0 <= k < |StdColors| &&
      (Contains(href, "/" + StdColors[k] + ".png") || Contains(href, "/" + StdColors[k] + "-dot.png"))
  }

  const ShadowSize: Size2 := Size2(Some(59.0), Some(32.0))
  const ShadowAnchor: Point2 := Point2(Some(16.0), Some(32.0))
  const MarkerShadow: Shadow := Shadow("http://maps.google.com/mapfiles/ms/micons/msmarker.shadow.png", ShadowSize, ShadowAnchor)
  const PushpinShadow: Shadow := Shadow("http://maps.google.com/mapfiles/ms/micons/pushpin_shadow.png", ShadowSize, ShadowAnchor)

  /** The predictable shadow of an icon (source lines 1018-1039): the marker shadow for a
      standard marker image, the pushpin shadow for a pushpin, and otherwise whatever
      shadow the icon had. */
  function ShadowFor(href: string, current: Option<Shadow>): Option<Shadow> {
    if StdIcon(href) then Some(MarkerShadow)
    else if Contains(href, "-pushpin.png") then Some(PushpinShadow)
    else current
  }

  /** `processStyleID` on a style's icon (source lines 917-1050). An icon without an
      `href` is left alone. An icon waiting for its image gets an empty marker queue
      and an image handler that will finish the work. Otherwise the dimensions are
      settled, the URL is replaced by the archive's data URL when there is one, and the
      marker image and shadow are set. */
  function ProcessStyleID(icon: Icon, env: Env): (r: Icon)
    ensures icon.href == "" ==> r == icon
    ensures r.href == icon.href && r.scale == icon.scale && r.hotSpot == icon.hotSpot
    ensures icon.href != "" && Waiting(icon) ==>
              r.backlog == Some([]) && r.img == Some(icon.img.value.(onload := ResumeDeferred))
              && r.dim == icon.dim && r.marker == icon.marker && r.url == icon.url
    ensures icon.href != "" && !Waiting(icon) ==>
              r.backlog == icon.backlog && r.img == icon.img && r.dim == SettleDims(icon)
              && r.marker.Some? && r.marker.value.url == r.url
              && (r.marker.value.size.None? <==> r.dim.whGuess)
              && (r.marker.value.scaledSize.None? <==> icon.scale == Some(1.0))
              && (icon.url in env.dataUrls ==> r.url == env.dataUrls[icon.url])
              && (icon.url !in env.dataUrls ==> r.url == icon.url)
  {
    if icon.href == "" then icon
    else if Waiting(icon) then
      icon.(backlog := Some([]), img := Some(icon.img.value.(onload := ResumeDeferred)))
    else
      var url := if icon.url in env.dataUrls then env.dataUrls[icon.url] else icon.url;
      var settled := icon.(dim := SettleDims(icon), url := url);
      settled.(marker := Some(MarkerOf(settled, url)), shadow := ShadowFor(icon.href, icon.shadow))
  }

  /** `createMarker` for a placemark whose icon has an image but no marker image yet
      (source lines 1062-1066): the request joins the end of the icon's queue. */
  predicate MustQueue(icon: Icon) {
    icon.marker.None? && icon.img.Some?
  }

  function QueueMarker(icon: Icon, req: MarkerRequest): Icon {
    icon.(backlog := Some(icon.backlog.GetOr([]) + [req]))
  }

  /** Queuing several requests one after another. */
  function QueueAll(icon: Icon, reqs: seq<MarkerRequest>): Icon
    decreases |reqs|
  {
    if reqs == [] then icon else QueueAll(QueueMarker(icon, reqs[0]), reqs[1..])
  }

  /** The queue is first-in first-out: requests queued one after another sit behind the
      ones already there, in the order they came; nothing else about the icon changes. */
  lemma {:induction false} QueueAllOrder(icon: Icon, reqs: seq<MarkerRequest>)
    ensures reqs != [] ==> QueueAll(icon, reqs) == icon.(backlog := Some(icon.backlog.GetOr([]) + reqs))
    decreases |reqs|
  {
    if reqs != [] {
      var next := QueueMarker(icon, reqs[0]);
      if reqs[1..] == [] {
        assert reqs == [reqs[0]];
      } else {
        QueueAllOrder(next, reqs[1..]);
        assert icon.backlog.GetOr([]) + [reqs[0]] + reqs[1..] == icon.backlog.GetOr([]) + reqs;
      }
    }
  }

  /** What an image load leaves: the icon, and the queued marker requests to replay in
      order. */
  datatype Loaded = Loaded(icon: Icon, replay: seq<MarkerRequest>)

  /** The image of an icon finishes loading with the given size (source lines 230-237 and
      926-942). Its handler records the size; the handler installed by a wait also runs
      `processStyleID` again and hands back the queue, which it then deletes. */
  function ImageLoaded(icon: Icon, width: int, height: int, env: Env): (r: Loaded)
    requires icon.img.Some?
    ensures r.icon.img.Some? && r.icon.img.value.complete
    ensures icon.img.value.onload == RecordDims ==>
              r.replay == [] && r.icon.dim == RecordSize(icon.dim, width, height)
              && r.icon.backlog == icon.backlog && r.icon.marker == icon.marker
  {
    var img := icon.img.value.(complete := true, width := width, height := height);
    var loaded := icon.(img := Some(img), dim := RecordSize(icon.dim, width, height));
    if img.onload == RecordDims then Loaded(loaded, [])
    else
      var done := ProcessStyleID(loaded, env);
      Loaded(done.(backlog := None), done.backlog.GetOr([]))
  }

  /** Markers queued while an icon waited are replayed after the load in the order they
      were queued, the icon then has its marker image, and the queue is gone. */
  lemma QueuedThenLoaded(icon: Icon, reqs: seq<MarkerRequest>, width: int, height: int, env: Env)
    requires icon.href != "" && Waiting(icon)
    ensures var w := ProcessStyleID(icon, env);
            var q := QueueAll(w, reqs);
            q.img.Some? &&
            var r := ImageLoaded(q, width, height, env);
            r.replay == reqs && r.icon.backlog.None? && r.icon.marker.Some?
  {
    var w := ProcessStyleID(icon, env);
    QueueAllOrder(w, reqs);
    var q := QueueAll(w, reqs);
    assert w.backlog == Some([]);
    assert q == w.(backlog := Some(reqs)) by {
      if reqs == [] {
        assert q == w;
      } else {
        assert w.backlog.GetOr([]) + reqs == reqs;
      }
    }
    var img := q.img.value.(complete := true, width := width, height := height);
    var loaded := q.(img := Some(img), dim := RecordSize(q.dim, width, height));
    assert !Waiting(loaded);
  }

  /** A load replays exactly the queue the icon holds when its handler is the one a wait
      installed, and nothing when it only records the size. */
  lemma ReplayIsBacklog(icon: Icon, width: int, height: int, env: Env)
    requires icon.img.Some?
    ensures ImageLoaded(icon, width, height, env).replay ==
            (if icon.img.value.onload == ResumeDeferred then icon.backlog.GetOr([]) else [])
  {
    var img := icon.img.value.(complete := true, width := width, height := height);
    var loaded := icon.(img := Some(img), dim := RecordSize(icon.dim, width, height));
    assert !Waiting(loaded);
  }

  /** Round-half-up never decreases. */
  lemma RoundMonotone(a: real, b: real)
    requires a <= b
    ensures RoundHalfUp(a) <= RoundHalfUp(b)
  {
  }

  lemma MulMonotone(a: real, b: real, c: real)
    requires a <= b && c >= 0.0
    ensures a * c <= b * c
  {
  }

  /** With fraction units, a hot spot inside the image ([0, 1] on each axis) and a
      non-negative scale, the anchor lies inside the marker's scaled size box: between 0
      and the rounded scaled width across, and between 0 and the scaled height down. */
  lemma FractionAnchorX(dim: Dim, hs: HotSpot, s: real, fx: real, w: int)
    requires hs.xunits == Some("fraction") && hs.x == Some(fx) && 0.0 <= fx <= 1.0
    requires dim.w == Some(w) && w >= 0 && s >= 0.0
    ensures AnchorX(dim, hs, Some(s)).Some?
    ensures 0.0 <= AnchorX(dim, hs, Some(s)).value <= RoundHalfUp(w as real * s) as real
  {
    ScaledFraction(fx, s, w as real);
    var ax := Mul(hs.x, Some(s));
    assert ax.Some? && ax.value == fx * s;
    var v := Mul(ax, OfInt(dim.w));
    assert v.Some? && v.value == (fx * s) * (w as real);
    assert AnchorX(dim, hs, Some(s)) == Round(v);
  }

  /** The same for the vertical anchor, which is measured from the top: it lies between
      the scaled height less its rounding and the scaled height. */
  lemma FractionAnchorY(dim: Dim, hs: HotSpot, s: real, fy: real, h: int)
    requires hs.yunits == Some("fraction") && hs.y == Some(fy) && 0.0 <= fy <= 1.0
    requires dim.h == Some(h) && h >= 0 && s >= 0.0
    ensures AnchorY(dim, hs, Some(s)).Some?
    ensures h as real * s - RoundHalfUp(h as real * s) as real <= AnchorY(dim, hs, Some(s)).value <= h as real * s
  {
    ScaledFraction(fy, s, h as real);
    var ay := Mul(hs.y, Some(s));
    assert ay.Some? && ay.value == fy * s;
    var v := Mul(OfInt(dim.h), ay);
    assert v.Some? && v.value == (h as real) * (fy * s);
    assert (h as real) * (fy * s) == (fy * s) * (h as real);
    assert AnchorY(dim, hs, Some(s)) == Sub(Mul(OfInt(dim.h), Some(s)), Round(v));
  }

  /** Scaling a difference is the difference of the scaled values, NaN-free. */
  lemma ScaledDifference(a: real, b: real, s: real)
    ensures Sub(Mul(Some(a), Some(s)), Mul(Some(b), Some(s))) == Mul(Some(a - b), Some(s))
  {
    var x := Mul(Some(a), Some(s)).value;
    var y := Mul(Some(b), Some(s)).value;
    var z := Mul(Some(a - b), Some(s)).value;
    assert x == a * s && y == b * s && z == (a - b) * s;
    assert x - y == z;
  }

  /** The inset and pixel units mirror each other: across, an inset of `x` from the
      right edge anchors where `w - x` pixels from the left does; down, `y` pixels up
      from the bottom anchor where an inset of `h - y` from the top does. */
  lemma InsetMirrorsPixels(dim: Dim, x: real, y: real, s: real, w: int, h: int, ou: Option<string>)
    requires dim.w == Some(w) && dim.h == Some(h)
    ensures AnchorX(dim, HotSpot(Some(x), Some(y), Some("insetPixels"), ou), Some(s)) ==
            AnchorX(dim, HotSpot(Some(w as real - x), Some(y), Some("pixels"), ou), Some(s))
    ensures AnchorY(dim, HotSpot(Some(x), Some(y), ou, Some("pixels")), Some(s)) ==
            AnchorY(dim, HotSpot(Some(x), Some(h as real - y), ou, Some("insetPixels")), Some(s))
  {
    ScaledDifference(w as real, x, s);
    ScaledDifference(h as real, y, s);
  }

  /** A fraction in [0, 1] of a non-negative scaled length lies between 0 and that
      length, and so does its rounding, against the rounded length. */
  lemma ScaledFraction(f: real, s: real, len: real)
    requires 0.0 <= f <= 1.0 && s >= 0.0 && len >= 0.0
    ensures 0.0 <= (f * s) * len <= len * s
    ensures 0 <= RoundHalfUp((f * s) * len) <= RoundHalfUp(len * s)
  {
    var L := len * s;
    MulMonotone(0.0, len, s);
    assert (f * s) * len == f * L;
    MulMonotone(0.0, f, L);
    MulMonotone(f, 1.0, L);
    RoundMonotone(0.0, f * L);
    RoundMonotone(f * L, L);
  }

  /** The default icon at scale 1 on a guessed 32x32 cell: the (0.5, 0.5) fraction hot
      spot gives the anchor (16, 16), the origin is the top-left corner, and neither a
      size nor a scaled size is set. */
  lemma DefaultIconGuessed(href: string, url: string, env: Env)
    requires href != "" && url !in env.dataUrls
    ensures var icon := DefaultStyle.icon.(href := href, url := url);
            var r := ProcessStyleID(icon, env);
            r.marker.Some? &&
            r.marker.value.anchor == Point2(Some(16.0), Some(16.0)) &&
            r.marker.value.origin == Point2(Some(0.0), Some(0.0)) &&
            r.marker.value.size.None? && r.marker.value.scaledSize.None?
  {
    var icon := DefaultStyle.icon.(href := href, url := url);
    var r := ProcessStyleID(icon, env);
    assert !Waiting(icon);
    var d := SettleDims(icon);
    assert d == Dim(Some(0), Some(0), Some(32), Some(32), Some(32), true);
    assert PaletteY(d) == Some(0.0);
    assert RoundHalfUp(16.0) == 16;
    assert RoundHalfUp(0.0) == 0;
  }

  /** The palette flip: without a known image height, or when it equals the cell
      height, the origin row is the scaled `y` itself; otherwise it is the scaled
      distance `|y - (th - h)|`. */
  lemma PaletteFlip(dim: Dim)
    ensures dim.th.None? || dim.th == dim.h ==> PaletteY(dim) == OfInt(dim.y)
    ensures dim.th.Some? && dim.h.Some? && dim.y.Some? && dim.th != dim.h ==>
              var d := dim.y.value - (dim.th.value - dim.h.value);
              PaletteY(dim) == Some((if d < 0 then -d else d) as real)
  {
  }

  /** The standard marker images get the marker shadow, whatever surrounds the file
      name in the URL. */
  lemma StdIconShadow(prefix: string, k: nat, dot: bool, suffix: string, current: Option<Shadow>)
    requires k < |StdColors|
    ensures var name := "/" + StdColors[k] + (if dot then "-dot.png" else ".png");
            ShadowFor(prefix + name + suffix, current) == Some(MarkerShadow)
  {
    var name := "/" + StdColors[k] + (if dot then "-dot.png" else ".png");
    ContainsMiddle(prefix, name, suffix);
    if dot {
      assert name == "/" + StdColors[k] + "-dot.png";
    } else {
      assert name == "/" + StdColors[k] + ".png";
    }
  }
}

=== FILE: markers.dfy ===
/** Reconciling a reloaded document's markers with its new placemarks: every kept marker
    is first marked inactive, each point placemark reactivates the first marker that
    matches it instead of making a new one, and the markers still inactive at the end
    are removed, back to front. */
module Markers {
  import opened Wrappers
  import opened Model

  /** `!id`: the id is `null`, `undefined` or empty. */
  predicate Falsy(id: Option<string>) {
    id.None? || id.value == ""
  }

  /** The test at source lines 636-638 as written: `marker.id == placemark.id` (true
      when both are `null`/`undefined`), or an id-less marker at the same position. */
  function AsWrittenMatch(id: Option<string>, pos: Pos, env: Env): MarkerRec -> bool {
    (m: MarkerRec) => m.id == id || (Falsy(m.id) && env.samePos(m.pos, pos))
  }

  /** The evident intent: a marker with an id matches by id, a marker without one by
      position. */
  function Match(id: Option<string>, pos: Pos, env: Env): MarkerRec -> bool {
    (m: MarkerRec) => (!Falsy(m.id) && m.id == id) || (Falsy(m.id) && env.samePos(m.pos, pos))
  }

  /** The index of the first marker `f` accepts, or the length when there is none. */
  function FirstIndex(ms: seq<MarkerRec>, f: MarkerRec -> bool): (k: nat)
    ensures k <= |ms|
    ensures forall j :: 0 <= j < k ==> !f(ms[j])
    ensures k < |ms| ==> f(ms[k])
  {
    if ms == [] then 0 else if f(ms[0]) then 0 else 1 + FirstIndex(ms[1..], f)
  }

  /** Every marker, inactive. */
  function AllInactive(ms: seq<MarkerRec>): (r: seq<MarkerRec>)
    ensures |r| == |ms|
  {
    seq(|ms|, i requires 0 <= i < |ms| => ms[i].(active := false))
  }

  /** The deactivation loop (source lines 469-473). */
  method Deactivate(ms: seq<MarkerRec>) returns (r: seq<MarkerRec>)
    ensures r == AllInactive(ms)
    ensures forall i :: 0 <= i < |r| ==> !r[i].active && r[i] == ms[i].(active := false)
  {
    r := ms;
    var i := 0;
    while i < |r|
      invariant 0 <= i <= |r| && |r| == |ms|
      invariant forall j :: 0 <= j < i ==> r[j] == ms[j].(active := false)
      invariant forall j :: i <= j < |r| ==> r[j] == ms[j]
    {
      r := r[i := r[i].(active := false)];
      i := i + 1;
    }
  }

  /** The search of source lines 634-644, with the intended test: the first matching
      marker, if any, is made active and the placemark makes no new marker. */
  method Reactivate(ms: seq<MarkerRec>, id: Option<string>, pos: Pos, env: Env)
    returns (r: seq<MarkerRec>, found: bool)
    ensures var k := FirstIndex(ms, Match(id, pos, env));
            (found <==> k < |ms|) &&
            (found ==> r == ms[k := ms[k].(active := true)]) &&
            (!found ==> r == ms)
    ensures found <==> exists j :: 0 <= j < |ms| && Match(id, pos, env)(ms[j])
  {
    var f := Match(id, pos, env);
    r, found := ms, false;
    var j := 0;
    while j < |ms|
      invariant 0 <= j <= |ms|
      invariant forall i :: 0 <= i < j ==> !f(ms[i])
      invariant FirstIndex(ms, f) >= j
    {
      if (!Falsy(ms[j].id) && ms[j].id == id) || (Falsy(ms[j].id) && env.samePos(ms[j].pos, pos)) {
        assert f(ms[j]);
        r := ms[j := ms[j].(active := true)];
        found := true;
        return;
      }
      j := j + 1;
    }
  }

  /** The markers that are still active, in their order. */
  function ActiveOnly(ms: seq<MarkerRec>): seq<MarkerRec>
    decreases |ms|
  {
    if ms == [] then [] else (if ms[0].active then [ms[0]] else []) + ActiveOnly(ms[1..])
  }

  /** The removal keeps the markers' order: the survivors of a concatenation are the
      survivors of each half, one after the other. */
  lemma {:induction false} ActiveOnlyAppend(a: seq<MarkerRec>, b: seq<MarkerRec>)
    ensures ActiveOnly(a + b) == ActiveOnly(a) + ActiveOnly(b)
    decreases |a|
  {
    if a == [] {
      assert a + b == b;
    } else {
      assert (a + b)[1..] == a[1..] + b;
      ActiveOnlyAppend(a[1..], b);
    }
  }

  /** The backward removal loop (source lines 686-696): going from the last marker to
      the first, each inactive one is spliced out. */
  method SpliceInactive(ms: seq<MarkerRec>) returns (r: seq<MarkerRec>)
    ensures r == ActiveOnly(ms)
  {
    r := ms;
    var i := |ms| - 1;
    assert ms[|ms|..] == [];
    while i >= 0
      invariant -1 <= i < |ms|
      invariant r == ms[..i + 1] + ActiveOnly(ms[i + 1..])
    {
      assert ms[i..] == [ms[i]] + ms[i + 1..];
      assert r[i] == ms[i];
      assert r[..i] == ms[..i] && r[i + 1..] == ActiveOnly(ms[i + 1..]);
      if !r[i].active {
        r := r[..i] + r[i + 1..];
      } else {
        assert r == ms[..i] + ([ms[i]] + ActiveOnly(ms[i + 1..]));
      }
      i := i - 1;
    }
    assert ms[..0] == [];
  }

  /** Removing the inactive markers keeps exactly the active ones and no inactive one:
      all of them when all are active, none when none is. */
  lemma {:induction false} ActiveOnlyMeaning(ms: seq<MarkerRec>)
    ensures forall m :: m in ActiveOnly(ms) <==> m in ms && m.active
    ensures |ActiveOnly(ms)| <= |ms|
    ensures (forall i :: 0 <= i < |ms| ==> ms[i].active) ==> ActiveOnly(ms) == ms
    ensures (forall i :: 0 <= i < |ms| ==> !ms[i].active) ==> ActiveOnly(ms) == []
    decreases |ms|
  {
    if ms != [] {
      ActiveOnlyMeaning(ms[1..]);
      assert ms == [ms[0]] + ms[1..];
      assert forall i :: 0 <= i < |ms[1..]| ==> ms[1..][i] == ms[i + 1];
    }
  }

  /** A reload pass keeps exactly the markers placemarks reactivated: after the
      deactivation nothing would survive the removal, and a reactivated marker does. */
  lemma ReactivatedSurvives(ms: seq<MarkerRec>, k: nat)
    requires k < |ms|
    ensures ActiveOnly(AllInactive(ms)) == []
    ensures var r := AllInactive(ms);
            r[k].(active := true) in ActiveOnly(r[k := r[k].(active := true)])
  {
    var r := AllInactive(ms);
    ActiveOnlyMeaning(r);
    var r' := r[k := r[k].(active := true)];
    ActiveOnlyMeaning(r');
    assert r'[k] in r';
  }

  /** The as-written test reactivates the wrong marker: two id-less placemarks at
      different positions, reloaded; the second placemark matches the first marker
      because `null == null`, whereas the intended test finds its own marker. */
  lemma AsWrittenMatchesWrongMarker(a: Pos, b: Pos, env: Env, info: Option<string>)
    requires !env.samePos(a, b) && env.samePos(b, b)
    ensures var ms := [MarkerRec(None, a, false, info), MarkerRec(None, b, false, info)];
            FirstIndex(ms, AsWrittenMatch(None, b, env)) == 0 &&
            FirstIndex(ms, Match(None, b, env)) == 1
  {
    var ms := [MarkerRec(None, a, false, info), MarkerRec(None, b, false, info)];
    assert AsWrittenMatch(None, b, env)(ms[0]);
    assert !Match(None, b, env)(ms[0]);
    assert Match(None, b, env)(ms[1]);
    assert ms[1..] == [ms[1]];
  }
}

=== FILE: model.dfy ===
/** The parser's data: the style records seeded from the default style, placemarks,
    ground overlays, network links, the markers a document keeps between loads, and
    the three objects whose fields the parser updates in place: a document, the
    bookkeeping record of one batch of documents (`internals`) and the list of documents
    a batch shares (`docSet`). */
module Model {
  import opened Wrappers
  import opened Xml
  import opened Numbers
  import opened Coords

  /** A value that KML text may replace: the default's number, or the node text. */
  datatype Scalar = Number(n: real) | Text(s: string)

  /** `kml:BalloonStyle`. */
  datatype Balloon = Balloon(bgColor: string, textColor: string, text: string, displayMode: string)

  /** `kml:hotSpot`: `x` and `y` as the numbers the icon arithmetic sees (`null * s` is
      0, a string is converted by `Number`), the units as written (`None` is `null`). */
  datatype HotSpot = HotSpot(x: Num, y: Num, xunits: Option<string>, yunits: Option<string>)

  /** `icon.dim`: the palette cell `x`, `y`, `w`, `h` (`None` is NaN), the image height
      `th` once known (`None` is `undefined`) and whether `w`/`h` are the 32x32 guess. */
  datatype Dim = Dim(x: Option<int>, y: Option<int>, w: Option<int>, h: Option<int>,
                     th: Option<int>, whGuess: bool)

  /** What the image's `onload` handler does when the image arrives: record its size
      (installed with the image), or also resume the deferred icon processing and
      replay the queued markers. */
  datatype OnLoad = RecordDims | ResumeDeferred

  /** The `Image` object of an icon: whether it has loaded, its size, its handler. */
  datatype Image = Image(complete: bool, width: int, height: int, onload: OnLoad)

  datatype Point2 = Point2(x: Num, y: Num)
  datatype Size2 = Size2(w: Num, h: Num)

  /** The marker image built from an icon (`icon.marker`); `None` sizes are `null`. */
  datatype MarkerImage = MarkerImage(url: string, size: Option<Size2>, origin: Point2,
                                     anchor: Point2, scaledSize: Option<Size2>)

  /** A predictable shadow image (`icon.shadow`). */
  datatype Shadow = Shadow(url: string, size: Size2, anchor: Point2)

  /** A map position: `google.maps.LatLng(lat, lng)`. */
  datatype Pos = Pos(lat: Num, lng: Num)

  /** A marker that could not be built yet (`[placemark, doc]`): the placemark, the
      position of its point, and the document whose marker list receives it. */
  datatype MarkerRequest = MarkerRequest(placemark: Placemark, pos: Pos, doc: Doc)

  /** `kml:IconStyle` with the icon state the parser hangs on it. `href` and `url` are
      `""` when unset; `backlog` is `icon.markerBacklog` (`None` when deleted or never
      created). */
  datatype Icon = Icon(scale: Num, dim: Dim, hotSpot: HotSpot, href: string, url: string,
                       img: Option<Image>, marker: Option<MarkerImage>, shadow: Option<Shadow>,
                       backlog: Option<seq<MarkerRequest>>)

  /** `kml:LineStyle`. */
  datatype LineStyle = LineStyle(color: string, colorMode: string, width: Scalar)

  /** `kml:PolyStyle`. */
  datatype PolyStyle = PolyStyle(color: string, colorMode: string, fill: bool, outline: bool)

  /** A style; `pairs` is the copy of a StyleMap's key-to-style map stored on its slot. */
  datatype Style = Style(balloon: Balloon, icon: Icon, line: LineStyle, poly: PolyStyle,
                         pairs: Option<map<string, Style>>)

  /** The style a placemark holds: the shared table slot `styles[base][id]` itself (the
      same object, so later in-place changes to the slot are seen), or a style of its own. */
  datatype StyleRef = Shared(base: string, id: string) | Own(style: Style)

  /** One polygon: its outer and inner boundary coordinate lists. */
  datatype PolygonPart = PolygonPart(outer: seq<seq<Coord>>, inner: seq<seq<Coord>>)

  /** The substitution variables of a placemark: display names, values, and the
      direction-link parameters. */
  datatype Vars = Vars(display: map<string, string>, val: map<string, string>,
                       directions: seq<string>)

  /** A placemark record. The geometry fields are `None` when the placemark has no such
      geometry. */
  datatype Placemark = Placemark(
    name: string, description: string, styleUrl: string, styleBaseUrl: string,
    styleID: string, visibility: bool, balloonVisibility: bool, id: Option<string>,
    style: StyleRef, vars: Vars, point: Option<seq<Coord>>, latlng: Option<Pos>,
    polygon: Option<seq<PolygonPart>>, lineString: Option<seq<seq<Coord>>>,
    track: Option<seq<seq<Coord>>>)

  /** A marker a document keeps: its id (`None` is `null` or `undefined`), position,
      whether the current load still wants it, and the content of its info window
      (`None` when the placemark's balloon is hidden). */
  datatype MarkerRec = MarkerRec(id: Option<string>, pos: Pos, active: bool, info: Option<string>)

  /** A ground-overlay record. */
  datatype GroundOverlay = GroundOverlay(name: string, description: string, href: string,
                                         north: Num, east: Num, south: Num, west: Num,
                                         rotation: Num, opacity: Num)

  /** A network-link record; `None` fields are never set for the link's refresh mode. */
  datatype NetworkLink = NetworkLink(name: string, href: string, refreshMode: string,
                                     refreshInterval: Option<real>,
                                     viewRefreshMode: Option<string>,
                                     viewRefreshTime: Option<string>,
                                     viewFormat: Option<string>)

  /** What a fetch hands to `render`: nothing (or the `'failed parse'` marker), a
      document carrying an IE parse-error code, or a document. A document is the
      document node, whose children are its root element. */
  datatype Response = NoDocument | ErrorCode(code: int, document: Element) | Document(document: Element)

  /** The host functions the parser calls and whose code is not part of this model,
      taken as given functions: `cleanURL(dir, url)` (`None` is an undefined
      directory), `defileURL(location.pathname)`, the directory `fetchDoc` gives a
      document (`defileURL(baseUrl)`, or `baseUrl + '/'` for an archive),
      `getBooleanValue` of a present node's text, `getOpacity`, the state of a newly
      created `Image` for a URL, `LatLng.equals`, `LatLng.toUrlValue`, the address encoding
      of the direction links (`encodeURIComponent` with `%20` turned into `+`), the page
      path, the KMZ data URLs (`kmzMetaData`), and whether `createOverlay` returns an
      overlay (the built-in one throws without `window.ProjectedOverlay`, and a caller's
      that returns nothing makes `overlay.active = true` throw). */
  datatype Env = Env(
    num: NumberSyntax,
    cleanURL: (Option<string>, string) -> string,
    pageDir: string,
    baseDirOf: string -> string,
    booleanText: (string, bool) -> bool,
    getOpacity: string -> Num,
    probe: string -> Image,
    samePos: (Pos, Pos) -> bool,
    urlValue: Pos -> string,
    encodeAddress: string -> string,
    pathname: string,
    dataUrls: map<string, string>,
    overlayMade: bool)

  /** The parser options the modelled code consults: whether `afterParse` and
      `processStyles` are set, whether the caller supplied its own `createMarker`,
      `createPolygon` or `createLineString`, `suppressInfoWindows` and
      `suppressDirections`. */
  datatype Options = Options(afterParse: bool, processStyles: bool, customCreateMarker: bool,
                             customCreatePolygon: bool, customCreateLineString: bool,
                             suppressInfoWindows: bool, suppressDirections: bool)

  /** How one call of `render` ended: the document failed to load; a dependency had to
      be loaded first (`isNew` when it was appended to the document set); an exception
      ended it; or it reached the end, decrementing `batch.remaining`, with `fired` when
      that brought the count to zero and `afterParse` and `'parsed'` ran. */
  datatype RenderOutcome = Failed | Deferred(dep: Doc, isNew: bool) | Threw
                         | Completed(batch: Batch, fired: bool)

  /** The list of documents that the batches of one parse share (`internals.docSet`). */
  class DocList {
    var items: seq<Doc>

    constructor(items: seq<Doc>)
      ensures this.items == items
    {
      this.items := items;
    }
  }

  /** The bookkeeping of one batch of documents (`internals`). */
  class Batch {
    const docSet: DocList
    var remaining: int
    var parseOnly: bool

    constructor(docSet: DocList, remaining: int, parseOnly: bool)
      ensures this.docSet == docSet && this.remaining == remaining && this.parseOnly == parseOnly
    {
      this.docSet := docSet;
      this.remaining := remaining;
      this.parseOnly := parseOnly;
    }
  }

  /** One KML document. `baseUrl` is set once, when the object is made (a document
      parsed from a string has none); `markers` is `None` until a marker is kept. */
  class Doc {
    var url: string
    const baseUrl: Option<string>
    var baseDir: Option<string>
    var reload: bool
    var failed: bool
    var internals: Batch
    var placemarks: seq<Placemark>
    var groundoverlays: seq<GroundOverlay>
    var markers: Option<seq<MarkerRec>>

    constructor(url: string, baseUrl: Option<string>, internals: Batch)
      ensures this.url == url && this.baseUrl == baseUrl && this.internals == internals
      ensures baseDir.None? && !reload && !failed
      ensures placemarks == [] && groundoverlays == [] && markers.None?
    {
      this.url := url;
      this.baseUrl := baseUrl;
      this.internals := internals;
      baseDir := None;
      reload := false;
      failed := false;
      placemarks := [];
      groundoverlays := [];
      markers := None;
    }
  }
}

=== FILE: numbers.dfy ===
/** JavaScript numbers as the parser uses them: a value or NaN. Arithmetic and
    `Math.round` propagate NaN; the string conversions are supplied by the host. */
module Numbers {
  import opened Wrappers

  /** A JavaScript number: `Some(x)` for a value, `None` for NaN. The parser never
      produces an infinity from the operations modelled here other than through the
      host's conversions, which are taken to return NaN instead. */
  type Num = Option<real>

  /** The host's string-to-number conversions. `toNumber` is `Number(s)`, the test
      behind `isNaN(s)`; `parseFloat` and `parseInt` (radix 10) are the global functions.
      They differ (`Number("")` is 0 while `parseFloat("")` is NaN; `parseFloat("1x")` is 1
      while `Number("1x")` is NaN), so all three are kept apart. */
  datatype NumberSyntax = NumberSyntax(toNumber: string -> Num,
                                       parseFloat: string -> Num,
                                       parseInt: string -> Option<int>)

  function OfInt(n: Option<int>): (r: Num)
    ensures r.Some? <==> n.Some?
    ensures r.Some? ==> r.value == n.value as real
  {
    match n
    case Some(i) => Some(i as real)
    case None => None
  }

  /** `a * b`, NaN when either is. */
  function Mul(a: Num, b: Num): (r: Num)
    ensures r.Some? <==> a.Some? && b.Some?
    ensures r.Some? ==> r.value == a.value * b.value
  {
    if a.Some? && b.Some? then Some(a.value * b.value) else None
  }

  /** `a - b`, NaN when either is. */
  function Sub(a: Num, b: Num): (r: Num)
    ensures r.Some? <==> a.Some? && b.Some?
    ensures r.Some? ==> r.value == a.value - b.value
  {
    if a.Some? && b.Some? then Some(a.value - b.value) else None
  }

  /** `Math.abs(a)`. */
  function Abs(a: Num): (r: Num)
    ensures r.Some? <==> a.Some?
    ensures r.Some? ==> r.value >= 0.0 && (r.value == a.value || r.value == -a.value)
  {
    match a
    case Some(x) => Some(if x < 0.0 then -x else x)
    case None => None
  }

  /** `Math.round(x)` on a value: the integer nearest to `x`, halves rounded up. */
  function RoundHalfUp(x: real): (r: int)
    ensures x - 0.5 < r as real <= x + 0.5
  {
    (x + 0.5).Floor
  }

  /** `Math.round(a)`, NaN when `a` is. */
  function Round(a: Num): (r: Num)
    ensures r.Some? <==> a.Some?
    ensures r.Some? ==> a.value - 0.5 < r.value <= a.value + 0.5 && r.value == r.value.Floor as real
  {
    match a
    case Some(x) => Some(RoundHalfUp(x) as real)
    case None => None
  }

  /** The JavaScript comparison `a < 0`, false on NaN. */
  predicate IsNegative(a: Option<int>) {
    a.Some? && a.value < 0
  }
}

=== FILE: overlays.dfy ===
/** The ground-overlay and network-link records `render` builds, the page directory a
    relative link is resolved against, and which links are loaded once. */
module Overlays {
  import opened Wrappers
  import opened Xml
  import opened Text
  import opened Numbers
  import opened Model

  /** `parseFloat(nodeValue(getElementsByTagName(node, tag)[0]))`. */
  function FloatOf(node: Element, tag: string, num: NumberSyntax): Num {
    num.parseFloat(ChildValue(node, tag, ""))
  }

  /** The ground-overlay record (source lines 720-746): the image reference resolved
      against the document directory (the archive's data URL when there is one), the
      box edges, the rotation negated (KML turns anticlockwise, the map clockwise), and
      the opacity of the first `color` element, 1.0 without one. */
  function GroundOverlayOf(node: Element, baseDir: Option<string>, env: Env): GroundOverlay {
    var url0 := env.cleanURL(baseDir, ChildValue(node, "href", ""));
    var href := if url0 in env.dataUrls then env.dataUrls[url0] else url0;
    var colors := ByTag(node, "color");
    GroundOverlay(ChildValue(node, "name", ""), ChildValue(node, "description", ""), href,
                  FloatOf(node, "north", env.num), FloatOf(node, "east", env.num),
                  FloatOf(node, "south", env.num), FloatOf(node, "west", env.num),
                  Mul(Some(-1.0), FloatOf(node, "rotation", env.num)),
                  if |colors| > 0 then env.getOpacity(colors[0].text) else Some(1.0))
  }

  /** The overlay's rotation is the KML rotation turned the other way (negating it
      again gives the KML value back, and NaN stays NaN); it is fully opaque exactly
      when there is no `color` element or the colour's opacity is 1; and its image is
      the data URL of an archived image. */
  lemma GroundOverlayMeaning(node: Element, baseDir: Option<string>, env: Env)
    ensures var g := GroundOverlayOf(node, baseDir, env);
            var rot := FloatOf(node, "rotation", env.num);
            (g.rotation.Some? <==> rot.Some?) &&
            (rot.Some? ==> g.rotation.value == -rot.value && Mul(Some(-1.0), g.rotation) == rot) &&
            (|ByTag(node, "color")| == 0 ==> g.opacity == Some(1.0)) &&
            (|ByTag(node, "color")| > 0 ==> g.opacity == env.getOpacity(ByTag(node, "color")[0].text)) &&
            (env.cleanURL(baseDir, ChildValue(node, "href", "")) in env.dataUrls ==>
               g.href == env.dataUrls[env.cleanURL(baseDir, ChildValue(node, "href", ""))])
  {
  }

  /** The default refresh mode. */
  const OnChange: string := "onChange"

  /** The view format used when an `onStop` link names none. */
  const DefaultViewFormat: string := "BBOX=[bboxWest],[bboxSouth],[bboxEast],[bboxNorth]"

  /** The network-link record before its `href` is qualified (source lines 795-823),
      with the elements the `onStop` view refresh time and view format are read from
      as parameters: an empty refresh mode means `onChange`; `onInterval` reads the
      interval (NaN becomes 0); `onChange` reads the view refresh mode (empty means
      `never`), and `onStop` then reads the refresh time and the view format (empty
      means the bounding-box format). */
  function LinkWith(node: Element, num: NumberSyntax, timeTag: string, formatTag: string): NetworkLink {
    var mode0 := ChildValue(node, "refreshMode", "");
    var mode := if mode0 == "" then OnChange else mode0;
    var link := NetworkLink(ChildValue(node, "name", ""), ChildValue(node, "href", ""), mode,
                            None, None, None, None);
    if mode == "onInterval" then
      link.(refreshInterval := Some(FloatOf(node, "refreshInterval", num).GetOr(0.0)))
    else if mode == OnChange then
      var view0 := ChildValue(node, "viewRefreshMode", "");
      var view := if view0 == "" then "never" else view0;
      if view == "onStop" then
        var format := ChildValue(node, formatTag, "");
        link.(viewRefreshMode := Some(view), viewRefreshTime := Some(ChildValue(node, timeTag, "")),
              viewFormat := Some(if format == "" then DefaultViewFormat else format))
      else link.(viewRefreshMode := Some(view))
    else link
  }

  /** As written at source lines 817-818: both `onStop` fields read the `refreshMode`
      element again. */
  function AsWrittenLink(node: Element, num: NumberSyntax): NetworkLink {
    LinkWith(node, num, "refreshMode", "refreshMode")
  }

  /** As evidently intended: the `viewRefreshTime` and `viewFormat` elements. */
  function LinkOf(node: Element, num: NumberSyntax): NetworkLink {
    LinkWith(node, num, "viewRefreshTime", "viewFormat")
  }

  /** The refresh modes of KML's `Link`: the mode defaults to `onChange`; only
      `onInterval` has an interval, never NaN; only `onChange` has a view refresh mode,
      `never` by default; only its `onStop` has a refresh time and a view format, the
      bounding box by default and otherwise the link's own `viewFormat`. */
  lemma LinkModes(node: Element, num: NumberSyntax)
    ensures var l := LinkOf(node, num);
            var mode := ChildValue(node, "refreshMode", "");
            (mode == "" ==> l.refreshMode == OnChange) && (mode != "" ==> l.refreshMode == mode) &&
            (l.refreshInterval.Some? <==> l.refreshMode == "onInterval") &&
            (l.refreshMode == "onInterval" ==>
               l.refreshInterval.value == FloatOf(node, "refreshInterval", num).GetOr(0.0)) &&
            (l.viewRefreshMode.Some? <==> l.refreshMode == OnChange) &&
            (l.refreshMode == OnChange && ChildValue(node, "viewRefreshMode", "") == "" ==>
               l.viewRefreshMode == Some("never")) &&
            (l.viewFormat.Some? <==> l.viewRefreshMode == Some("onStop")) &&
            (l.viewFormat.Some? && ChildValue(node, "viewFormat", "") != "" ==>
               l.viewFormat.value == ChildValue(node, "viewFormat", ""))
  {
  }

  /** The `onStop` fields as written are never the link's own view format: the view
      format is the refresh mode's text (`onChange`) or the bounding-box default, and a
      link that leaves its refresh mode out and names its own view format loses it. */
  lemma AsWrittenOnStop(node: Element, num: NumberSyntax)
    ensures var l := AsWrittenLink(node, num);
            l.viewFormat.Some? ==> l.viewFormat.value in {OnChange, DefaultViewFormat}
    ensures var l := AsWrittenLink(node, num);
            var f := ChildValue(node, "viewFormat", "");
            ChildValue(node, "refreshMode", "") == "" && ChildValue(node, "viewRefreshMode", "") == "onStop"
            && f != "" && f != DefaultViewFormat ==>
              l.viewFormat == Some(DefaultViewFormat) && LinkOf(node, num).viewFormat == Some(f)
  {
  }

  /** The page directory (source lines 787-788): the page path without its last
      `/`-separated part. */
  function DocPath(pathname: string): string {
    var parts := Split(pathname, '/');
    if |parts| - 1 >= 1 then Join(parts[..|parts| - 1], '/') else ""
  }

  /** A page path that starts at the root gives a directory that is the root itself
      (empty) or starts with `/`. */
  lemma DocPathRooted(pathname: string)
    requires StartsWith(pathname, "/")
    ensures DocPath(pathname) == "" || StartsWith(DocPath(pathname), "/")
  {
    var parts := Split(pathname, '/');
    assert pathname[0] == '/';
    assert IndexOf(pathname, '/') == 0;
    assert parts[0] == "";
    if |parts| - 1 >= 2 {
      var ps := parts[..|parts| - 1];
      assert Join(ps, '/') == ps[0] + ['/'] + Join(ps[1..], '/');
      assert Join(ps, '/') == ['/'] + Join(ps[1..], '/');
    }
  }

  /** `/^[\/|http]/` as written at source line 825: a character class, so any `href`
      whose first character is `/`, `|`, `h`, `t` or `p` counts as absolute. */
  predicate AsWrittenAbsolute(href: string) {
    |href| > 0 && href[0] in {'/', '|', 'h', 't', 'p'}
  }

  /** The evident intent: the `href` starts with `/` or with `http`. */
  predicate Absolute(href: string) {
    StartsWith(href, "/") || StartsWith(href, "http")
  }

  /** Qualifying a relative `href` against the page directory (source lines 825-828),
      with the test as written. */
  function QualifyAsWritten(href: string, docPath: string): string {
    if AsWrittenAbsolute(href) then href else docPath + "/" + href
  }

  /** Qualifying with the intended test. */
  function Qualify(href: string, docPath: string): string {
    if Absolute(href) then href else docPath + "/" + href
  }

  /** Against a rooted page directory, the qualified `href` is absolute, and qualifying
      it again changes nothing. */
  lemma QualifyAbsolute(href: string, pathname: string)
    requires StartsWith(pathname, "/")
    ensures Absolute(Qualify(href, DocPath(pathname)))
    ensures Qualify(Qualify(href, DocPath(pathname)), DocPath(pathname)) == Qualify(href, DocPath(pathname))
  {
    var d := DocPath(pathname);
    DocPathRooted(pathname);
    if !Absolute(href) {
      var q := d + "/" + href;
      if d == "" {
        assert q == "/" + href;
        assert q[..1] == "/";
      } else {
        assert q[..1] == d[..1];
      }
    }
  }

  /** As written, a relative `href` starting with `t`, `p`, `h` or `|` is left
      unqualified: `tiles.kml` stays `tiles.kml`, which the intended test qualifies. */
  lemma QualifyAsWrittenMisses(docPath: string)
    ensures QualifyAsWritten("tiles.kml", docPath) == "tiles.kml"
    ensures !Absolute("tiles.kml")
    ensures Qualify("tiles.kml", docPath) == docPath + "/" + "tiles.kml"
  {
    assert "tiles.kml"[0] == 't';
    assert !StartsWith("tiles.kml", "/") && !StartsWith("tiles.kml", "http");
  }

  /** The network link with its `href` qualified: the record `render` acts on. */
  function QualifiedLink(node: Element, num: NumberSyntax, docPath: string): NetworkLink {
    var l := LinkOf(node, num);
    l.(href := Qualify(l.href, docPath))
  }

  /** A link that `render` loads once, right away (source lines 836-839): refresh on
      change with a view refresh mode of `never`. Interval and view-change reloading
      are timers and map events. */
  predicate LoadsOnce(l: NetworkLink) {
    l.refreshMode == OnChange && l.viewRefreshMode == Some("never")
  }

  /** A link with neither a refresh mode nor a view refresh mode is loaded once. */
  lemma DefaultLinkLoadsOnce(node: Element, num: NumberSyntax, docPath: string)
    requires ChildValue(node, "refreshMode", "") == "" && ChildValue(node, "viewRefreshMode", "") == ""
    ensures LoadsOnce(QualifiedLink(node, num, docPath))
  {
  }
}

=== FILE: parser.dfy ===
/** The parser object (source lines 1-96 and 357-884): the style table it shares across
    documents, the documents it keeps (`docs`, and `docsByUrl` by base URL), and the
    operations that start loads, render a loaded document, register it, and replay the
    markers an icon held back until its image arrived. Fetching is a request to the host:
    `parse` prepares the documents, and each response arrives as a call of `Render`. */
module Parser {
  import opened Wrappers
  import opened Xml
  import opened Numbers
  import opened Model
  import opened Styles
  import opened Icons
  import opened Records
  import opened Overlays
  import opened Markers
  import opened StyleTable
  import opened Placemarks
  import opened Dependencies
  import opened Render

  /** `cleanURL(defileURL(location.pathname), url)`: a URL resolved against the page. */
  function PageUrl(url: string, env: Env): string {
    env.cleanURL(Some(env.pageDir), url)
  }

  /** The URLs `parse` makes new documents for: those whose base URL is not loaded, in
      order, repeats included. */
  function Unlisted(urls: seq<string>, loaded: set<string>, env: Env): (r: seq<string>)
    ensures |r| <= |urls|
    ensures forall k :: 0 <= k < |r| ==> r[k] in urls && PageUrl(r[k], env) !in loaded
    decreases |urls|
  {
    if urls == [] then []
    else
      var u := urls[|urls| - 1];
      Unlisted(urls[..|urls| - 1], loaded, env) + (if PageUrl(u, env) in loaded then [] else [u])
  }

  lemma LinkHrefsStep(ns: seq<Element>, i: nat, num: NumberSyntax, docPath: string)
    requires i < |ns|
    ensures var l := QualifiedLink(ns[i], num, docPath);
            LinkHrefs(ns[..i + 1], num, docPath) ==
            LinkHrefs(ns[..i], num, docPath) + (if LoadsOnce(l) then [l.href] else [])
  {
    assert ns[..i + 1][..i] == ns[..i];
  }

  lemma UnlistedSnoc(urls: seq<string>, u: string, loaded: set<string>, env: Env)
    ensures Unlisted(urls + [u], loaded, env) == Unlisted(urls, loaded, env) + Unlisted([u], loaded, env)
  {
    assert (urls + [u])[..|urls|] == urls;
    assert [u][..0] == [];
  }

  /** One more network link: the unloaded URLs of the links loaded once grow by the new
      link's URL when it is loaded once and not loaded yet, and stay as they were
      otherwise. */
  lemma UnlistedLinkStep(ns: seq<Element>, i: nat, num: NumberSyntax, docPath: string,
                         loaded: set<string>, env: Env)
    requires i < |ns|
    ensures var l := QualifiedLink(ns[i], num, docPath);
            Unlisted(LinkHrefs(ns[..i + 1], num, docPath), loaded, env) ==
            Unlisted(LinkHrefs(ns[..i], num, docPath), loaded, env) +
            (if LoadsOnce(l) then Unlisted([l.href], loaded, env) else [])
  {
    var hs := LinkHrefs(ns[..i], num, docPath);
    var l := QualifiedLink(ns[i], num, docPath);
    LinkHrefsStep(ns, i, num, docPath);
    if LoadsOnce(l) {
      UnlistedSnoc(hs, l.href, loaded, env);
    } else {
      assert hs + [] == hs;
    }
  }

  /** The documents a list of queued marker requests will add markers to. */
  function RequestDocs(reqs: seq<MarkerRequest>): set<Doc> {
    set r | r in reqs :: r.doc
  }

  /** The marker a replayed request makes (source lines 935-940 with `createMarker`): the
      request's position, no id, active, and the info window of the placemark's style. */
  function ReplayMarker(t: Table, req: MarkerRequest, opts: Options, env: Env): MarkerRec {
    var info := InfoWindow(req.placemark, StyleOf(t, req.placemark.style).balloon, opts, env);
    MarkerRec(None, req.pos, true, if info.Some? then Some(info.value.content) else None)
  }

  /** The markers a replay makes, one per request, with the table as the load left it. */
  function ReplayMarkers(t: Table, reqs: seq<MarkerRequest>, opts: Options, env: Env): (r: seq<MarkerRec>)
    ensures |r| == |reqs|
  {
    seq(|reqs|, k requires 0 <= k < |reqs| => ReplayMarker(t, reqs[k], opts, env))
  }

  /** The markers `ms` (one per request) that go to document `d`, in queue order. */
  function Routed(reqs: seq<MarkerRequest>, ms: seq<MarkerRec>, d: Doc): (r: seq<MarkerRec>)
    requires |ms| == |reqs|
    ensures |r| <= |reqs|
    decreases |reqs|
  {
    if reqs == [] then []
    else
      var last := |reqs| - 1;
      Routed(reqs[..last], ms[..last], d) + (if reqs[last].doc == d then [ms[last]] else [])
  }

  /** A document gets markers back exactly when it has a queued request. */
  lemma {:induction false} RoutedMeaning(reqs: seq<MarkerRequest>, ms: seq<MarkerRec>, d: Doc)
    requires |ms| == |reqs|
    ensures d in RequestDocs(reqs) <==> Routed(reqs, ms, d) != []
    decreases |reqs|
  {
    if reqs != [] {
      var last := |reqs| - 1;
      RoutedMeaning(reqs[..last], ms[..last], d);
      assert reqs == reqs[..last] + [reqs[last]];
      assert RequestDocs(reqs) == RequestDocs(reqs[..last]) + {reqs[last].doc};
    }
  }

  /** One more request replayed adds its marker to its own document only. */
  lemma RoutedStep(reqs: seq<MarkerRequest>, ms: seq<MarkerRec>, i: nat)
    requires |ms| == |reqs| && i < |reqs|
    ensures forall d :: Routed(reqs[..i + 1], ms[..i + 1], d) ==
                        Routed(reqs[..i], ms[..i], d) + (if reqs[i].doc == d then [ms[i]] else [])
  {
    assert reqs[..i + 1][..i] == reqs[..i];
    assert ms[..i + 1][..i] == ms[..i];
  }

  class GeoParser {
    var styles: Table
    var docs: seq<Doc>
    var docsByUrl: map<string, Doc>
    const opts: Options
    const env: Env

    /** `docs` and `docsByUrl` hold the same documents, each filed under its own
        (non-empty) base URL. */
    ghost predicate Valid()
      reads this`docs, this`docsByUrl
    {
      (forall u :: u in docsByUrl ==> u != "" && docsByUrl[u].baseUrl == Some(u) && docsByUrl[u] in docs) &&
      (forall i :: 0 <= i < |docs| ==>
         docs[i].baseUrl.Some? && docs[i].baseUrl.value in docsByUrl && docsByUrl[docs[i].baseUrl.value] == docs[i])
    }

    constructor(opts: Options, env: Env)
      ensures Valid()
      ensures styles == map[] && docs == [] && docsByUrl == map[]
      ensures this.opts == opts && this.env == env
    {
      styles := map[];
      docs := [];
      docsByUrl := map[];
      this.opts := opts;
      this.env := env;
    }

    /** `fetchDoc` (source lines 70-96) as far as the document is concerned: its
        directory, derived from its base URL; the fetch itself is the host's. */
    method FetchDoc(d: Doc)
      requires d.baseUrl.Some?
      modifies d`baseDir
      ensures d.baseDir == Some(env.baseDirOf(d.baseUrl.value))
    {
      d.baseDir := Some(env.baseDirOf(d.baseUrl.value));
    }

    /** The documents of `list` from position `n` on are the ones `parse` appended for the
        URLs `us`: in the batch, with each URL, its base URL and its directory, neither
        reloaded nor failed. */
    ghost predicate NewDocs(list: DocList, n: nat, us: seq<string>, batch: Batch)
      reads list, list.items
    {
      n + |us| == |list.items| &&
      forall k :: n <= k < |list.items| ==>
        var d := list.items[k];
        d.baseUrl == Some(PageUrl(us[k - n], env)) && d.url == us[k - n] && d.internals == batch &&
        !d.reload && !d.failed && d.baseDir == Some(env.baseDirOf(PageUrl(us[k - n], env)))
    }

    /** The loaded documents the URLs `us` name are reloads in the batch, refetched, with
        one of the URLs `all` that names them. */
    ghost predicate Reloaded(us: seq<string>, all: seq<string>, batch: Batch)
      reads this`docs, this`docsByUrl, docs
    {
      Valid() &&
      forall j :: 0 <= j < |us| && PageUrl(us[j], env) in docsByUrl ==>
        var d := docsByUrl[PageUrl(us[j], env)];
        d.reload && d.internals == batch && d.url in all && PageUrl(d.url, env) == PageUrl(us[j], env) &&
        d.baseDir == Some(env.baseDirOf(PageUrl(us[j], env)))
    }

    /** A loaded document that `parse` names again: a reload in the new batch, with the
        URL it was named by, refetched. */
    method Reuse(d: Doc, url: string, batch: Batch, ghost us: seq<string>, ghost all: seq<string>)
      requires Valid()
      requires PageUrl(url, env) in docsByUrl && d == docsByUrl[PageUrl(url, env)]
      requires d.baseUrl == Some(PageUrl(url, env)) && url in all
      requires Reloaded(us, all, batch)
      modifies d`reload, d`url, d`internals, d`baseDir
      ensures d.reload && d.url == url && d.internals == batch
      ensures d.baseDir == Some(env.baseDirOf(PageUrl(url, env)))
      ensures Reloaded(us + [url], all, batch)
    {
      d.reload := true;
      d.url := url;
      d.internals := batch;
      FetchDoc(d);
      forall j | 0 <= j < |us + [url]| && PageUrl((us + [url])[j], env) in docsByUrl
        ensures var e := docsByUrl[PageUrl((us + [url])[j], env)];
                e.reload && e.internals == batch && e.url in all &&
                PageUrl(e.url, env) == PageUrl((us + [url])[j], env) &&
                e.baseDir == Some(env.baseDirOf(PageUrl((us + [url])[j], env)))
      {
        if j < |us| {
          assert (us + [url])[j] == us[j];
          if PageUrl(us[j], env) != PageUrl(url, env) {
            assert docsByUrl[PageUrl(us[j], env)] != d;
          }
        }
      }
    }

    /** A URL whose base URL is not loaded leaves the reloads as they were. */
    lemma ReloadedUnlisted(us: seq<string>, url: string, all: seq<string>, batch: Batch)
      requires Reloaded(us, all, batch) && PageUrl(url, env) !in docsByUrl
      ensures Reloaded(us + [url], all, batch)
    {
      forall j | 0 <= j < |us| ensures (us + [url])[j] == us[j] { }
    }

    /** A new document for a URL `parse` has not loaded, appended to the set and
        fetched. */
    method AppendNew(list: DocList, url: string, baseUrl: string, batch: Batch, ghost n: nat, ghost us: seq<string>)
      returns (d: Doc)
      requires NewDocs(list, n, us, batch)
      modifies list
      ensures fresh(d) && list.items == old(list.items) + [d]
      ensures d.baseUrl == Some(baseUrl) && d.url == url && d.internals == batch
      ensures !d.reload && !d.failed && d.baseDir == Some(env.baseDirOf(baseUrl))
      ensures baseUrl == PageUrl(url, env) ==> NewDocs(list, n, us + [url], batch)
    {
      d := new Doc(url, Some(baseUrl), batch);
      FetchDoc(d);
      list.items := list.items + [d];
      forall k | n <= k < |list.items| - 1 ensures list.items[k] == old(list.items)[k] && (us + [url])[k - n] == us[k - n] { }
    }

    /** One URL of `parse` (source lines 53-68): a loaded document with its base URL is
        reused as a reload, otherwise a new document is appended to the set. */
    method ParseUrl(list: DocList, urls: seq<string>, i: nat, batch: Batch, ghost n: nat) returns (next: nat)
      requires Valid() && i < |urls|
      requires forall k :: n <= k < |list.items| ==> list.items[k] !in docs
      requires NewDocs(list, n, Unlisted(urls[..i], docsByUrl.Keys, env), batch)
      requires Reloaded(urls[..i], urls, batch)
      modifies list, docs`url, docs`reload, docs`internals, docs`baseDir
      ensures |list.items| >= |old(list.items)|
      ensures forall k :: 0 <= k < |old(list.items)| ==> list.items[k] == old(list.items)[k]
      ensures forall k :: |old(list.items)| <= k < |list.items| ==> fresh(list.items[k])
      ensures forall k :: n <= k < |list.items| ==> list.items[k] !in docs
      ensures next == i + 1
      ensures NewDocs(list, n, Unlisted(urls[..next], docsByUrl.Keys, env), batch)
      ensures Reloaded(urls[..next], urls, batch)
      ensures forall d :: d in docs ==> d.internals == old(d.internals) || d.internals == batch
    {
      ghost var us := urls[..i];
      var url := urls[i];
      assert urls[..i + 1] == us + [url];
      assert (us + [url])[..|us|] == us;
      ghost var u0 := Unlisted(us, docsByUrl.Keys, env);
      var baseUrl := PageUrl(url, env);
      if baseUrl in docsByUrl {
        assert Unlisted(us + [url], docsByUrl.Keys, env) == u0;
        var d := docsByUrl[baseUrl];
        assert d !in list.items[n..];
        Reuse(d, url, batch, us, urls);
      } else {
        assert Unlisted(us + [url], docsByUrl.Keys, env) == u0 + [url];
        var d := AppendNew(list, url, baseUrl, batch, n, u0);
        ReloadedUnlisted(us, url, urls, batch);
      }
      next := i + 1;
    }

    /** The loop of `parse` (source lines 53-68): each URL in turn, appending the new
        documents to `list`. */
    method ParseUrls(list: DocList, urls: seq<string>, batch: Batch)
      requires Valid()
      modifies list, docs`url, docs`reload, docs`internals, docs`baseDir
      ensures |list.items| >= |old(list.items)|
      ensures forall k :: 0 <= k < |old(list.items)| ==> list.items[k] == old(list.items)[k]
      ensures forall k :: |old(list.items)| <= k < |list.items| ==> fresh(list.items[k])
      ensures NewDocs(list, |old(list.items)|, Unlisted(urls, docsByUrl.Keys, env), batch)
      ensures Reloaded(urls, urls, batch)
      ensures forall d :: d in docs ==> d.internals == old(d.internals) || d.internals == batch
    {
      ghost var before := list.items;
      var i := 0;
      while i < |urls|
        invariant 0 <= i <= |urls|
        invariant |list.items| >= |before|
        invariant forall k :: 0 <= k < |before| ==> list.items[k] == before[k]
        invariant forall k :: |before| <= k < |list.items| ==> fresh(list.items[k])
        invariant forall k :: |before| <= k < |list.items| ==> list.items[k] !in docs
        invariant NewDocs(list, |before|, Unlisted(urls[..i], docsByUrl.Keys, env), batch)
        invariant Reloaded(urls[..i], urls, batch)
        invariant forall d :: d in docs ==> d.internals == old(d.internals) || d.internals == batch
      {
        ghost var prev := list.items;
        i := ParseUrl(list, urls, i, batch, |before|);
        forall k | |before| <= k < |list.items| ensures fresh(list.items[k]) {
          if k < |prev| {
            assert list.items[k] == prev[k];
          }
        }
      }
      assert urls[..i] == urls;
    }

    /** `parse(urls, docSet)` (source lines 36-69): one batch for all the URLs, counting
        them; a loaded document is reused and marked as a reload, any other gets a new
        document appended to the set; every document joins the batch and is fetched. */
    method Parse(urls: seq<string>, docSet: Option<DocList>) returns (batch: Batch)
      requires Valid()
      modifies docs`url, docs`reload, docs`internals, docs`baseDir
      modifies if docSet.Some? then {docSet.value} else {}
      ensures fresh(batch) && batch.remaining == |urls|
      ensures batch.parseOnly == !(opts.afterParse || opts.processStyles)
      ensures docSet.Some? ==> batch.docSet == docSet.value
      ensures docSet.None? ==> fresh(batch.docSet)
      ensures var before := if docSet.Some? then old(docSet.value.items) else [];
              |batch.docSet.items| >= |before| &&
              (forall k :: 0 <= k < |before| ==> batch.docSet.items[k] == before[k]) &&
              (forall k :: |before| <= k < |batch.docSet.items| ==> fresh(batch.docSet.items[k])) &&
              NewDocs(batch.docSet, |before|, Unlisted(urls, docsByUrl.Keys, env), batch)
      ensures Reloaded(urls, urls, batch)
      ensures forall d :: d in docs ==> d.internals == old(d.internals) || d.internals == batch
    {
      var list: DocList;
      if docSet.Some? {
        list := docSet.value;
      } else {
        list := new DocList([]);
      }
      batch := new Batch(list, |urls|, !(opts.afterParse || opts.processStyles));
      ParseUrls(list, urls, batch);
    }

    /** `processStyleMap(node, base, id, baseDir)` (source lines 293-320) on the parser's
        table: the pairs in document order, the first that throws ending it, and then the
        map's own slot. */
    method ProcessStyleMap(node: Element, base: string, id: string, baseDir: Option<string>) returns (ok: bool)
      modifies this`styles
      ensures var r := ProcessStyleMapOf(old(styles), node, base, id, baseDir, opts.processStyles, env);
              ok == r.Mapped? && styles == r.table
    {
      var prs := PairReads(node, base, baseDir, env);
      var c := CollectStylePairs(prs);
      var r := FinishStyleMap(c, base, id, opts.processStyles, env);
      styles := r.table;
      ok := r.Mapped?;
    }

    /** The pair loop of `processStyleMap` (source lines 298-310) on the parser's table;
        the first pair that throws ends it. */
    method CollectStylePairs(prs: seq<PairRead>) returns (c: Collected)
      modifies this`styles
      ensures c == CollectPairs(Collected(old(styles), map[]), prs) && styles == c.table
    {
      ghost var c0 := Collected(styles, map[]);
      var entries: map<string, PairEntry> := map[];
      var k := 0;
      while k < |prs|
        invariant 0 <= k <= |prs|
        invariant CollectPairs(c0, prs[..k]) == Collected(styles, entries)
      {
        assert prs[..k + 1][..k] == prs[..k];
        c := AddPair(Collected(styles, entries), prs[k]);
        if c.NoPairTable? {
          styles := c.table;
          CollectPairsThrown(c0, prs, k + 1);
          return;
        }
        styles, entries := c.table, c.entries;
        k := k + 1;
      }
      assert prs[..k] == prs;
      c := Collected(styles, entries);
    }

    /** `processStyles(doc)` (source lines 1052-1056): every slot of the document's base
        gets its icon processed, one slot at a time. */
    method ProcessStyles(key: string)
      requires key in styles
      modifies this`styles
      ensures styles == ProcessedBase(old(styles), key, env)
    {
      var slots := styles[key];
      var cur := slots;
      var rest := slots.Keys;
      while rest != {}
        invariant rest <= slots.Keys && cur.Keys == slots.Keys
        invariant forall i :: i in slots ==> cur[i] == if i in rest then slots[i] else WithProcessedIcon(slots[i], env)
        decreases rest
      {
        var i :| i in rest;
        cur := cur[i := WithProcessedIcon(cur[i], env)];
        rest := rest - {i};
      }
      assert cur == ProcessIcons(slots, env);
      styles := styles[key := cur];
    }

    /** The style phase of `render` (source lines 446-466): the document's base, its
        `Style` elements, its `StyleMap` elements (the first that throws ends it) and
        then, when it runs, `processStyles`. */
    method ParseStyles(root: Element, key: string, baseDir: Option<string>) returns (ok: bool)
      modifies this`styles
      ensures var r := StylePhase(old(styles), root, key, baseDir, opts, env);
              ok == r.Mapped? && styles == r.table
    {
      if key !in styles {
        styles := styles[key := map[]];
      }
      assert styles == WithBase(old(styles), key);
      StyleElements(ByTag(root, "Style"), key, baseDir);
      ghost var t1 := styles;
      ok := StyleMapElements(ByTag(root, "StyleMap"), key, baseDir);
      StyleMapNodesKeys(t1, ByTag(root, "StyleMap"), key, baseDir, opts.processStyles, env);
      if ok && RunsProcessStyles(opts) {
        ProcessStyles(key);
      }
    }

    /** The `Style` loop of `render` (source lines 448-454): a style with a non-empty
        `id` is processed into the document's base. */
    method StyleElements(nodes: seq<Element>, key: string, baseDir: Option<string>)
      requires key in styles
      modifies this`styles
      ensures Mapped(styles) == StyleNodes(old(styles), nodes, key, baseDir, env)
      ensures key in styles
    {
      ghost var t0 := styles;
      var i := 0;
      while i < |nodes|
        invariant 0 <= i <= |nodes|
        invariant StyleNodes(t0, nodes[..i], key, baseDir, env) == Mapped(styles)
        invariant styles.Keys == t0.Keys
      {
        StyleNodesStep(t0, nodes, i, key, baseDir, env);
        StyleElement(nodes[i], key, baseDir);
        i := i + 1;
      }
      assert nodes[..i] == nodes;
    }

    /** One `Style` element of that loop (source lines 450-454). */
    method StyleElement(node: Element, key: string, baseDir: Option<string>)
      requires key in styles
      modifies this`styles
      ensures Mapped(styles) == StyleNode(old(styles), node, key, baseDir, env)
      ensures styles.Keys == old(styles).Keys
    {
      var id := Attr(node, "id");
      if id.Some? && id.value != "" {
        ProcessStyleKeys(styles, node, key, id.value, baseDir, env);
        styles := ProcessStyleOf(styles, node, key, id.value, baseDir, env).table;
      }
    }

    /** The `StyleMap` loop of `render` (source lines 456-461): a map with a non-empty
        `id` is processed into the document's base; the first that throws ends it. */
    method StyleMapElements(nodes: seq<Element>, key: string, baseDir: Option<string>) returns (ok: bool)
      modifies this`styles
      ensures var r := StyleMapNodes(old(styles), nodes, key, baseDir, opts.processStyles, env);
              ok == r.Mapped? && styles == r.table
    {
      ghost var t1 := styles;
      var i := 0;
      while i < |nodes|
        invariant 0 <= i <= |nodes|
        invariant StyleMapNodes(t1, nodes[..i], key, baseDir, opts.processStyles, env) == Mapped(styles)
      {
        StyleMapNodesStep(t1, nodes, i, key, baseDir, opts.processStyles, env);
        var id := Attr(nodes[i], "id");
        if id.Some? && id.value != "" {
          var mapped := ProcessStyleMap(nodes[i], key, id.value, baseDir);
          if !mapped {
            StyleMapNodesThrown(t1, nodes, i + 1, key, baseDir, opts.processStyles, env);
            return false;
          }
        }
        i := i + 1;
      }
      assert nodes[..i] == nodes;
      ok := true;
    }

    /** The dependency scan of `render` (source lines 396-443): the first reference the
        scan does not pass over names a document to render first. A listed document is
        refetched; otherwise a new one joins the batch, which counts one more document. */
    method ScanDependencies(root: Element, doc: Doc) returns (dep: Option<Doc>, isNew: bool)
      modifies doc.internals`remaining, doc.internals.docSet, doc.internals.docSet.items`baseDir
      ensures var urls := RefUrls(root);
              var ls := old(Listing(doc.internals.docSet.items));
              var k := FirstDependency(urls, doc.baseUrl, old(doc.baseDir), docsByUrl.Keys, ls, env);
              (dep.None? <==> k == |urls|) &&
              (dep.None? ==> !isNew) &&
              (dep.Some? ==>
                 var r := env.cleanURL(old(doc.baseDir), urls[k]);
                 dep.value.baseUrl == Some(r) && dep.value.baseDir == Some(env.baseDirOf(r)) &&
                 (isNew <==> IndexOfBase(ls, r) == |ls|) &&
                 (!isNew ==> dep.value == old(doc.internals.docSet.items)[IndexOfBase(ls, r)] && !dep.value.failed) &&
                 (isNew ==> fresh(dep.value) && dep.value.url == r && dep.value.internals == doc.internals))
      ensures isNew ==> doc.internals.docSet.items == old(doc.internals.docSet.items) + [dep.value] &&
                        doc.internals.remaining == old(doc.internals.remaining) + 1
      ensures !isNew ==> doc.internals.docSet.items == old(doc.internals.docSet.items) &&
                         doc.internals.remaining == old(doc.internals.remaining)
      ensures dep.None? ==> doc.baseDir == old(doc.baseDir)
    {
      var list := doc.internals.docSet;
      var nodes := ByTag(root, "styleUrl");
      ghost var urls := RefUrls(root);
      var ls := Listing(list.items);
      var i := 0;
      while i < |nodes| && Skipped(RefUrl(nodes[i]), doc.baseUrl, doc.baseDir, docsByUrl.Keys, ls, env)
        invariant 0 <= i <= |nodes|
        invariant forall j :: 0 <= j < i ==> Skipped(urls[j], doc.baseUrl, doc.baseDir, docsByUrl.Keys, ls, env)
      {
        assert RefUrl(nodes[i]) == urls[i];
        i := i + 1;
      }
      FirstDependencyAt(urls, doc.baseUrl, doc.baseDir, docsByUrl.Keys, ls, env, i);
      if i == |nodes| {
        return None, false;
      }
      var r := env.cleanURL(doc.baseDir, RefUrl(nodes[i]));
      var j := IndexOfBase(ls, r);
      if j < |list.items| {
        var d := list.items[j];
        FetchDoc(d);
        return Some(d), false;
      }
      var d := Enlist(r, doc.internals);
      return Some(d), true;
    }

    /** A dependency not yet in the batch (source lines 423-438): a new document for the
        URL joins the list, the batch waits for one more document, and the document is
        fetched. */
    method Enlist(r: string, batch: Batch) returns (d: Doc)
      modifies batch`remaining, batch.docSet
      ensures fresh(d) && d.url == r && d.baseUrl == Some(r) && d.baseDir == Some(env.baseDirOf(r))
      ensures d.internals == batch && !d.failed && !d.reload
      ensures batch.docSet.items == old(batch.docSet.items) + [d]
      ensures batch.remaining == old(batch.remaining) + 1
    {
      d := new Doc(r, Some(r), batch);
      batch.docSet.items := batch.docSet.items + [d];
      batch.remaining := batch.remaining + 1;
      FetchDoc(d);
    }

    /** The marker logic for a point placemark (source lines 621-655), on the document's
        markers and the parser's table. */
    method PlacePoint(p: Placemark, pos: Pos, doc: Doc) returns (p': Placemark)
      modifies this`styles, doc`markers
      ensures var r := PointMarker(old(doc.markers), doc.reload, old(styles), p, pos, doc, opts, env);
              doc.markers == r.markers && styles == r.table && p' == r.placemark
    {
      if opts.customCreateMarker {
        return p;
      }
      var list := doc.markers.GetOr([]);
      if doc.reload {
        var reactivated, found := Reactivate(list, p.id, pos, env);
        if found {
          doc.markers := Some(reactivated);
          return p;
        }
      }
      var style := StyleOf(styles, p.style);
      if MustQueue(style.icon) {
        var queued := style.(icon := QueueMarker(style.icon, MarkerRequest(p, pos, doc)));
        doc.markers := Some(list);
        match p.style {
          case Shared(b, i) =>
            if HasSlot(styles, b, i) {
              styles := Store(styles, b, i, queued);
            }
            return p;
          case Own(_) =>
            return p.(style := Own(queued));
        }
      }
      var info := InfoWindow(p, style.balloon, opts, env);
      doc.markers := Some(list + [NewMarker(p, pos, info)]);
      p' := Windowed(p, style.balloon, opts, env);
    }

    /** The placemark loop of `render` (source lines 476-684): each record is built and
        pushed, and a point placemark goes through the marker logic; the first
        placemark that throws ends it. */
    method ParsePlacemarks(nodes: seq<Element>, doc: Doc) returns (ok: bool)
      modifies this`styles, doc`placemarks, doc`markers
      ensures var r := PlacemarkPass(Pass(old(doc.placemarks), old(doc.markers), old(styles), false), nodes,
                                     BaseKey(doc.baseUrl), doc.baseDir, doc.reload, doc, opts, env);
              ok == !r.threw && doc.placemarks == r.placemarks && doc.markers == r.markers && styles == r.table
    {
      ghost var s0 := Pass(doc.placemarks, doc.markers, styles, false);
      var key := BaseKey(doc.baseUrl);
      var i := 0;
      while i < |nodes|
        invariant 0 <= i <= |nodes|
        invariant PlacemarkPass(s0, nodes[..i], key, doc.baseDir, doc.reload, doc, opts, env) ==
                  Pass(doc.placemarks, doc.markers, styles, false)
      {
        var threw;
        i, threw := PlacemarkAt(nodes, i, doc, s0);
        if threw {
          PlacemarkPassThrown(s0, nodes, i, key, doc.baseDir, doc.reload, doc, opts, env);
          return false;
        }
      }
      assert nodes[..i] == nodes;
      ok := true;
    }

    /** One pass of the placemark loop: the record is built, then pushed. */
    method PlacemarkAt(nodes: seq<Element>, i: nat, doc: Doc, ghost s0: Pass) returns (next: nat, threw: bool)
      requires i < |nodes|
      requires PlacemarkPass(s0, nodes[..i], BaseKey(doc.baseUrl), doc.baseDir, doc.reload, doc, opts, env) ==
               Pass(doc.placemarks, doc.markers, styles, false)
      modifies this`styles, doc`placemarks, doc`markers
      ensures next == i + 1
      ensures PlacemarkPass(s0, nodes[..next], BaseKey(doc.baseUrl), doc.baseDir, doc.reload, doc, opts, env) ==
              Pass(doc.placemarks, doc.markers, styles, threw)
    {
      PlacemarkPassLast(s0, nodes, i, BaseKey(doc.baseUrl), doc.baseDir, doc.reload, doc, opts, env);
      next := i + 1;
      var built := ReadPlacemark(nodes[i], styles, BaseKey(doc.baseUrl), doc.baseDir, opts, env);
      threw := PushPlacemark(built, doc);
    }

    /** One shape creator's info window: one more call of `createInfoWindow`, which
        leaves the geometry alone. */
    method DrawWindow(ghost p0: Placemark, p: Placemark, balloon: Balloon, ghost n: nat) returns (q: Placemark)
      requires p == Windows(p0, balloon, n, opts, env)
      ensures q == Windows(p0, balloon, n + 1, opts, env)
      ensures q.lineString == p.lineString && q.track == p.track
    {
      WindowsStep(p0, balloon, n, opts, env);
      q := Windowed(p, balloon, opts, env);
    }

    /** The shape creators in the order the source calls them: a polygon, a line string
        and a track each make an info window unless a custom creator replaces the
        built-in one. */
    method DrawShapes(p0: Placemark, balloon: Balloon) returns (p: Placemark)
      ensures p == ShapeWindows(p0, balloon, opts, env)
    {
      p := p0;
      ghost var n: nat := 0;
      if p.polygon.Some? && !opts.customCreatePolygon {
        p := DrawWindow(p0, p, balloon, n);
        n := n + 1;
      }
      if p.lineString.Some? && !opts.customCreateLineString {
        p := DrawWindow(p0, p, balloon, n);
        n := n + 1;
      }
      if p.track.Some? && !opts.customCreateLineString {
        p := DrawWindow(p0, p, balloon, n);
        n := n + 1;
      }
      assert n == ShapeCalls(p0, opts);
    }

    /** A built record is pushed; a placemark with a position then goes through the marker
        logic, and each polygon, line string and track a built-in creator draws makes an
        info window (source lines 617-677); the placemark they leave replaces the pushed
        one, as the source's shared object would. */
    method PushPlacemark(built: PlacemarkResult, doc: Doc) returns (threw: bool)
      modifies this`styles, doc`placemarks, doc`markers
      ensures Pass(doc.placemarks, doc.markers, styles, threw) ==
              BuiltStep(Pass(old(doc.placemarks), old(doc.markers), old(styles), false), built, doc.reload, doc, opts, env)
    {
      if built.GeometryThrew? {
        return true;
      }
      var p := built.placemark;
      doc.placemarks := doc.placemarks + [p];
      threw := false;
      match p.latlng {
        case None =>
        case Some(pos) =>
          p := PlacePoint(p, pos, doc);
      }
      p := DrawShapes(p, StyleOf(styles, p.style).balloon);
      doc.placemarks := doc.placemarks[|doc.placemarks| - 1 := p];
    }

    /** The ground-overlay loop of `render` (source lines 698-783): one record per
        `GroundOverlay` element, in order; on a reload, or when `createOverlay` makes no
        overlay, the first record pushed ends it with an exception. */
    method ParseGroundOverlays(root: Element, doc: Doc) returns (ok: bool)
      modifies doc`groundoverlays
      ensures ok == !OverlaysThrow(root, doc.reload, env)
      ensures var all := OverlaysOf(root, doc.baseDir, env);
              doc.groundoverlays == old(doc.groundoverlays) + (if ok then all else all[..1])
    {
      var nodes := ByTag(root, "GroundOverlay");
      ghost var all := OverlaysOf(root, doc.baseDir, env);
      var i := 0;
      while i < |nodes|
        invariant 0 <= i <= |nodes|
        invariant i > 0 ==> !doc.reload && env.overlayMade
        invariant doc.groundoverlays == old(doc.groundoverlays) + all[..i]
      {
        var overlay := GroundOverlayOf(nodes[i], doc.baseDir, env);
        assert all[..i + 1] == all[..i] + [overlay];
        doc.groundoverlays := doc.groundoverlays + [overlay];
        if doc.reload || !env.overlayMade {
          return false;
        }
        i := i + 1;
      }
      assert all[..i] == all;
      return true;
    }

    /** The phases of `render` after the dependency scan, on a document whose records were
        just reset: styles, placemarks with their markers, ground overlays (source lines
        445-783). `ok` is false when one of them threw. */
    method BuildContent(root: Element, doc: Doc) returns (ok: bool)
      requires doc.placemarks == [] && doc.groundoverlays == []
      modifies this`styles, doc`placemarks, doc`markers, doc`groundoverlays
      ensures var c := ContentOf(old(styles), old(doc.markers), root, BaseKey(doc.baseUrl), doc.baseDir,
                                 doc.reload, doc, opts, env);
              ok == !c.threw && styles == c.table && doc.placemarks == c.placemarks &&
              doc.markers == c.markers && doc.groundoverlays == c.overlays
    {
      ok := ParseStyles(root, BaseKey(doc.baseUrl), doc.baseDir);
      if !ok {
        return;
      }
      ok := PlacemarkPhase(root, doc);
      if !ok {
        return;
      }
      ok := ParseGroundOverlays(root, doc);
    }

    /** The placemark part of `render` (source lines 468-696): on a reload the kept markers
        are made inactive, the placemark loop runs, and the markers it left inactive are
        spliced out. `ok` is false when a placemark threw. */
    method PlacemarkPhase(root: Element, doc: Doc) returns (ok: bool)
      modifies this`styles, doc`placemarks, doc`markers
      ensures var r := PlacemarkPass(Pass(old(doc.placemarks), Deactivated(old(doc.markers), doc.reload), old(styles), false),
                                     ByTag(root, "Placemark"), BaseKey(doc.baseUrl), doc.baseDir, doc.reload,
                                     doc, opts, env);
              ok == !r.threw && styles == r.table && doc.placemarks == r.placemarks &&
              doc.markers == (if ok then Reconciled(r.markers, doc.reload) else r.markers)
    {
      if doc.reload && doc.markers.Some? {
        var ms := Deactivate(doc.markers.value);
        doc.markers := Some(ms);
      }
      ok := ParsePlacemarks(ByTag(root, "Placemark"), doc);
      if ok && doc.reload && doc.markers.Some? {
        var ms := SpliceInactive(doc.markers.value);
        doc.markers := Some(ms);
      }
    }

    /** The documents of `list` from position `n` on were appended, in order, for the URLs
        `us`, each by its own call of `parse` on the list: with the URL, its base URL and
        its directory, neither reloaded nor failed, in a batch of the list. */
    ghost predicate Appended(list: DocList, n: nat, us: seq<string>)
      reads list, set k | n <= k < |list.items| :: list.items[k]
    {
      n + |us| == |list.items| &&
      forall k :: n <= k < |list.items| ==>
        var d := list.items[k];
        d.baseUrl == Some(PageUrl(us[k - n], env)) && d.url == us[k - n] && d.internals.docSet == list &&
        !d.reload && !d.failed && d.baseDir == Some(env.baseDirOf(PageUrl(us[k - n], env)))
    }

    /** `list` after the network-link loop of `render` over the `NetworkLink` elements of
        `root`, starting from `items0` with the base URLs `keys` filed: the documents listed
        before keep their places, and one document follows for each link not yet loaded. */
    ghost predicate LinksListed(list: DocList, items0: seq<Doc>, root: Element, keys: set<string>)
      reads list, set k | |items0| <= k < |list.items| :: list.items[k]
    {
      |list.items| >= |items0| &&
      (forall k :: 0 <= k < |items0| ==> list.items[k] == items0[k]) &&
      Appended(list, |items0|, Unlisted(LinkHrefs(ByTag(root, "NetworkLink"), env.num, DocPath(env.pathname)), keys, env))
    }

    /** One network link of `render` (source lines 786-845): a link loaded once is handed
        to `parse` with the document's set. */
    method FollowLink(ns: seq<Element>, i: nat, doc: Doc, docPath: string, ghost n: nat, ghost us: seq<string>)
      returns (next: nat, ghost vs: seq<string>)
      requires Valid() && i < |ns|
      requires forall k :: n <= k < |doc.internals.docSet.items| ==> doc.internals.docSet.items[k] !in docs
      requires Appended(doc.internals.docSet, n, us)
      modifies docs`url, docs`reload, docs`internals, docs`baseDir, doc.internals.docSet
      ensures next == i + 1
      ensures doc.internals.docSet == old(doc.internals.docSet)
      ensures doc.internals == old(doc.internals) || (fresh(doc.internals) && doc.internals.remaining == 1)
      ensures |doc.internals.docSet.items| >= |old(doc.internals.docSet.items)|
      ensures forall k :: 0 <= k < |old(doc.internals.docSet.items)| ==>
                doc.internals.docSet.items[k] == old(doc.internals.docSet.items)[k]
      ensures forall k :: n <= k < |doc.internals.docSet.items| ==> doc.internals.docSet.items[k] !in docs
      ensures var l := QualifiedLink(ns[i], env.num, docPath);
              vs == us + (if LoadsOnce(l) then Unlisted([l.href], docsByUrl.Keys, env) else [])
      ensures Appended(doc.internals.docSet, n, vs)
    {
      next := i + 1;
      var l := QualifiedLink(ns[i], env.num, docPath);
      if LoadsOnce(l) {
        vs := us + Unlisted([l.href], docsByUrl.Keys, env);
        LoadLink(l.href, doc, n, us);
      } else {
        vs := us + [];
        assert vs == us;
      }
    }

    /** `parse(href, doc.internals.docSet)` for a link: the set gains a document when the
        link's base URL is not loaded. */
    method LoadLink(href: string, doc: Doc, ghost n: nat, ghost us: seq<string>)
      requires Valid()
      requires forall k :: n <= k < |doc.internals.docSet.items| ==> doc.internals.docSet.items[k] !in docs
      requires Appended(doc.internals.docSet, n, us)
      modifies docs`url, docs`reload, docs`internals, docs`baseDir, doc.internals.docSet
      ensures doc.internals.docSet == old(doc.internals.docSet)
      ensures doc.internals == old(doc.internals) || (fresh(doc.internals) && doc.internals.remaining == 1)
      ensures |doc.internals.docSet.items| >= |old(doc.internals.docSet.items)|
      ensures forall k :: 0 <= k < |old(doc.internals.docSet.items)| ==>
                doc.internals.docSet.items[k] == old(doc.internals.docSet.items)[k]
      ensures forall k :: n <= k < |doc.internals.docSet.items| ==> doc.internals.docSet.items[k] !in docs
      ensures Appended(doc.internals.docSet, n, us + Unlisted([href], docsByUrl.Keys, env))
    {
      var list := doc.internals.docSet;
      ghost var before := list.items;
      ghost var u1 := Unlisted([href], docsByUrl.Keys, env);
      var batch := ParseOne(href, list);
      forall k | n <= k < |list.items|
        ensures list.items[k] !in docs
        ensures var d := list.items[k];
                var u := (us + u1)[k - n];
                d.baseUrl == Some(PageUrl(u, env)) && d.url == u && d.internals.docSet == list &&
                !d.reload && !d.failed && d.baseDir == Some(env.baseDirOf(PageUrl(u, env)))
      {
        if k < |before| {
          assert list.items[k] == before[k];
        } else {
          assert (us + u1)[k - n] == u1[k - |before|];
        }
      }
    }

    /** `parse` of one URL on a given set, as a link uses it: a fresh batch of one on the
        set, with the set's new documents as `parse` promises. */
    method ParseOne(href: string, list: DocList) returns (batch: Batch)
      requires Valid()
      modifies docs`url, docs`reload, docs`internals, docs`baseDir, list
      ensures fresh(batch) && batch.remaining == 1 && batch.docSet == list
      ensures |list.items| >= |old(list.items)|
      ensures forall k :: 0 <= k < |old(list.items)| ==> list.items[k] == old(list.items)[k]
      ensures forall k :: |old(list.items)| <= k < |list.items| ==> list.items[k] !in docs
      ensures NewDocs(list, |old(list.items)|, Unlisted([href], docsByUrl.Keys, env), batch)
      ensures forall d :: d in docs ==> d.internals == old(d.internals) || d.internals == batch
    {
      batch := Parse([href], Some(list));
    }

    /** The network-link loop of `render` (source lines 786-845) over the document's
        `NetworkLink` elements: every link loaded once goes to `parse` with the document's
        set, so the set gains a document for each such link not yet loaded. */
    method FollowLinks(root: Element, doc: Doc)
      requires Valid()
      modifies docs`url, docs`reload, docs`internals, docs`baseDir, doc.internals.docSet
      ensures doc.internals.docSet == old(doc.internals.docSet)
      ensures doc.internals == old(doc.internals) || (fresh(doc.internals) && doc.internals.remaining == 1)
      ensures forall k :: |old(doc.internals.docSet.items)| <= k < |doc.internals.docSet.items| ==>
                doc.internals.docSet.items[k] !in docs
      ensures LinksListed(doc.internals.docSet, old(doc.internals.docSet.items), root, docsByUrl.Keys)
    {
      var ns := ByTag(root, "NetworkLink");
      var docPath := DocPath(env.pathname);
      ghost var list := doc.internals.docSet;
      ghost var n := |list.items|;
      ghost var us: seq<string> := [];
      var i := 0;
      while i < |ns|
        invariant 0 <= i <= |ns|
        invariant doc.internals.docSet == list
        invariant doc.internals == old(doc.internals) || (fresh(doc.internals) && doc.internals.remaining == 1)
        invariant |list.items| >= n
        invariant forall k :: 0 <= k < n ==> list.items[k] == old(list.items)[k]
        invariant forall k :: n <= k < |list.items| ==> list.items[k] !in docs
        invariant us == Unlisted(LinkHrefs(ns[..i], env.num, docPath), docsByUrl.Keys, env)
        invariant Appended(list, n, us)
      {
        UnlistedLinkStep(ns, i, env.num, docPath, docsByUrl.Keys, env);
        i, us := FollowLink(ns, i, doc, docPath, n, us);
      }
      assert ns[..i] == ns;
    }

    /** Whether the document filed under the base URL `u` has a `markers` key. */
    ghost predicate FiledWithMarkers(u: Option<string>)
      reads this`docsByUrl, docsByUrl.Values`markers
    {
      u.Some? && u.value in docsByUrl && docsByUrl[u.value].markers.Some?
    }

    /** The filed document `e` after taking the contents of `d` key by key, base URL
        aside: every key a rendered document always has, and `markers` only when `e` had
        that key (`hadMarkers`; a document has it once a point has made a marker). */
    ghost predicate CopiedContents(e: Doc, d: Doc, hadMarkers: bool)
      reads e, d
    {
      e.url == d.url && e.baseDir == d.baseDir && e.reload == d.reload && e.failed == d.failed &&
      e.internals == d.internals && e.placemarks == d.placemarks &&
      e.groundoverlays == d.groundoverlays &&
      e.markers == (if hadMarkers then d.markers else None)
    }

    /** `docs` and `docsByUrl` after registering `doc` on `docs0` and `byUrl0`: unchanged
        for a document without a base URL, `doc` appended and filed under its base URL when
        that is new, and otherwise unchanged with `doc`'s contents copied onto the filed
        document when that is another object (`markers` too only when the filed document
        had that key, `hadMarkers`). */
    ghost predicate Filed(doc: Doc, docs0: seq<Doc>, byUrl0: map<string, Doc>, hadMarkers: bool)
      reads this, doc, docsByUrl.Values
    {
      ((doc.baseUrl.None? || doc.baseUrl == Some("")) ==> docs == docs0 && docsByUrl == byUrl0) &&
      (doc.baseUrl.Some? && doc.baseUrl.value != "" && doc.baseUrl.value !in byUrl0 ==>
         docs == docs0 + [doc] && docsByUrl == byUrl0[doc.baseUrl.value := doc]) &&
      (doc.baseUrl.Some? && doc.baseUrl.value in byUrl0 ==>
         docs == docs0 && docsByUrl == byUrl0 &&
         (docsByUrl[doc.baseUrl.value] == doc ||
          CopiedContents(docsByUrl[doc.baseUrl.value], doc, hadMarkers)))
    }

    /** The registration step of `render` (source lines 856-869): a document with a base
        URL is kept; a first one is appended to `docs` and filed under its base URL, and
        one whose base URL is already filed has its contents copied onto the filed
        document, which keeps its place. */
    method Register(doc: Doc)
      requires Valid()
      modifies this`docs, this`docsByUrl, docs
      ensures Valid()
      ensures Filed(doc, old(docs), old(docsByUrl), old(FiledWithMarkers(doc.baseUrl)))
      ensures unchanged(doc)
      ensures forall e :: e in old(docs) && e.baseUrl != doc.baseUrl ==> unchanged(e)
    {
      if doc.baseUrl.Some? && doc.baseUrl.value != "" {
        var u := doc.baseUrl.value;
        if u !in docsByUrl {
          assert doc !in docs;
          docs := docs + [doc];
          docsByUrl := docsByUrl[u := doc];
        } else {
          CopyOnto(docsByUrl[u], doc);
        }
      }
    }

    /** `for (var i in docsByUrl[doc.baseUrl]) docsByUrl[doc.baseUrl][i] = doc[i]`: the
        filed document takes, key by key, the contents of the rendered one; the loop runs
        over the filed document's own keys, so it gains no `markers` it did not have. */
    method CopyOnto(e: Doc, d: Doc)
      modifies e
      ensures CopiedContents(e, d, old(e.markers).Some?) && unchanged(d)
    {
      e.url, e.baseDir, e.reload, e.failed := d.url, d.baseDir, d.reload, d.failed;
      e.internals, e.placemarks, e.groundoverlays, e.markers :=
        d.internals, d.placemarks, d.groundoverlays, if e.markers.Some? then d.markers else None;
    }

    /** The end of `render` (source lines 852-883): the batch is no longer parse-only
        (`doc.groundoverlays` is always set by then, so the registration it guards always
        runs), the document is registered, and the batch counts it done; the batch fires
        when none is left. Registration does not touch the batch, so it comes first here. */
    method Finish(doc: Doc, ghost list: DocList, ghost n: nat, ghost us: seq<string>) returns (outcome: RenderOutcome)
      requires Valid()
      requires forall k :: n <= k < |list.items| ==> list.items[k] !in docs
      requires Appended(list, n, us)
      modifies this`docs, this`docsByUrl, docs, doc.internals
      ensures Valid() && Filed(doc, old(docs), old(docsByUrl), old(FiledWithMarkers(doc.baseUrl)))
      ensures doc.internals == old(doc.internals)
      ensures doc.internals.remaining == old(doc.internals.remaining) - 1 && !doc.internals.parseOnly
      ensures outcome == Completed(doc.internals, doc.internals.remaining == 0)
      ensures unchanged(doc)
      ensures forall e :: e in old(docs) && e.baseUrl != doc.baseUrl ==> unchanged(e)
      ensures Appended(list, n, us)
    {
      Register(doc);
      var batch := doc.internals;
      batch.parseOnly := false;
      batch.remaining := batch.remaining - 1;
      outcome := Completed(batch, batch.remaining == 0);
    }

    /** `render` of a document without a pending dependency (source lines 445-884): its
        content, then, unless that threw, its network links and the end of `render`. An
        exception leaves the registry and the batch's count as they were, so the batch
        never completes. */
    method Complete(root: Element, doc: Doc) returns (outcome: RenderOutcome)
      requires Valid() && doc.placemarks == [] && doc.groundoverlays == []
      modifies this`styles, this`docs, this`docsByUrl, docs, doc`placemarks, doc`markers, doc`groundoverlays
      modifies doc.internals, doc.internals.docSet
      ensures Valid()
      ensures var c := ContentOf(old(styles), old(doc.markers), root, BaseKey(doc.baseUrl), old(doc.baseDir),
                                 old(doc.reload), doc, opts, env);
              (outcome.Threw? <==> c.threw) && (outcome.Threw? || outcome.Completed?) &&
              styles == c.table && doc.placemarks == c.placemarks && doc.markers == c.markers &&
              doc.groundoverlays == c.overlays
      ensures outcome.Threw? ==> docs == old(docs) && docsByUrl == old(docsByUrl) &&
                                 doc.internals == old(doc.internals) && doc.internals.remaining == old(doc.internals.remaining)
      ensures outcome.Completed? ==>
                outcome.batch == doc.internals && (outcome.fired <==> doc.internals.remaining == 0) &&
                !doc.internals.parseOnly && Filed(doc, old(docs), old(docsByUrl), old(FiledWithMarkers(doc.baseUrl))) &&
                ((doc.internals == old(doc.internals) && doc.internals.remaining == old(doc.internals.remaining) - 1) ||
                 (fresh(doc.internals) && doc.internals.remaining == 0))
      ensures outcome.Completed? ==>
                doc.internals.docSet == old(doc.internals.docSet) &&
                LinksListed(doc.internals.docSet, old(doc.internals.docSet.items), root, old(docsByUrl).Keys)
    {
      var ok := BuildContent(root, doc);
      if !ok {
        return Threw;
      }
      outcome := LinksAndFinish(root, doc);
    }

    /** The network links and the end of `render` (source lines 785-884), after a content
        that did not throw. */
    method LinksAndFinish(root: Element, doc: Doc) returns (outcome: RenderOutcome)
      requires Valid()
      modifies this`docs, this`docsByUrl, docs, doc.internals, doc.internals.docSet
      ensures Valid()
      ensures doc.placemarks == old(doc.placemarks) && doc.markers == old(doc.markers) &&
              doc.groundoverlays == old(doc.groundoverlays)
      ensures outcome.Completed? && outcome.batch == doc.internals && (outcome.fired <==> doc.internals.remaining == 0)
      ensures !doc.internals.parseOnly && Filed(doc, old(docs), old(docsByUrl), old(FiledWithMarkers(doc.baseUrl)))
      ensures (doc.internals == old(doc.internals) && doc.internals.remaining == old(doc.internals.remaining) - 1) ||
              (fresh(doc.internals) && doc.internals.remaining == 0)
      ensures doc.internals.docSet == old(doc.internals.docSet) &&
              LinksListed(doc.internals.docSet, old(doc.internals.docSet.items), root, old(docsByUrl).Keys)
    {
      ghost var list := doc.internals.docSet;
      ghost var n := |list.items|;
      ghost var us := Unlisted(LinkHrefs(ByTag(root, "NetworkLink"), env.num, DocPath(env.pathname)), docsByUrl.Keys, env);
      FollowLinks(root, doc);
      outcome := Finish(doc, list, n, us);
    }

    /** The dependency scan of `render` followed by clearing the records the document is
        about to rebuild (source lines 385-443): when the scan stops at a
        reference, the document it names is the one rendering waits for, fetched now, and
        appended to the batch (which then waits for one more document) when it was not
        listed yet; when it passes over every reference, nothing is appended. */
    method ScanPhase(root: Element, doc: Doc) returns (dep: Option<Doc>, isNew: bool)
      modifies doc`placemarks, doc`groundoverlays
      modifies doc.internals`remaining, doc.internals.docSet, doc.internals.docSet.items`baseDir
      ensures var urls := RefUrls(root);
              var ls := old(Listing(doc.internals.docSet.items));
              var k := FirstDependency(urls, doc.baseUrl, old(doc.baseDir), docsByUrl.Keys, ls, env);
              (dep.None? <==> k == |urls|) &&
              (dep.Some? ==>
                 var r := env.cleanURL(old(doc.baseDir), urls[k]);
                 dep.value.baseUrl == Some(r) && dep.value.baseDir == Some(env.baseDirOf(r)) &&
                 (isNew <==> IndexOfBase(ls, r) == |ls|) &&
                 (isNew ==> fresh(dep.value) && dep.value.internals == doc.internals))
      ensures dep.None? ==> !isNew && doc.baseDir == old(doc.baseDir)
      ensures isNew ==> doc.internals.docSet.items == old(doc.internals.docSet.items) + [dep.value] &&
                        doc.internals.remaining == old(doc.internals.remaining) + 1
      ensures !isNew ==> doc.internals.docSet.items == old(doc.internals.docSet.items) &&
                         doc.internals.remaining == old(doc.internals.remaining)
      ensures doc.placemarks == [] && doc.groundoverlays == []
    {
      dep, isNew := ScanDependencies(root, doc);
      doc.placemarks := [];
      doc.groundoverlays := [];
    }

    /** `render(responseXML, doc)` (source lines 357-884): a response that failed to load
        marks the document failed and ends it. Otherwise a pending dependency defers the
        document (the host renders the dependency and then this document again); without
        one, its content is built, and unless that threw, its links are followed and it is
        registered and counted. */
    method Render(resp: Response, doc: Doc) returns (outcome: RenderOutcome)
      requires Valid()
      modifies this`styles, this`docs, this`docsByUrl, docs, doc`failed, doc`placemarks, doc`markers, doc`groundoverlays
      modifies doc.internals, doc.internals.docSet, doc.internals.docSet.items`baseDir
      ensures Valid()
      ensures outcome.Failed? <==> LoadFailed(resp)
      ensures outcome.Failed? ==> doc.failed && styles == old(styles) && docs == old(docs) &&
                                  docsByUrl == old(docsByUrl) && doc.internals.remaining == old(doc.internals.remaining)
      ensures !outcome.Failed? ==>
                var urls := RefUrls(resp.document);
                var k := FirstDependency(urls, doc.baseUrl, old(doc.baseDir), old(docsByUrl).Keys,
                                         old(Listing(doc.internals.docSet.items)), env);
                (outcome.Deferred? <==> k < |urls|) &&
                (outcome.Completed? ==> outcome.batch == doc.internals &&
                                        (outcome.fired <==> doc.internals.remaining == 0))
      ensures outcome.Completed? ==>
                Filed(doc, old(docs), old(docsByUrl), old(FiledWithMarkers(doc.baseUrl))) &&
                ((doc.internals == old(doc.internals) && doc.internals.remaining == old(doc.internals.remaining) - 1) ||
                 (fresh(doc.internals) && doc.internals.remaining == 0))
      ensures !outcome.Completed? ==> docs == old(docs) && docsByUrl == old(docsByUrl)
    {
      if LoadFailed(resp) {
        doc.failed := true;
        return Failed;
      }
      outcome := RenderLoaded(resp.document, doc);
    }

    /** `render` of a loaded document: the dependency scan, then, without a pending
        dependency, the content, the links and the registration. */
    method RenderLoaded(root: Element, doc: Doc) returns (outcome: RenderOutcome)
      requires Valid()
      modifies this`styles, this`docs, this`docsByUrl, docs, doc`placemarks, doc`markers, doc`groundoverlays
      modifies doc.internals, doc.internals.docSet, doc.internals.docSet.items`baseDir
      ensures Valid() && !outcome.Failed?
      ensures var urls := RefUrls(root);
              var k := FirstDependency(urls, doc.baseUrl, old(doc.baseDir), old(docsByUrl).Keys,
                                       old(Listing(doc.internals.docSet.items)), env);
              (outcome.Deferred? <==> k < |urls|) &&
              (outcome.Completed? ==> outcome.batch == doc.internals &&
                                      (outcome.fired <==> doc.internals.remaining == 0))
      ensures outcome.Completed? ==>
                Filed(doc, old(docs), old(docsByUrl), old(FiledWithMarkers(doc.baseUrl))) &&
                ((doc.internals == old(doc.internals) && doc.internals.remaining == old(doc.internals.remaining) - 1) ||
                 (fresh(doc.internals) && doc.internals.remaining == 0))
      ensures !outcome.Completed? ==> docs == old(docs) && docsByUrl == old(docsByUrl)
    {
      ghost var had := FiledWithMarkers(doc.baseUrl);
      var dep, isNew := ScanPhase(root, doc);
      if dep.Some? {
        return Deferred(dep.value, isNew);
      }
      assert FiledWithMarkers(doc.baseUrl) == had;
      outcome := Complete(root, doc);
    }

    /** `parseKmlString(kmlString, docSet)` (source lines 23-35), with the string already
        parsed into `resp`: a batch waiting for one document, listed in `docSet` (or a new
        list), and a document with no URL and no base URL, appended to the list and
        rendered at once. A document without a base URL is never registered, and when its
        rendering completes the batch is done. */
    method ParseKmlString(resp: Response, docSet: Option<DocList>) returns (doc: Doc, outcome: RenderOutcome)
      requires Valid()
      modifies this`styles, this`docs, this`docsByUrl, docs
      modifies if docSet.Some? then {docSet.value} else {}
      modifies (if docSet.Some? then docSet.value.items else [])`baseDir
      ensures Valid()
      ensures fresh(doc) && doc.url == "" && doc.baseUrl.None?
      ensures docSet.Some? ==> doc.internals.docSet == docSet.value
      ensures outcome.Failed? <==> LoadFailed(resp)
      ensures outcome.Failed? ==> doc.failed
      ensures outcome.Completed? ==> outcome.batch == doc.internals && outcome.fired
      ensures docs == old(docs) && docsByUrl == old(docsByUrl)
    {
      var list: DocList;
      if docSet.Some? {
        list := docSet.value;
      } else {
        list := new DocList([]);
      }
      var batch := new Batch(list, 1, !(opts.afterParse || opts.processStyles));
      doc := new Doc("", None, batch);
      list.items := list.items + [doc];
      outcome := Render(resp, doc);
    }

    /** The image of the icon in slot `id` of table `base` finishes loading with the given
        size (source lines 926-942): the slot's icon takes what the load leaves, and the
        marker requests it hands back are replayed in queue order, each adding an active
        marker to its document. Each document with a replayed request ends with its
        markers followed by the ones made for it, in queue order; nothing else changes. */
    method IconLoaded(base: string, id: string, width: int, height: int) returns (replay: seq<MarkerRequest>)
      requires HasSlot(styles, base, id) && styles[base][id].icon.img.Some?
      modifies this`styles, RequestDocs(styles[base][id].icon.backlog.GetOr([]))`markers
      ensures var icon := old(styles[base][id].icon);
              var loaded := ImageLoaded(icon, width, height, env);
              styles == Store(old(styles), base, id, old(styles[base][id]).(icon := loaded.icon)) &&
              replay == (if icon.img.value.onload == ResumeDeferred then icon.backlog.GetOr([]) else [])
      ensures forall d :: d in RequestDocs(replay) ==>
                d.markers == Some(old(d.markers).GetOr([]) + Routed(replay, ReplayMarkers(styles, replay, opts, env), d))
    {
      var slot := styles[base][id];
      ReplayIsBacklog(slot.icon, width, height, env);
      var loaded := ImageLoaded(slot.icon, width, height, env);
      styles := Store(styles, base, id, slot.(icon := loaded.icon));
      replay := loaded.replay;
      ReplayRequests(replay, ReplayMarkers(styles, replay, opts, env));
    }

    /** The image of the icon of placemark `k`'s own style (an inline `Style`, whose
        `processStyleID` at source line 496 deferred its work) finishes loading with the
        given size (source lines 926-942): that style takes the icon the load leaves, and
        the marker requests it hands back are replayed in queue order as for a slot. */
    method InlineIconLoaded(doc: Doc, k: nat, width: int, height: int) returns (replay: seq<MarkerRequest>)
      requires k < |doc.placemarks| && doc.placemarks[k].style.Own?
      requires doc.placemarks[k].style.style.icon.img.Some?
      modifies doc`placemarks, RequestDocs(doc.placemarks[k].style.style.icon.backlog.GetOr([]))`markers
      ensures var p := old(doc.placemarks[k]);
              var s := p.style.style;
              var loaded := ImageLoaded(s.icon, width, height, env);
              doc.placemarks == old(doc.placemarks)[k := p.(style := Own(s.(icon := loaded.icon)))] &&
              replay == (if s.icon.img.value.onload == ResumeDeferred then s.icon.backlog.GetOr([]) else [])
      ensures forall d :: d in RequestDocs(replay) ==>
                d.markers == Some(old(d.markers).GetOr([]) + Routed(replay, ReplayMarkers(styles, replay, opts, env), d))
    {
      var p := doc.placemarks[k];
      var s := p.style.style;
      ReplayIsBacklog(s.icon, width, height, env);
      var loaded := ImageLoaded(s.icon, width, height, env);
      doc.placemarks := doc.placemarks[k := p.(style := Own(s.(icon := loaded.icon)))];
      replay := loaded.replay;
      ReplayRequests(replay, ReplayMarkers(styles, replay, opts, env));
    }

    /** The replay loop of the load handler (source lines 935-941): the marker made for
        each request is added to that request's document, in queue order. */
    method ReplayRequests(reqs: seq<MarkerRequest>, ms: seq<MarkerRec>)
      requires |ms| == |reqs|
      modifies RequestDocs(reqs)`markers
      ensures forall d :: d in RequestDocs(reqs) ==> d.markers == Some(old(d.markers).GetOr([]) + Routed(reqs, ms, d))
    {
      ghost var orig := map d | d in RequestDocs(reqs) :: d.markers;
      var i := 0;
      while i < |reqs|
        invariant 0 <= i <= |reqs|
        invariant forall d :: d in RequestDocs(reqs) ==> orig[d] == old(d.markers)
        invariant ReplayedUpTo(reqs, ms, i, orig)
      {
        i := ReplayAt(reqs, ms, i, orig);
      }
      assert reqs[..i] == reqs && ms[..i] == ms;
      forall d | d in RequestDocs(reqs)
        ensures Routed(reqs, ms, d) != []
      {
        RoutedMeaning(reqs, ms, d);
      }
    }

    /** After the first `i` requests, each document holds its markers from before the
        replay followed by the markers routed to it so far (unchanged while there are
        none). */
    ghost predicate ReplayedUpTo(reqs: seq<MarkerRequest>, ms: seq<MarkerRec>, i: nat,
                                 orig: map<Doc, Option<seq<MarkerRec>>>)
      requires |ms| == |reqs| && i <= |reqs|
      reads RequestDocs(reqs)
    {
      forall d :: d in RequestDocs(reqs) ==>
        d in orig &&
        d.markers == if Routed(reqs[..i], ms[..i], d) == [] then orig[d]
                     else Some(orig[d].GetOr([]) + Routed(reqs[..i], ms[..i], d))
    }

    /** One step of the replay: request `i` adds its marker to its document. */
    method ReplayAt(reqs: seq<MarkerRequest>, ms: seq<MarkerRec>, i: nat,
                    ghost orig: map<Doc, Option<seq<MarkerRec>>>) returns (next: nat)
      requires |ms| == |reqs| && i < |reqs| && ReplayedUpTo(reqs, ms, i, orig)
      modifies reqs[i].doc`markers
      ensures next == i + 1 && ReplayedUpTo(reqs, ms, next, orig)
    {
      var req := reqs[i];
      assert req in reqs;
      ghost var before := Routed(reqs[..i], ms[..i], req.doc);
      ghost var prev := req.doc.markers.GetOr([]);
      assert prev == orig[req.doc].GetOr([]) + before;
      req.doc.markers := Some(req.doc.markers.GetOr([]) + [ms[i]]);
      RoutedStep(reqs, ms, i);
      next := i + 1;
      forall d | d in RequestDocs(reqs)
        ensures d in orig &&
                d.markers == if Routed(reqs[..next], ms[..next], d) == [] then orig[d]
                             else Some(orig[d].GetOr([]) + Routed(reqs[..next], ms[..next], d))
      {
        if d == req.doc {
          assert Routed(reqs[..next], ms[..next], d) == before + [ms[i]];
          assert prev + [ms[i]] == orig[d].GetOr([]) + (before + [ms[i]]);
        } else {
          assert Routed(reqs[..i], ms[..i], d) + [] == Routed(reqs[..i], ms[..i], d);
        }
      }
    }
  }
}

=== FILE: placemarks.dfy ===
/** One placemark of `render` (source lines 476-655): the record built from the
    `Placemark` element, and what its point does to the document's markers. */
module Placemarks {
  import opened Wrappers
  import opened Xml
  import opened Text
  import opened Coords
  import opened Model
  import opened Styles
  import opened Icons
  import opened Records
  import opened Geometry
  import opened Markers
  import opened StyleTable

  /** The record, or the exception a `Point` without a coordinate raises. */
  datatype PlacemarkResult = Built(placemark: Placemark) | GeometryThrew

  /** `getBooleanValue` of the first `gx:balloonVisibility`, visible unless info windows
      are suppressed when there is none. */
  function BalloonVisible(node: Element, opts: Options, env: Env): bool {
    match First(ByTagNS(node, GX_NS, "balloonVisibility"))
    case None => !opts.suppressInfoWindows
    case Some(e) => env.booleanText(e.text, !opts.suppressInfoWindows)
  }

  /** The style a placemark starts with (source lines 491-498): a placemark with a
      `Style` element of its own gets the default overwritten by the style blocks found
      anywhere in the placemark (with no directory), with its icon processed; otherwise
      the table slot its `styleUrl` names, or a copy of the default when there is none. */
  function PlacemarkStyle(node: Element, t: Table, base: string, id: string, env: Env): StyleRef {
    if |ByTag(node, "Style")| > 0 then Own(WithProcessedIcon(ApplyStyleNode(DefaultStyle, node, None, env), env))
    else if HasSlot(t, base, id) then Shared(base, id)
    else Own(DefaultStyle)
  }

  /** The placemark record `render` builds and pushes (source lines 476-617).
      `docBase` is the document's base URL as a table key. */
  function PlacemarkOf(node: Element, t: Table, docBase: string, baseDir: Option<string>,
                       opts: Options, env: Env): PlacemarkResult
  {
    var url := ProcessStyleUrl(node);
    var styleBase := if url[0] != "" then env.cleanURL(baseDir, url[0]) else docBase;
    var name := ChildValue(node, "name", "");
    var description := DescriptionLink(ChildValue(node, "description", ""));
    match GeometryOf(node, env.num)
    case PointThrew => GeometryThrew
    case Parsed(g) =>
      var ts := ByTagNS(node, GX_NS, "Track");
      Built(Placemark(name, description, Join(url, '#'), styleBase, url[1],
                      BoolField(node, "visibility", true, env), BalloonVisible(node, opts, env),
                      Attr(node, "id"), PlacemarkStyle(node, t, styleBase, url[1], env),
                      ExtendedVars(node, SeedVars(node, name, description)),
                      g.point, g.latlng, g.polygon, g.lineString,
                      if |ts| > 0 then Some(Tracks(node, env.num)) else None))
  }

  /** Building the record: the per-placemark code of `render`, with its loops. */
  method ReadPlacemark(node: Element, t: Table, docBase: string, baseDir: Option<string>,
                       opts: Options, env: Env) returns (r: PlacemarkResult)
    ensures r == PlacemarkOf(node, t, docBase, baseDir, opts, env)
  {
    var url := ProcessStyleUrl(node);
    var styleBase := if url[0] != "" then env.cleanURL(baseDir, url[0]) else docBase;
    var name := ChildValue(node, "name", "");
    var description := DescriptionLink(ChildValue(node, "description", ""));
    var vars := AddExtendedData(node, SeedVars(node, name, description));
    var geometry := ProcessGeometry(node, env.num);
    if geometry.PointThrew? {
      return GeometryThrew;
    }
    var g := geometry.geometry;
    var track := ParseTracks(node, env.num);
    r := Built(Placemark(name, description, Join(url, '#'), styleBase, url[1],
                         BoolField(node, "visibility", true, env), BalloonVisible(node, opts, env),
                         Attr(node, "id"), PlacemarkStyle(node, t, styleBase, url[1], env),
                         vars, g.point, g.latlng, g.polygon, g.lineString, track));
  }

  /** The record's style is a table slot only when the placemark has no style of its own
      and the slot its `styleUrl` names exists, and it names that slot; a placemark's own
      style never carries `StyleMap` pairs. Every variable has a display name. A
      placemark has a position exactly when it has a point. */
  lemma PlacemarkMeaning(node: Element, t: Table, docBase: string, baseDir: Option<string>,
                         opts: Options, env: Env)
    requires PlacemarkOf(node, t, docBase, baseDir, opts, env).Built?
    ensures var p := PlacemarkOf(node, t, docBase, baseDir, opts, env).placemark;
            (p.style.Shared? <==> |ByTag(node, "Style")| == 0 && HasSlot(t, p.styleBaseUrl, p.styleID)) &&
            (p.style.Shared? ==> p.style == Shared(p.styleBaseUrl, p.styleID)) &&
            (p.style.Own? ==> p.style.style.pairs.None?) &&
            Displayed(p.vars) && (p.latlng.Some? <==> p.point.Some?) &&
            (ProcessStyleUrl(node)[0] == "" ==> p.styleBaseUrl == docBase)
  {
    var url := ProcessStyleUrl(node);
    var name := ChildValue(node, "name", "");
    var description := DescriptionLink(ChildValue(node, "description", ""));
    var seed := SeedVars(node, name, description);
    SeedVarsDisplayed(node, name, description);
    var ext := ByTag(node, "ExtendedData");
    if |ext| > 0 {
      DataVarsDisplayed(seed, ByTag(ext[0], "Data"));
    }
    GeometryMeaning(node, env.num);
    DefaultStyleFacts();
  }

  /** A placemark without `coordinates` is built, and has no position. */
  lemma PlacemarkWithoutCoordinates(node: Element, t: Table, docBase: string, baseDir: Option<string>,
                                    opts: Options, env: Env)
    requires |ParentNames(node, Tag("coordinates"))| == 0
    ensures var r := PlacemarkOf(node, t, docBase, baseDir, opts, env);
            r.Built? && r.placemark.point.None? && r.placemark.latlng.None?
  {
    assert GeometryOf(node, env.num).Parsed?;
  }

  /** What a point placemark leaves: the document's markers, the style table (a queued
      marker joins a slot's backlog) and the placemark (`createInfoWindow` writes its
      variables back). */
  datatype MarkerStep = MarkerStep(markers: Option<seq<MarkerRec>>, table: Table, placemark: Placemark)

  /** The marker a placemark makes: its id, position and visibility, and the content of
      its info window. */
  function NewMarker(p: Placemark, pos: Pos, info: Option<InfoWindowResult>): MarkerRec {
    MarkerRec(p.id, pos, p.visibility, if info.Some? then Some(info.value.content) else None)
  }

  /** The placemark's style with a marker request queued on its icon: the table slot it
      shares is updated in place, a style of its own is updated on the placemark. */
  function QueueOnStyle(t: Table, p: Placemark, req: MarkerRequest): (Table, Placemark) {
    var style := StyleOf(t, p.style);
    var queued := style.(icon := QueueMarker(style.icon, req));
    match p.style
    case Shared(b, i) => (if HasSlot(t, b, i) then Store(t, b, i, queued) else t, p)
    case Own(_) => (t, p.(style := Own(queued)))
  }

  /** The marker logic for a point placemark at `pos` (source lines 621-655 and
      `createMarker`, 1058-1080). With the built-in `createMarker`, a reload reactivates
      the first matching marker; otherwise the marker is queued on the icon of the
      placemark's style (a table slot or its own) while it has an image but no marker
      image, or made, with its info window. */
  function PointMarker(ms: Option<seq<MarkerRec>>, reload: bool, t: Table, p: Placemark, pos: Pos,
                       doc: Doc, opts: Options, env: Env): MarkerStep
  {
    if opts.customCreateMarker then MarkerStep(ms, t, p)
    else
      var list := ms.GetOr([]);
      var k := FirstIndex(list, Match(p.id, pos, env));
      if reload && k < |list| then MarkerStep(Some(list[k := list[k].(active := true)]), t, p)
      else
        var style := StyleOf(t, p.style);
        if MustQueue(style.icon) then
          var q := QueueOnStyle(t, p, MarkerRequest(p, pos, doc));
          MarkerStep(Some(list), q.0, q.1)
        else
          var info := InfoWindow(p, style.balloon, opts, env);
          MarkerStep(Some(list + [NewMarker(p, pos, info)]), t, Windowed(p, style.balloon, opts, env))
  }

  /** With the built-in `createMarker`, a reload with a matching marker makes the first
      match active and creates nothing. */
  lemma PointMarkerReactivates(ms: Option<seq<MarkerRec>>, t: Table, p: Placemark, pos: Pos,
                               doc: Doc, opts: Options, env: Env)
    requires !opts.customCreateMarker
    requires FirstIndex(ms.GetOr([]), Match(p.id, pos, env)) < |ms.GetOr([])|
    ensures var r := PointMarker(ms, true, t, p, pos, doc, opts, env);
            var list := ms.GetOr([]);
            var k := FirstIndex(list, Match(p.id, pos, env));
            r.markers == Some(list[k := list[k].(active := true)]) && r.table == t && r.placemark == p
  {
  }

  /** Otherwise, while the style's icon has an image but no marker image, no marker is
      made and the request joins the end of that icon's queue: the slot's when the
      placemark shares a table slot (the placemark itself is unchanged), the placemark's
      own style's otherwise (the table is unchanged); nothing else about the style
      changes. */
  lemma PointMarkerQueues(ms: Option<seq<MarkerRec>>, reload: bool, t: Table, p: Placemark, pos: Pos,
                          doc: Doc, opts: Options, env: Env)
    requires !opts.customCreateMarker
    requires !(reload && FirstIndex(ms.GetOr([]), Match(p.id, pos, env)) < |ms.GetOr([])|)
    requires MustQueue(StyleOf(t, p.style).icon)
    ensures var r := PointMarker(ms, reload, t, p, pos, doc, opts, env);
            var style := StyleOf(t, p.style);
            var queued := style.(icon := style.icon.(backlog := Some(style.icon.backlog.GetOr([]) + [MarkerRequest(p, pos, doc)])));
            r.markers == Some(ms.GetOr([])) &&
            (p.style.Shared? ==> r.placemark == p) &&
            (p.style.Shared? && HasSlot(t, p.style.base, p.style.id) ==>
               r.table.Keys == t.Keys && HasSlot(r.table, p.style.base, p.style.id) &&
               r.table[p.style.base][p.style.id] == queued) &&
            (p.style.Own? ==> r.table == t && r.placemark == p.(style := Own(queued)))
  {
    var style := StyleOf(t, p.style);
    match p.style
    case Shared(b, i) =>
      if HasSlot(t, b, i) {
        StoreFrame(t, b, i, style.(icon := QueueMarker(style.icon, MarkerRequest(p, pos, doc))));
      }
    case Own(_) =>
  }

  /** A point placemark whose own style's icon is still loading is not lost: once the
      image arrives, the handler the deferred `processStyleID` installed replays the
      requests queued before it and then this placemark's, in that order. */
  lemma InlineQueuedReplayed(ms: Option<seq<MarkerRec>>, reload: bool, t: Table, p: Placemark, pos: Pos,
                             doc: Doc, opts: Options, env: Env, width: int, height: int)
    requires !opts.customCreateMarker && p.style.Own?
    requires !(reload && FirstIndex(ms.GetOr([]), Match(p.id, pos, env)) < |ms.GetOr([])|)
    requires MustQueue(p.style.style.icon) && p.style.style.icon.img.value.onload == ResumeDeferred
    ensures var r := PointMarker(ms, reload, t, p, pos, doc, opts, env);
            r.placemark.style.Own? && r.placemark.style.style.icon.img.Some? &&
            ImageLoaded(r.placemark.style.style.icon, width, height, env).replay ==
              p.style.style.icon.backlog.GetOr([]) + [MarkerRequest(p, pos, doc)]
  {
    PointMarkerQueues(ms, reload, t, p, pos, doc, opts, env);
    var r := PointMarker(ms, reload, t, p, pos, doc, opts, env);
    ReplayIsBacklog(r.placemark.style.style.icon, width, height, env);
  }

  /** Otherwise one marker is added at the end, with the placemark's id, position and
      visibility, and an info window exactly when the balloon is shown. */
  lemma PointMarkerCreates(ms: Option<seq<MarkerRec>>, reload: bool, t: Table, p: Placemark, pos: Pos,
                           doc: Doc, opts: Options, env: Env)
    requires !opts.customCreateMarker
    requires !(reload && FirstIndex(ms.GetOr([]), Match(p.id, pos, env)) < |ms.GetOr([])|)
    requires !MustQueue(StyleOf(t, p.style).icon)
    ensures var r := PointMarker(ms, reload, t, p, pos, doc, opts, env);
            var list := ms.GetOr([]);
            r.table == t && r.markers.Some? && |r.markers.value| == |list| + 1 && r.markers.value[..|list|] == list &&
            var m := r.markers.value[|list|];
            m.id == p.id && m.pos == pos && m.active == p.visibility &&
            (m.info.Some? <==> p.balloonVisibility && StyleOf(t, p.style).balloon.displayMode != "hide")
    ensures PointMarker(ms, reload, t, p, pos, doc, opts, env).placemark ==
            Windowed(p, StyleOf(t, p.style).balloon, opts, env)
  {
    var list := ms.GetOr([]);
    var style := StyleOf(t, p.style);
    InfoWindowMeaning(p, style.balloon, opts, env);
    var info := InfoWindow(p, style.balloon, opts, env);
    assert (list + [NewMarker(p, pos, info)])[..|list|] == list;
  }

  /** The marker logic keeps the table's bases, and without a reload the markers already
      there stay first. */
  lemma PointMarkerKeeps(ms: Option<seq<MarkerRec>>, reload: bool, t: Table, p: Placemark, pos: Pos,
                         doc: Doc, opts: Options, env: Env)
    ensures var r := PointMarker(ms, reload, t, p, pos, doc, opts, env);
            r.table.Keys == t.Keys &&
            (!reload && ms.Some? ==>
               r.markers.Some? && |r.markers.value| >= |ms.value| && r.markers.value[..|ms.value|] == ms.value)
  {
    if !opts.customCreateMarker && !(reload && FirstIndex(ms.GetOr([]), Match(p.id, pos, env)) < |ms.GetOr([])|) {
      if MustQueue(StyleOf(t, p.style).icon) {
        PointMarkerQueues(ms, reload, t, p, pos, doc, opts, env);
      } else {
        PointMarkerCreates(ms, reload, t, p, pos, doc, opts, env);
      }
    }
  }

  /** How many times the built-in shape creators call `createInfoWindow` for a
      placemark (source lines 662-677): `createPolygon` for a polygon, `createPolyline`
      for a line string and again for a track. */
  function ShapeCalls(p: Placemark, opts: Options): nat {
    (if p.polygon.Some? && !opts.customCreatePolygon then 1 else 0) +
    (if p.lineString.Some? && !opts.customCreateLineString then 1 else 0) +
    (if p.track.Some? && !opts.customCreateLineString then 1 else 0)
  }

  /** The placemark after the polygon and line branches of the placemark loop (source
      lines 662-677): each built-in creator that runs ends with `createInfoWindow`
      (source lines 1166 and 1225), which writes the placemark's variables. */
  function ShapeWindows(p: Placemark, b: Balloon, opts: Options, env: Env): Placemark {
    Windows(p, b, ShapeCalls(p, opts), opts, env)
  }

  /** The shape branches change only the placemark's variables, and nothing when no
      built-in creator runs or the balloon is hidden. Otherwise they keep the display
      names and every value but `geDirections`, and with a position and directions not
      suppressed each drawn shape adds the position to the direction parameters once
      more. */
  lemma ShapeWindowsMeaning(p: Placemark, b: Balloon, opts: Options, env: Env)
    ensures var r := ShapeWindows(p, b, opts, env);
            r == p.(vars := r.vars) &&
            (ShapeCalls(p, opts) == 0 || !p.balloonVisibility || b.displayMode == "hide" ==> r == p)
    ensures var r := ShapeWindows(p, b, opts, env);
            var n := ShapeCalls(p, opts);
            n > 0 && p.balloonVisibility && b.displayMode != "hide" ==>
              r.vars.display == p.vars.display &&
              r.vars.val.Keys == p.vars.val.Keys + {"geDirections"} &&
              (forall k :: k in p.vars.val && k != "geDirections" ==> r.vars.val[k] == p.vars.val[k]) &&
              (p.latlng.Some? && !opts.suppressDirections ==>
                 r.vars.directions == p.vars.directions + Copies("sll=" + env.urlValue(p.latlng.value), n))
  {
    var n := ShapeCalls(p, opts);
    if n > 0 {
      WindowsVarsMeaning(p.vars, p.latlng, n, opts.suppressDirections, env);
    }
  }

  /** A polygon drawn after a marker's info window adds the position to the direction
      parameters a second time. */
  lemma MarkerThenPolygon(p: Placemark, b: Balloon, opts: Options, env: Env)
    requires p.latlng.Some? && p.polygon.Some? && p.lineString.None? && p.track.None?
    requires !opts.customCreatePolygon && !opts.suppressDirections
    requires p.balloonVisibility && b.displayMode != "hide"
    ensures var sll := "sll=" + env.urlValue(p.latlng.value);
            ShapeWindows(Windowed(p, b, opts, env), b, opts, env).vars.directions == p.vars.directions + [sll, sll]
  {
    var sll := "sll=" + env.urlValue(p.latlng.value);
    var w := Windowed(p, b, opts, env);
    WindowedMeaning(p, b, opts, env);
    assert w.vars.directions == p.vars.directions + [sll];
    assert ShapeCalls(w, opts) == 1;
    ShapeWindowsMeaning(w, b, opts, env);
    assert Copies(sll, 1) == [sll];
    assert ShapeWindows(w, b, opts, env).vars.directions == w.vars.directions + [sll];
  }

  /** A document rendered for the first time has no markers to match: its first point
      placemark makes a marker exactly when the icon does not have to wait. */
  lemma FreshDocumentMakesMarker(t: Table, p: Placemark, pos: Pos, doc: Doc, opts: Options, env: Env)
    requires !opts.customCreateMarker
    ensures var r := PointMarker(None, false, t, p, pos, doc, opts, env);
            r.markers.Some? && |r.markers.value| <= 1 &&
            (|r.markers.value| == 1 <==> !MustQueue(StyleOf(t, p.style).icon))
  {
    if MustQueue(StyleOf(t, p.style).icon) {
      PointMarkerQueues(None, false, t, p, pos, doc, opts, env);
    } else {
      PointMarkerCreates(None, false, t, p, pos, doc, opts, env);
    }
  }
}

=== FILE: polygons.dfy ===
/** What `createPolygon` derives from a placemark before it calls the map library: the
    paths, part by part with the outer boundaries before the inner ones, and the stroke
    and fill options with the `fill` and `outline` switches of the polygon style. */
module Polygons {
  import opened Wrappers
  import opened Numbers
  import opened Coords
  import opened Model
  import opened Styles
  import opened Colors

  /** A map path: the positions of a coordinate list, latitude and longitude. */
  function PathPositions(coords: seq<Coord>): (r: seq<Pos>)
    ensures |r| == |coords|
  {
    seq(|coords|, i requires 0 <= i < |coords| => Pos(coords[i].lat, coords[i].lng))
  }

  /** The paths of a list of boundaries, in order. */
  function BoundaryPaths(lists: seq<seq<Coord>>): (r: seq<seq<Pos>>)
    ensures |r| == |lists|
  {
    seq(|lists|, j requires 0 <= j < |lists| => PathPositions(lists[j]))
  }

  /** The paths of the parts taken one after another, each part's outer boundaries
      before its inner ones. */
  function PolygonPaths(parts: seq<PolygonPart>): seq<seq<Pos>>
    decreases |parts|
  {
    if parts == [] then []
    else
      var last := parts[|parts| - 1];
      PolygonPaths(parts[..|parts| - 1]) + BoundaryPaths(last.outer) + BoundaryPaths(last.inner)
  }

  /** The number of positions in a list of paths. */
  function PositionCount(paths: seq<seq<Pos>>): nat
    decreases |paths|
  {
    if paths == [] then 0 else PositionCount(paths[..|paths| - 1]) + |paths[|paths| - 1]|
  }

  lemma {:induction false} PositionCountAppend(a: seq<seq<Pos>>, b: seq<seq<Pos>>)
    ensures PositionCount(a + b) == PositionCount(a) + PositionCount(b)
    decreases |b|
  {
    if b != [] {
      var b' := b[..|b| - 1];
      assert (a + b)[..|a + b| - 1] == a + b';
      PositionCountAppend(a, b');
    } else {
      assert a + b == a;
    }
  }

  /** The innermost loop: one boundary's positions, pushed in order (source lines
      1181-1185 and 1192-1196). */
  method BoundaryPath(coords: seq<Coord>) returns (path: seq<Pos>)
    ensures path == PathPositions(coords)
  {
    path := [];
    var i := 0;
    while i < |coords|
      invariant 0 <= i <= |coords|
      invariant path == PathPositions(coords[..i])
    {
      path := path + [Pos(coords[i].lat, coords[i].lng)];
      i := i + 1;
    }
    assert coords[..i] == coords;
  }

  /** One list of boundaries appended to the paths, counting their positions. */
  method AppendBoundaries(paths0: seq<seq<Pos>>, count0: nat, lists: seq<seq<Coord>>)
    returns (paths: seq<seq<Pos>>, count: nat)
    requires count0 == PositionCount(paths0)
    ensures paths == paths0 + BoundaryPaths(lists)
    ensures count == PositionCount(paths)
  {
    paths, count := paths0, count0;
    var j := 0;
    while j < |lists|
      invariant 0 <= j <= |lists|
      invariant paths == paths0 + BoundaryPaths(lists[..j])
      invariant count == PositionCount(paths)
    {
      var path := BoundaryPath(lists[j]);
      assert BoundaryPaths(lists[..j + 1]) == BoundaryPaths(lists[..j]) + [path];
      PositionCountAppend(paths, [path]);
      assert PositionCount([path]) == |path| by {
        assert [path][..0] == [];
      }
      paths := paths + [path];
      count := count + |path|;
      j := j + 1;
    }
    assert lists[..j] == lists;
  }

  /** The path loop of `createPolygon` (source lines 1177-1200): every part's outer
      boundaries, then its inner boundaries, part after part, with the total number of
      positions. */
  method CollectPolygonPaths(parts: seq<PolygonPart>) returns (paths: seq<seq<Pos>>, pathsLength: nat)
    ensures paths == PolygonPaths(parts)
    ensures pathsLength == PositionCount(paths)
  {
    paths, pathsLength := [], 0;
    var k := 0;
    while k < |parts|
      invariant 0 <= k <= |parts|
      invariant paths == PolygonPaths(parts[..k])
      invariant pathsLength == PositionCount(paths)
    {
      assert parts[..k + 1][..k] == parts[..k];
      paths, pathsLength := AppendBoundaries(paths, pathsLength, parts[k].outer);
      paths, pathsLength := AppendBoundaries(paths, pathsLength, parts[k].inner);
      k := k + 1;
    }
    assert parts[..k] == parts;
  }

  /** The path list is one path per boundary, so a single part gives its outer
      boundaries' paths and then its inner boundaries' paths, and parts concatenate. */
  lemma {:induction false} PolygonPathsAppend(a: seq<PolygonPart>, b: seq<PolygonPart>)
    ensures PolygonPaths(a + b) == PolygonPaths(a) + PolygonPaths(b)
    decreases |b|
  {
    if b == [] {
      assert a + b == a;
    } else {
      var b' := b[..|b| - 1];
      var last := b[|b| - 1];
      assert (a + b)[..|a + b| - 1] == a + b';
      PolygonPathsAppend(a, b');
    }
  }

  /** One part: the `k`-th outer boundary is path `k`, and the `k`-th inner boundary
      follows all outer ones; every position is the coordinate's latitude and
      longitude. */
  lemma SinglePartLayout(part: PolygonPart, k: nat, i: nat)
    ensures |PolygonPaths([part])| == |part.outer| + |part.inner|
    ensures k < |part.outer| && i < |part.outer[k]| ==>
              PolygonPaths([part])[k][i] == Pos(part.outer[k][i].lat, part.outer[k][i].lng)
    ensures k < |part.inner| && i < |part.inner[k]| ==>
              PolygonPaths([part])[|part.outer| + k][i] == Pos(part.inner[k][i].lat, part.inner[k][i].lng)
  {
    assert [part][..0] == [];
  }

  /** The map options of a polygon (the part of `createPolygon` that does not call the
      map library). `strokeWeight` is the line width as the style holds it. */
  datatype PolygonOptions = PolygonOptions(paths: seq<seq<Pos>>, title: string,
                                           strokeColor: Option<string>, strokeWeight: Scalar,
                                           strokeOpacity: Num, fillColor: Option<string>,
                                           fillOpacity: Num, visible: bool)

  /** `createPolygon`'s options (source lines 1203-1221): stroke from the line style,
      fill from the polygon style; no fill makes the fill transparent, no outline makes
      the stroke zero wide and transparent. */
  function PolygonOptionsOf(p: Placemark, style: Style, paths: seq<seq<Pos>>): PolygonOptions {
    var stroke := KmlColor(style.line.color, style.line.colorMode);
    var fill := KmlColor(style.poly.color, style.poly.colorMode);
    PolygonOptions(paths, p.name, stroke.color,
                   if style.poly.outline then style.line.width else Number(0.0),
                   if style.poly.outline then stroke.opacity else Some(0.0),
                   fill.color,
                   if style.poly.fill then fill.opacity else Some(0.0),
                   p.visibility)
  }

  /** The colours always come from the styles; switching the fill off zeroes only the
      fill opacity, switching the outline off zeroes only the stroke width and opacity,
      and with both switches on the options carry the styles' own values. */
  lemma PolygonSwitches(p: Placemark, style: Style, paths: seq<seq<Pos>>)
    ensures var o := PolygonOptionsOf(p, style, paths);
            var stroke := KmlColor(style.line.color, style.line.colorMode);
            var fill := KmlColor(style.poly.color, style.poly.colorMode);
            o.strokeColor == stroke.color && o.fillColor == fill.color &&
            o.paths == paths && o.visible == p.visibility &&
            (!style.poly.fill ==> o.fillOpacity == Some(0.0)) &&
            (style.poly.fill ==> o.fillOpacity == fill.opacity) &&
            (!style.poly.outline ==> o.strokeWeight == Number(0.0) && o.strokeOpacity == Some(0.0)) &&
            (style.poly.outline ==> o.strokeWeight == style.line.width && o.strokeOpacity == stroke.opacity)
  {
  }

  /** With the default style neither switch fires: the polygon is drawn in white with a
      stroke one unit wide, and both opacities are 255/256. */
  lemma DefaultPolygonOptions(p: Placemark, paths: seq<seq<Pos>>)
    ensures var o := PolygonOptionsOf(p, DefaultStyle, paths);
            o.strokeWeight == Number(1.0) && o.strokeColor == Some("#ffffff") && o.fillColor == Some("#ffffff") &&
            o.strokeOpacity == Some(255.0 / 256.0) && o.fillOpacity == Some(255.0 / 256.0)
  {
    DefaultStyleFacts();
    KmlColorEmpty("normal");
  }
}

=== FILE: records.dfy ===
/** What `render` records about a placemark besides its geometry: the linked
    description, the substitution variables (seeded names and values, then the
    `ExtendedData` entries), and the info window `createInfoWindow` derives from them. */
module Records {
  import opened Wrappers
  import opened Xml
  import opened Text
  import opened Model
  import opened Styles
  import opened Colors

  /** `/^https?:\/\//`: the text starts with `http://` or `https://`. */
  predicate IsHttpUrl(s: string) {
    StartsWith(s, "http://") || StartsWith(s, "https://")
  }

  /** A description that is a web address becomes a link to it (source lines 500-502). */
  function DescriptionLink(d: string): string {
    if IsHttpUrl(d) then "<a href=\"" + (d + ("\">" + (d + "</a>"))) else d
  }

  /** A web address is wrapped in a link that still shows it and that is not itself a
      web address, so linking twice changes nothing; any other description is kept. */
  lemma DescriptionLinkMeaning(d: string)
    ensures !IsHttpUrl(d) ==> DescriptionLink(d) == d
    ensures IsHttpUrl(d) ==> Contains(DescriptionLink(d), d) && !IsHttpUrl(DescriptionLink(d))
    ensures DescriptionLink(DescriptionLink(d)) == DescriptionLink(d)
  {
    if IsHttpUrl(d) {
      var a := "<a href=\"";
      var b := "\">" + (d + "</a>");
      assert DescriptionLink(d) == a + d + b;
      ContainsMiddle(a, d, b);
      var r := DescriptionLink(d);
      assert r[0] == '<';
      assert !StartsWith(r, "http://") && !StartsWith(r, "https://");
    }
  }

  /** The display names every placemark starts with (source lines 506-513). */
  const DisplayNames: map<string, string> :=
    map["name" := "Name", "description" := "Description", "address" := "Street Address",
        "id" := "ID", "Snippet" := "Snippet", "geDirections" := "Directions"]

  /** The direction-link parameters every placemark starts with. */
  const StartDirections: seq<string> := ["f=d", "source=GeoXML3"]

  /** Every value variable has a display name. */
  predicate Displayed(v: Vars) {
    v.val.Keys <= v.display.Keys
  }

  /** The variables seeded for a placemark (source lines 505-525): its name and linked
      description, its `address` and `Snippet` texts and its `id` attribute, each `''`
      when missing. */
  function SeedVars(node: Element, name: string, description: string): Vars {
    Vars(DisplayNames,
         map["name" := name, "description" := description,
             "address" := ChildValue(node, "address", ""),
             "id" := Attr(node, "id").GetOr(""),
             "Snippet" := ChildValue(node, "Snippet", "")],
         StartDirections)
  }

  /** The seeded variables have a display name each, and `geDirections` has a display
      name but no value until an info window is made. */
  lemma SeedVarsDisplayed(node: Element, name: string, description: string)
    ensures Displayed(SeedVars(node, name, description))
    ensures "geDirections" in SeedVars(node, name, description).display
    ensures "geDirections" !in SeedVars(node, name, description).val
    ensures SeedVars(node, name, description).val["name"] == name
  {
  }

  /** The `name` attribute of a `Data` element, when it is present and not empty. */
  function DataName(dn: Element): Option<string> {
    if "name" in dn.attrs && dn.attrs["name"] != "" then Some(dn.attrs["name"]) else None
  }

  /** One `Data` element (source lines 532-539): a named one sets the value to its
      `value` text and the display name to its `displayName` text (the name itself when
      that is missing); an unnamed one is skipped. */
  function AddData(v: Vars, dn: Element): Vars {
    match DataName(dn)
    case None => v
    case Some(n) =>
      v.(val := v.val[n := ChildValue(dn, "value", "")],
         display := v.display[n := ChildValue(dn, "displayName", n)])
  }

  /** The `Data` elements taken one after another. */
  function DataVars(v: Vars, dataNodes: seq<Element>): Vars
    decreases |dataNodes|
  {
    if dataNodes == [] then v
    else AddData(DataVars(v, dataNodes[..|dataNodes| - 1]), dataNodes[|dataNodes| - 1])
  }

  /** The variables after the `Data` elements of the first `ExtendedData` descendant. */
  function ExtendedVars(node: Element, v: Vars): Vars {
    var ext := ByTag(node, "ExtendedData");
    if |ext| > 0 then DataVars(v, ByTag(ext[0], "Data")) else v
  }

  /** The `ExtendedData` loop of `render` (source lines 528-541). */
  method AddExtendedData(node: Element, vars: Vars) returns (r: Vars)
    ensures r == ExtendedVars(node, vars)
  {
    r := vars;
    var extDataNodes := ByTag(node, "ExtendedData");
    if |extDataNodes| > 0 {
      var dataNodes := ByTag(extDataNodes[0], "Data");
      var d := 0;
      while d < |dataNodes|
        invariant 0 <= d <= |dataNodes|
        invariant r == DataVars(vars, dataNodes[..d])
      {
        assert dataNodes[..d + 1][..d] == dataNodes[..d];
        var dn := dataNodes[d];
        if "name" in dn.attrs && dn.attrs["name"] != "" {
          var name := dn.attrs["name"];
          var dName := ChildValue(dn, "displayName", name);
          var val := ChildValue(dn, "value", "");
          r := r.(val := r.val[name := val]);
          r := r.(display := r.display[name := dName]);
        }
        d := d + 1;
      }
      assert dataNodes[..d] == dataNodes;
    }
  }

  /** The last `Data` element with a given name decides that variable's value and
      display name. */
  lemma {:induction false} DataVarsLast(v: Vars, dataNodes: seq<Element>, k: nat, n: string)
    requires k < |dataNodes| && DataName(dataNodes[k]) == Some(n)
    requires forall j :: k < j < |dataNodes| ==> DataName(dataNodes[j]) != Some(n)
    ensures n in DataVars(v, dataNodes).val && n in DataVars(v, dataNodes).display
    ensures DataVars(v, dataNodes).val[n] == ChildValue(dataNodes[k], "value", "")
    ensures DataVars(v, dataNodes).display[n] == ChildValue(dataNodes[k], "displayName", n)
    decreases |dataNodes|
  {
    var last := |dataNodes| - 1;
    if k < last {
      DataVarsLast(v, dataNodes[..last], k, n);
      assert DataName(dataNodes[last]) != Some(n);
    }
  }

  /** A variable no `Data` element names keeps its value and display name (or its
      absence), and the direction parameters are untouched. */
  lemma {:induction false} DataVarsOther(v: Vars, dataNodes: seq<Element>, n: string)
    requires forall j :: 0 <= j < |dataNodes| ==> DataName(dataNodes[j]) != Some(n)
    ensures var r := DataVars(v, dataNodes);
            (n in r.val <==> n in v.val) && (n in v.val ==> r.val[n] == v.val[n]) &&
            (n in r.display <==> n in v.display) && (n in v.display ==> r.display[n] == v.display[n]) &&
            r.directions == v.directions
    decreases |dataNodes|
  {
    if dataNodes != [] {
      var last := |dataNodes| - 1;
      DataVarsOther(v, dataNodes[..last], n);
      assert DataName(dataNodes[last]) != Some(n);
    }
  }

  /** Each `Data` entry names a display name with its value, so every value keeps a
      display name. */
  lemma {:induction false} DataVarsDisplayed(v: Vars, dataNodes: seq<Element>)
    requires Displayed(v)
    ensures Displayed(DataVars(v, dataNodes))
    decreases |dataNodes|
  {
    if dataNodes != [] {
      DataVarsDisplayed(v, dataNodes[..|dataNodes| - 1]);
    }
  }

  /** The two direction links of an info window (source line 1245). */
  function DirectionLinks(url: string, address: string): string {
    "<a href=\"" + url + "&daddr=" + address + "\" target=_blank>To Here</a> - <a href=\""
    + url + "&saddr=" + address + "\" target=_blank>From Here</a>"
  }

  /** The `geDirections` variable (source lines 1238-1247): with a position and
      directions not suppressed, the position joins the direction parameters and the
      links lead to and from the placemark's address (its position when it has none);
      otherwise the variable is empty. */
  function WithDirections(vars: Vars, latlng: Option<Pos>, suppress: bool, env: Env): Vars {
    if latlng.Some? && !suppress then
      var dirs := vars.directions + ["sll=" + env.urlValue(latlng.value)];
      vars.(directions := dirs, val := vars.val["geDirections" := DirectionsValue(dirs, vars.val, latlng.value, env)])
    else
      vars.(val := vars.val["geDirections" := ""])
  }

  /** The `geDirections` links for the direction parameters `dirs`, to and from the
      placemark's address, or its position when it has none. */
  function DirectionsValue(dirs: seq<string>, val: map<string, string>, pos: Pos, env: Env): string
    requires |dirs| >= 1
  {
    var a := if "address" in val && val["address"] != "" then val["address"] else env.urlValue(pos);
    DirectionLinks(MapsUrl(dirs), env.encodeAddress(a))
  }

  /** The maps URL carrying the direction parameters. */
  function MapsUrl(dirs: seq<string>): string
    requires |dirs| >= 1
  {
    "http://maps.google.com/maps?" + Join(dirs, '&')
  }

  /** `WithDirections` sets `geDirections` and touches no other value or display name. */
  lemma WithDirectionsKeeps(vars: Vars, latlng: Option<Pos>, suppress: bool, env: Env)
    ensures var v := WithDirections(vars, latlng, suppress, env);
            v.display == vars.display && v.val.Keys == vars.val.Keys + {"geDirections"} &&
            forall k :: k in vars.val && k != "geDirections" ==> v.val[k] == vars.val[k]
  {
  }

  /** The opening of an info window's `div`, up to its class attribute: the classes name
      the style. */
  function ClassOpen(styleID: string): string {
    "<div class=\"geoxml3_infowindow geoxml3_style_" + styleID + "\""
  }

  /** The content of an info window: the balloon text with its variables substituted,
      in a `div` whose classes name the style and whose `style` attribute carries the
      non-default balloon colours. */
  function InfoContent(styleID: string, b: Balloon, vars: Vars): string {
    ClassOpen(styleID) + (InfoWindowStyleAttr(b) + (">" + (BalloonText(b.text, vars) + "</div>")))
  }

  /** What `createInfoWindow` derives: the content, and the placemark's variables as it
      leaves them. */
  datatype InfoWindowResult = InfoWindowResult(content: string, vars: Vars)

  /** `createInfoWindow(placemark, doc, marker)` for a placemark shown with balloon
      style `b` (source lines 1231-1265): nothing when the balloon is hidden. */
  function InfoWindow(p: Placemark, b: Balloon, opts: Options, env: Env): Option<InfoWindowResult> {
    if !p.balloonVisibility || b.displayMode == "hide" then None
    else
      var v := WithDirections(p.vars, p.latlng, opts.suppressDirections, env);
      Some(InfoWindowResult(InfoContent(p.styleID, b, v), v))
  }

  /** An info window is made exactly when the balloon is visible and not hidden by its
      display mode. Making one sets `geDirections` and nothing else among the values,
      keeps the display names and every value display-named, and adds one direction
      parameter, the position, exactly when there is a position and directions are not
      suppressed. */
  lemma InfoWindowMeaning(p: Placemark, b: Balloon, opts: Options, env: Env)
    ensures InfoWindow(p, b, opts, env).None? <==> !p.balloonVisibility || b.displayMode == "hide"
    ensures InfoWindow(p, b, opts, env).Some? ==>
              var v := InfoWindow(p, b, opts, env).value.vars;
              v.display == p.vars.display &&
              v.val.Keys == p.vars.val.Keys + {"geDirections"} &&
              (forall k :: k in p.vars.val && k != "geDirections" ==> v.val[k] == p.vars.val[k]) &&
              (Displayed(p.vars) && "geDirections" in p.vars.display ==> Displayed(v)) &&
              (p.latlng.Some? && !opts.suppressDirections ==>
                 v.directions == p.vars.directions + ["sll=" + env.urlValue(p.latlng.value)]) &&
              (!(p.latlng.Some? && !opts.suppressDirections) ==>
                 v.directions == p.vars.directions && v.val["geDirections"] == "")
  {
  }

  /** The placemark as `createInfoWindow` leaves it: unchanged when no window is made,
      and otherwise with the variables the window derives. */
  function Windowed(p: Placemark, b: Balloon, opts: Options, env: Env): Placemark {
    if !p.balloonVisibility || b.displayMode == "hide" then p
    else p.(vars := WithDirections(p.vars, p.latlng, opts.suppressDirections, env))
  }

  /** `Windowed` writes back exactly the variables of the info window, and nothing when
      there is none. */
  lemma WindowedIsInfoWindow(p: Placemark, b: Balloon, opts: Options, env: Env)
    ensures InfoWindow(p, b, opts, env).None? ==> Windowed(p, b, opts, env) == p
    ensures InfoWindow(p, b, opts, env).Some? ==>
              Windowed(p, b, opts, env) == p.(vars := InfoWindow(p, b, opts, env).value.vars)
  {
  }

  /** One call of `createInfoWindow` with a shown balloon changes only the variables:
      it keeps the display names, sets `geDirections` and no other value, and adds the
      position to the direction parameters when there is one and directions are not
      suppressed. */
  lemma WindowedMeaning(p: Placemark, b: Balloon, opts: Options, env: Env)
    requires p.balloonVisibility && b.displayMode != "hide"
    ensures var v := Windowed(p, b, opts, env).vars;
            Windowed(p, b, opts, env) == p.(vars := v) &&
            v.display == p.vars.display &&
            v.val.Keys == p.vars.val.Keys + {"geDirections"} &&
            (forall k :: k in p.vars.val && k != "geDirections" ==> v.val[k] == p.vars.val[k]) &&
            (p.latlng.Some? && !opts.suppressDirections ==>
               v.directions == p.vars.directions + ["sll=" + env.urlValue(p.latlng.value)]) &&
            (!(p.latlng.Some? && !opts.suppressDirections) ==>
               v.directions == p.vars.directions && v.val["geDirections"] == "")
  {
    WithDirectionsKeeps(p.vars, p.latlng, opts.suppressDirections, env);
  }

  /** `n` copies of a direction parameter. */
  function Copies(x: string, n: nat): (r: seq<string>)
    ensures |r| == n && forall k :: 0 <= k < n ==> r[k] == x
  {
    if n == 0 then [] else Copies(x, n - 1) + [x]
  }

  /** The variables after `n` calls of `createInfoWindow` for a placemark at `latlng`
      whose balloon is shown. */
  function WindowsVars(v: Vars, latlng: Option<Pos>, n: nat, suppress: bool, env: Env): Vars
    decreases n
  {
    if n == 0 then v else WithDirections(WindowsVars(v, latlng, n - 1, suppress, env), latlng, suppress, env)
  }

  /** The placemark after `n` calls of `createInfoWindow` with balloon style `b`: only
      its variables change, and only when the balloon is shown. */
  function Windows(p: Placemark, b: Balloon, n: nat, opts: Options, env: Env): Placemark {
    if n == 0 || !p.balloonVisibility || b.displayMode == "hide" then p
    else p.(vars := WindowsVars(p.vars, p.latlng, n, opts.suppressDirections, env))
  }

  /** One more call is one more `createInfoWindow`. */
  lemma WindowsStep(p: Placemark, b: Balloon, n: nat, opts: Options, env: Env)
    ensures Windowed(Windows(p, b, n, opts, env), b, opts, env) == Windows(p, b, n + 1, opts, env)
  {
  }

  /** Calls of `createInfoWindow` keep the display names. */
  lemma {:induction false} WindowsVarsDisplay(v: Vars, latlng: Option<Pos>, n: nat, suppress: bool, env: Env)
    ensures WindowsVars(v, latlng, n, suppress, env).display == v.display
    decreases n
  {
    if n > 0 {
      WindowsVarsDisplay(v, latlng, n - 1, suppress, env);
    }
  }

  /** After one or more calls, `geDirections` is set and no other value changes. */
  lemma {:induction false} WindowsVarsValues(v: Vars, latlng: Option<Pos>, n: nat, suppress: bool, env: Env)
    requires n > 0
    ensures var r := WindowsVars(v, latlng, n, suppress, env);
            r.val.Keys == v.val.Keys + {"geDirections"} &&
            (forall k :: k in v.val && k != "geDirections" ==> r.val[k] == v.val[k])
    decreases n
  {
    WithDirectionsKeeps(WindowsVars(v, latlng, n - 1, suppress, env), latlng, suppress, env);
    if n > 1 {
      WindowsVarsValues(v, latlng, n - 1, suppress, env);
    }
  }

  /** With a position and directions not suppressed, every call adds the position to
      the direction parameters once more; otherwise they are unchanged and, after one
      or more calls, `geDirections` is empty. */
  lemma {:induction false} WindowsVarsDirections(v: Vars, latlng: Option<Pos>, n: nat, suppress: bool, env: Env)
    ensures var r := WindowsVars(v, latlng, n, suppress, env);
            (latlng.Some? && !suppress ==>
               r.directions == v.directions + Copies("sll=" + env.urlValue(latlng.value), n)) &&
            (!(latlng.Some? && !suppress) ==>
               r.directions == v.directions && (n > 0 ==> r.val["geDirections"] == ""))
    decreases n
  {
    if n > 0 {
      WindowsVarsDirections(v, latlng, n - 1, suppress, env);
      if latlng.Some? && !suppress {
        var sll := "sll=" + env.urlValue(latlng.value);
        assert v.directions + Copies(sll, n - 1) + [sll] == v.directions + Copies(sll, n);
      }
    }
  }

  /** After one or more calls, the display names are kept, `geDirections` is set and no
      other value changes; with a position and directions not suppressed every call
      adds the position to the direction parameters once more, and otherwise they are
      unchanged and `geDirections` is empty. */
  lemma WindowsVarsMeaning(v: Vars, latlng: Option<Pos>, n: nat, suppress: bool, env: Env)
    requires n > 0
    ensures var r := WindowsVars(v, latlng, n, suppress, env);
            r.display == v.display &&
            r.val.Keys == v.val.Keys + {"geDirections"} &&
            (forall k :: k in v.val && k != "geDirections" ==> r.val[k] == v.val[k])
    ensures var r := WindowsVars(v, latlng, n, suppress, env);
            (latlng.Some? && !suppress ==>
               r.directions == v.directions + Copies("sll=" + env.urlValue(latlng.value), n)) &&
            (!(latlng.Some? && !suppress) ==> r.directions == v.directions && r.val["geDirections"] == "")
  {
    WindowsVarsDisplay(v, latlng, n, suppress, env);
    WindowsVarsValues(v, latlng, n, suppress, env);
    WindowsVarsDirections(v, latlng, n, suppress, env);
  }

  /** With the default balloon the info window is the placemark's name as a heading,
      the description placeholder left as it is, and the direction links, in a `div`
      without a colour attribute. */
  lemma InfoWindowDefault(p: Placemark, opts: Options, env: Env)
    requires p.balloonVisibility
    ensures InfoWindow(p, DefaultStyle.balloon, opts, env).Some?
    ensures var r := InfoWindow(p, DefaultStyle.balloon, opts, env).value;
            r.content == ClassOpen(p.styleID) + (">"
                         + (("<h3>" + (Lookup(p.vars.val, "name") + ("</h3>\n<div>" + ("$>[description]</div>\n<div>"
                         + (r.vars.val["geDirections"] + "</div>"))))) + "</div>"))
  {
    var v := WithDirections(p.vars, p.latlng, opts.suppressDirections, env);
    WithDirectionsKeeps(p.vars, p.latlng, opts.suppressDirections, env);
    assert DefaultStyle.balloon.displayMode == "default";
    assert InfoWindow(p, DefaultStyle.balloon, opts, env) == Some(InfoWindowResult(InfoContent(p.styleID, DefaultStyle.balloon, v), v));
    DefaultContent(p.styleID, v);
    assert Lookup(v.val, "name") == Lookup(p.vars.val, "name");
    assert Lookup(v.val, "geDirections") == v.val["geDirections"];
  }

  /** The content of an info window with the default balloon. */
  lemma DefaultContent(styleID: string, v: Vars)
    ensures InfoContent(styleID, DefaultStyle.balloon, v)
         == ClassOpen(styleID) + (">" + (("<h3>" + (Lookup(v.val, "name") + ("</h3>\n<div>" + ("$>[description]</div>\n<div>"
            + (Lookup(v.val, "geDirections") + "</div>"))))) + "</div>"))
  {
    var b := DefaultStyle.balloon;
    assert b.text == DefaultBalloonText;
    DefaultBalloonPlain();
    assert InfoWindowStyleAttr(b) == "";
    DefaultBalloonSubstitution(v);
    var t := BalloonText(b.text, v);
    assert InfoContent(styleID, b, v) == ClassOpen(styleID) + ("" + (">" + (t + "</div>")));
    assert "" + (">" + (t + "</div>")) == ">" + (t + "</div>");
  }
}

=== FILE: render.dfy ===
/** The phases of `render` (source lines 357-884) as functions of the state before each
    phase: how a response is recognised as a failed load, the style phase, the placemark
    loop, the ground overlays and the network links. The parser class runs them. */
module Render {
  import opened Wrappers
  import opened Xml
  import opened Numbers
  import opened Model
  import opened Styles
  import opened Icons
  import opened Records
  import opened Overlays
  import opened Markers
  import opened StyleTable
  import opened Placemarks

  /** `documentElement.nodeName === 'parsererror'`: the root element, when there is
      one, is a Firefox parse error. */
  predicate RootIsParserError(d: Element) {
    |d.children| > 0 && d.children[0].QName() == "parsererror"
  }

  /** The three failures `render` recognises (source lines 357-384): no document, an IE
      parse error code other than 0, or a Firefox parse-error root. */
  predicate LoadFailed(resp: Response) {
    match resp
    case NoDocument => true
    case ErrorCode(code, d) => code != 0 || RootIsParserError(d)
    case Document(d) => RootIsParserError(d)
  }

  /** The table key of a document's styles: `styles[doc.baseUrl]`, which for a document
      parsed from a string (no base URL) is the key `"undefined"`. */
  function BaseKey(baseUrl: Option<string>): string {
    baseUrl.GetOr("undefined")
  }

  /** `styles[key] = styles[key] || {}` (source line 446). */
  function WithBase(t: Table, key: string): (r: Table)
    ensures key in r && r.Keys == t.Keys + {key}
    ensures key in t ==> r == t
    ensures key !in t ==> r[key] == map[]
  {
    if key in t then t else t[key := map[]]
  }

  /** One `Style` element of the document (source lines 450-454): processed into the
      document's base when it has a non-empty `id`. */
  function StyleNode(t: Table, n: Element, key: string, baseDir: Option<string>, env: Env): MapResult {
    var id := Attr(n, "id");
    if id.None? || id.value == "" then Mapped(t)
    else
      match ProcessStyleOf(t, n, key, id.value, baseDir, env)
      case NoTable => MapThrew(t)
      case Styled(t', _) => Mapped(t')
  }

  /** The `Style` elements in document order; the first exception ends the loop. */
  function StyleNodes(t: Table, ns: seq<Element>, key: string, baseDir: Option<string>, env: Env): MapResult
    decreases |ns|
  {
    if ns == [] then Mapped(t)
    else
      match StyleNodes(t, ns[..|ns| - 1], key, baseDir, env)
      case MapThrew(t') => MapThrew(t')
      case Mapped(t') => StyleNode(t', ns[|ns| - 1], key, baseDir, env)
  }

  /** One `StyleMap` element of the document (source lines 457-461). */
  function StyleMapNode(t: Table, n: Element, key: string, baseDir: Option<string>,
                        processStyles: bool, env: Env): MapResult
  {
    var id := Attr(n, "id");
    if id.None? || id.value == "" then Mapped(t)
    else ProcessStyleMapOf(t, n, key, id.value, baseDir, processStyles, env)
  }

  /** The `StyleMap` elements in document order; the first exception ends the loop. */
  function StyleMapNodes(t: Table, ns: seq<Element>, key: string, baseDir: Option<string>,
                         processStyles: bool, env: Env): MapResult
    decreases |ns|
  {
    if ns == [] then Mapped(t)
    else
      match StyleMapNodes(t, ns[..|ns| - 1], key, baseDir, processStyles, env)
      case MapThrew(t') => MapThrew(t')
      case Mapped(t') => StyleMapNode(t', ns[|ns| - 1], key, baseDir, processStyles, env)
  }

  /** One more `Style` element after the loop has run without throwing. */
  lemma StyleNodesStep(t: Table, ns: seq<Element>, i: nat, key: string, baseDir: Option<string>, env: Env)
    requires i < |ns| && StyleNodes(t, ns[..i], key, baseDir, env).Mapped?
    ensures StyleNodes(t, ns[..i + 1], key, baseDir, env) ==
            StyleNode(StyleNodes(t, ns[..i], key, baseDir, env).table, ns[i], key, baseDir, env)
  {
    assert ns[..i + 1][..i] == ns[..i];
  }

  /** One more `StyleMap` element after the loop has run without throwing. */
  lemma StyleMapNodesStep(t: Table, ns: seq<Element>, i: nat, key: string, baseDir: Option<string>,
                          processStyles: bool, env: Env)
    requires i < |ns| && StyleMapNodes(t, ns[..i], key, baseDir, processStyles, env).Mapped?
    ensures StyleMapNodes(t, ns[..i + 1], key, baseDir, processStyles, env) ==
            StyleMapNode(StyleMapNodes(t, ns[..i], key, baseDir, processStyles, env).table, ns[i], key, baseDir,
                         processStyles, env)
  {
    assert ns[..i + 1][..i] == ns[..i];
  }

  /** Once a `StyleMap` has thrown, the later ones change nothing. */
  lemma {:induction false} StyleMapNodesThrown(t: Table, ns: seq<Element>, j: nat, key: string,
                                               baseDir: Option<string>, processStyles: bool, env: Env)
    requires j <= |ns| && StyleMapNodes(t, ns[..j], key, baseDir, processStyles, env).MapThrew?
    ensures StyleMapNodes(t, ns, key, baseDir, processStyles, env) == StyleMapNodes(t, ns[..j], key, baseDir, processStyles, env)
    decreases |ns|
  {
    if j == |ns| {
      assert ns[..j] == ns;
    } else {
      var ns' := ns[..|ns| - 1];
      assert ns'[..j] == ns[..j];
      StyleMapNodesThrown(t, ns', j, key, baseDir, processStyles, env);
    }
  }

  /** `processStyles(doc)` runs when the `processStyles` option is set or no custom
      `createMarker` is given (source lines 463-466). */
  predicate RunsProcessStyles(opts: Options) {
    opts.processStyles || !opts.customCreateMarker
  }

  /** The document's base with every icon processed. */
  function ProcessedBase(t: Table, key: string, env: Env): (r: Table)
    ensures r.Keys == t.Keys
  {
    if key in t then t[key := ProcessIcons(t[key], env)] else t
  }

  /** The style phase of `render` (source lines 446-466): the document's base table is
      created when absent, its `Style` elements and then its `StyleMap` elements are
      processed, and then, when `RunsProcessStyles`, the icons of its base. */
  function StylePhase(t: Table, root: Element, key: string, baseDir: Option<string>,
                      opts: Options, env: Env): MapResult
  {
    match StyleNodes(WithBase(t, key), ByTag(root, "Style"), key, baseDir, env)
    case MapThrew(t1) => MapThrew(t1)
    case Mapped(t1) =>
      match StyleMapNodes(t1, ByTag(root, "StyleMap"), key, baseDir, opts.processStyles, env)
      case MapThrew(t2) => MapThrew(t2)
      case Mapped(t2) => Mapped(if RunsProcessStyles(opts) then ProcessedBase(t2, key, env) else t2)
  }

  lemma {:induction false} StyleNodesKeys(t: Table, ns: seq<Element>, key: string,
                                          baseDir: Option<string>, env: Env)
    requires key in t
    ensures StyleNodes(t, ns, key, baseDir, env).table.Keys == t.Keys
    ensures StyleNodes(t, ns, key, baseDir, env).Mapped?
    decreases |ns|
  {
    if ns != [] {
      StyleNodesKeys(t, ns[..|ns| - 1], key, baseDir, env);
      var t' := StyleNodes(t, ns[..|ns| - 1], key, baseDir, env).table;
      var n := ns[|ns| - 1];
      var id := Attr(n, "id");
      if id.Some? && id.value != "" {
        ProcessStyleKeys(t', n, key, id.value, baseDir, env);
      }
    }
  }

  lemma {:induction false} StyleMapNodesKeys(t: Table, ns: seq<Element>, key: string,
                                             baseDir: Option<string>, processStyles: bool, env: Env)
    ensures StyleMapNodes(t, ns, key, baseDir, processStyles, env).table.Keys == t.Keys
    decreases |ns|
  {
    if ns != [] {
      StyleMapNodesKeys(t, ns[..|ns| - 1], key, baseDir, processStyles, env);
      var r := StyleMapNodes(t, ns[..|ns| - 1], key, baseDir, processStyles, env);
      if r.Mapped? {
        var n := ns[|ns| - 1];
        var id := Attr(n, "id");
        if id.Some? && id.value != "" {
          ProcessStyleMapKeys(r.table, n, key, id.value, baseDir, processStyles, env);
        }
      }
    }
  }

  /** The style phase adds the document's base and no other, removes none, and can only
      throw in the `StyleMap` loop; when `processStyles(doc)` runs, every slot of the
      document's base has its icon processed. */
  lemma StylePhaseMeaning(t: Table, root: Element, key: string, baseDir: Option<string>,
                          opts: Options, env: Env)
    ensures var r := StylePhase(t, root, key, baseDir, opts, env);
            r.table.Keys == t.Keys + {key} &&
            (r.MapThrew? ==> |ByTag(root, "StyleMap")| > 0)
    ensures var r := StylePhase(t, root, key, baseDir, opts, env);
            var t1 := StyleNodes(WithBase(t, key), ByTag(root, "Style"), key, baseDir, env).table;
            var t2 := StyleMapNodes(t1, ByTag(root, "StyleMap"), key, baseDir, opts.processStyles, env);
            r.Mapped? && RunsProcessStyles(opts) ==>
              r.table[key] == ProcessIcons(t2.table[key], env)
  {
    var t0 := WithBase(t, key);
    StyleNodesKeys(t0, ByTag(root, "Style"), key, baseDir, env);
    var t1 := StyleNodes(t0, ByTag(root, "Style"), key, baseDir, env).table;
    StyleMapNodesKeys(t1, ByTag(root, "StyleMap"), key, baseDir, opts.processStyles, env);
  }

  /** Where the placemark loop stands: the document's placemark records and markers, the
      style table, and whether a placemark threw (which ends the loop and `render`). */
  datatype Pass = Pass(placemarks: seq<Placemark>, markers: Option<seq<MarkerRec>>,
                       table: Table, threw: bool)

  /** One pass of the placemark loop (source lines 476-684): the record is built and
      pushed; a placemark with a point (exactly those with a position) then goes through
      the marker logic, whose placemark, with its info-window variables, is the one the
      list holds. */
  function PlacemarkStep(s: Pass, node: Element, docBase: string, baseDir: Option<string>,
                         reload: bool, doc: Doc, opts: Options, env: Env): Pass
  {
    if s.threw then s
    else BuiltStep(s, PlacemarkOf(node, s.table, docBase, baseDir, opts, env), reload, doc, opts, env)
  }

  /** What one built record does to the pass: a throwing geometry stops it; a record
      with a position goes through the marker logic; then the shape branches write the
      info-window variables of each polygon, line string and track drawn, and the
      record is pushed as they leave it. */
  function BuiltStep(s: Pass, built: PlacemarkResult, reload: bool, doc: Doc, opts: Options, env: Env): Pass
  {
    match built
    case GeometryThrew => s.(threw := true)
    case Built(p) =>
      match p.latlng
      case None =>
        s.(placemarks := s.placemarks + [ShapeWindows(p, StyleOf(s.table, p.style).balloon, opts, env)])
      case Some(pos) =>
        var r := PointMarker(s.markers, reload, s.table, p, pos, doc, opts, env);
        var q := ShapeWindows(r.placemark, StyleOf(r.table, r.placemark.style).balloon, opts, env);
        Pass(s.placemarks + [q], r.markers, r.table, false)
  }

  /** The placemark loop over the document's `Placemark` elements, in order. */
  function PlacemarkPass(s: Pass, ns: seq<Element>, docBase: string, baseDir: Option<string>,
                         reload: bool, doc: Doc, opts: Options, env: Env): Pass
    decreases |ns|
  {
    if ns == [] then s
    else PlacemarkStep(PlacemarkPass(s, ns[..|ns| - 1], docBase, baseDir, reload, doc, opts, env),
                       ns[|ns| - 1], docBase, baseDir, reload, doc, opts, env)
  }

  /** The pass over the first `i + 1` placemarks is one step after the pass over the
      first `i`. */
  lemma PlacemarkPassLast(s: Pass, ns: seq<Element>, i: nat, docBase: string, baseDir: Option<string>,
                          reload: bool, doc: Doc, opts: Options, env: Env)
    requires i < |ns|
    ensures PlacemarkPass(s, ns[..i + 1], docBase, baseDir, reload, doc, opts, env) ==
            PlacemarkStep(PlacemarkPass(s, ns[..i], docBase, baseDir, reload, doc, opts, env),
                          ns[i], docBase, baseDir, reload, doc, opts, env)
  {
    assert ns[..i + 1][..i] == ns[..i];
  }

  /** Once a placemark has thrown, the later ones change nothing. */
  lemma {:induction false} PlacemarkPassThrown(s: Pass, ns: seq<Element>, j: nat, docBase: string,
                                               baseDir: Option<string>, reload: bool, doc: Doc,
                                               opts: Options, env: Env)
    requires j <= |ns| && PlacemarkPass(s, ns[..j], docBase, baseDir, reload, doc, opts, env).threw
    ensures PlacemarkPass(s, ns, docBase, baseDir, reload, doc, opts, env) ==
            PlacemarkPass(s, ns[..j], docBase, baseDir, reload, doc, opts, env)
    decreases |ns|
  {
    if j == |ns| {
      assert ns[..j] == ns;
    } else {
      var ns' := ns[..|ns| - 1];
      assert ns'[..j] == ns[..j];
      PlacemarkPassThrown(s, ns', j, docBase, baseDir, reload, doc, opts, env);
    }
  }

  /** The loop appends to what it is given: the records already there stay first, one
      record per placemark when none throws; without a reload, the markers already
      there are kept and new ones only follow them; a pass that has thrown changes
      nothing more; the table keeps its bases. */
  lemma {:induction false} PlacemarkPassMeaning(s: Pass, ns: seq<Element>, docBase: string,
                                                baseDir: Option<string>, reload: bool, doc: Doc,
                                                opts: Options, env: Env)
    ensures var r := PlacemarkPass(s, ns, docBase, baseDir, reload, doc, opts, env);
            |r.placemarks| >= |s.placemarks| && r.placemarks[..|s.placemarks|] == s.placemarks &&
            (!r.threw ==> !s.threw && |r.placemarks| == |s.placemarks| + |ns|) &&
            (s.threw ==> r == s) &&
            r.table.Keys == s.table.Keys &&
            (!reload && s.markers.Some? ==>
               (r.markers.Some? && |r.markers.value| >= |s.markers.value| &&
                r.markers.value[..|s.markers.value|] == s.markers.value))
    decreases |ns|
  {
    if ns != [] {
      var ns' := ns[..|ns| - 1];
      PlacemarkPassMeaning(s, ns', docBase, baseDir, reload, doc, opts, env);
      var m := PlacemarkPass(s, ns', docBase, baseDir, reload, doc, opts, env);
      StepMeaning(m, ns[|ns| - 1], docBase, baseDir, reload, doc, opts, env);
      var r := PlacemarkStep(m, ns[|ns| - 1], docBase, baseDir, reload, doc, opts, env);
      assert r.placemarks[..|s.placemarks|] == m.placemarks[..|s.placemarks|];
      if !reload && s.markers.Some? {
        assert r.markers.value[..|s.markers.value|] == m.markers.value[..|s.markers.value|];
      }
    }
  }

  /** The loop pushes at most one record per placemark, and a loop that throws has
      pushed fewer. */
  lemma {:induction false} PlacemarkPassShort(s: Pass, ns: seq<Element>, docBase: string,
                                              baseDir: Option<string>, reload: bool, doc: Doc,
                                              opts: Options, env: Env)
    ensures var r := PlacemarkPass(s, ns, docBase, baseDir, reload, doc, opts, env);
            |r.placemarks| <= |s.placemarks| + |ns| &&
            (r.threw && !s.threw ==> |r.placemarks| < |s.placemarks| + |ns|)
    decreases |ns|
  {
    if ns != [] {
      var ns' := ns[..|ns| - 1];
      PlacemarkPassShort(s, ns', docBase, baseDir, reload, doc, opts, env);
      var m := PlacemarkPass(s, ns', docBase, baseDir, reload, doc, opts, env);
      if !m.threw {
        BuiltStepShort(m, PlacemarkOf(ns[|ns| - 1], m.table, docBase, baseDir, opts, env), reload, doc, opts, env);
      }
    }
  }

  /** A built record is pushed once, and a throwing geometry pushes nothing. */
  lemma BuiltStepShort(s: Pass, built: PlacemarkResult, reload: bool, doc: Doc, opts: Options, env: Env)
    requires !s.threw
    ensures var r := BuiltStep(s, built, reload, doc, opts, env);
            |r.placemarks| <= |s.placemarks| + 1 && (r.threw ==> r.placemarks == s.placemarks)
  {
  }

  /** A record with a point and a polygon whose marker is made at once, with a shown
      balloon and directions, holds its position twice among the direction parameters:
      once from the marker's info window and once more from the polygon's. */
  lemma PointAndPolygonDirections(s: Pass, p: Placemark, pos: Pos, reload: bool, doc: Doc,
                                  opts: Options, env: Env)
    requires !s.threw && p.latlng == Some(pos) && p.polygon.Some? && p.lineString.None? && p.track.None?
    requires !opts.customCreateMarker && !opts.customCreatePolygon && !opts.suppressDirections
    requires !(reload && FirstIndex(s.markers.GetOr([]), Match(p.id, pos, env)) < |s.markers.GetOr([])|)
    requires !MustQueue(StyleOf(s.table, p.style).icon)
    requires p.balloonVisibility && StyleOf(s.table, p.style).balloon.displayMode != "hide"
    ensures var r := BuiltStep(s, Built(p), reload, doc, opts, env);
            var sll := "sll=" + env.urlValue(pos);
            |r.placemarks| == |s.placemarks| + 1 &&
            r.placemarks[|s.placemarks|].vars.directions == p.vars.directions + [sll, sll]
  {
    var b := StyleOf(s.table, p.style).balloon;
    PointMarkerCreates(s.markers, reload, s.table, p, pos, doc, opts, env);
    WindowedMeaning(p, b, opts, env);
    MarkerThenPolygon(p, b, opts, env);
  }

  /** One pass appends at most one record and, without a reload, keeps the markers as a
      prefix; it keeps the table's bases. */
  lemma StepMeaning(s: Pass, node: Element, docBase: string, baseDir: Option<string>,
                    reload: bool, doc: Doc, opts: Options, env: Env)
    ensures var r := PlacemarkStep(s, node, docBase, baseDir, reload, doc, opts, env);
            |r.placemarks| >= |s.placemarks| && r.placemarks[..|s.placemarks|] == s.placemarks &&
            (!r.threw ==> !s.threw && |r.placemarks| == |s.placemarks| + 1) &&
            (s.threw ==> r == s) &&
            r.table.Keys == s.table.Keys &&
            (!reload && s.markers.Some? ==>
               (r.markers.Some? && |r.markers.value| >= |s.markers.value| &&
                r.markers.value[..|s.markers.value|] == s.markers.value))
  {
    if !s.threw {
      var built := PlacemarkOf(node, s.table, docBase, baseDir, opts, env);
      if built.Built? && built.placemark.latlng.Some? {
        var p := built.placemark;
        PointMarkerKeeps(s.markers, reload, s.table, p, p.latlng.value, doc, opts, env);
      }
    }
  }

  /** The markers a reload leaves (source lines 686-696): with markers kept from before,
      only the ones the placemark loop reactivated or made survive. */
  function Reconciled(ms: Option<seq<MarkerRec>>, reload: bool): Option<seq<MarkerRec>> {
    if reload && ms.Some? then Some(ActiveOnly(ms.value)) else ms
  }

  /** The markers the placemark loop starts from (source lines 469-473): on a reload every
      kept marker is made inactive. */
  function Deactivated(ms: Option<seq<MarkerRec>>, reload: bool): Option<seq<MarkerRec>> {
    if reload && ms.Some? then Some(AllInactive(ms.value)) else ms
  }

  /** A reload whose document has no point placemark removes every marker it kept. */
  lemma ReloadWithoutPointsClears(ms: seq<MarkerRec>, ns: seq<Element>, t: Table, docBase: string,
                                  baseDir: Option<string>, doc: Doc, opts: Options, env: Env)
    requires forall i :: 0 <= i < |ns| ==> |ParentNames(ns[i], Tag("coordinates"))| == 0
    ensures var r := PlacemarkPass(Pass([], Deactivated(Some(ms), true), t, false), ns,
                                   docBase, baseDir, true, doc, opts, env);
            Reconciled(r.markers, true) == Some([])
  {
    PassWithoutPoints(Pass([], Deactivated(Some(ms), true), t, false), ns, docBase, baseDir, doc, opts, env);
    ReactivatedSurvives0(ms);
  }

  lemma ReactivatedSurvives0(ms: seq<MarkerRec>)
    ensures ActiveOnly(AllInactive(ms)) == []
  {
    if ms != [] {
      ReactivatedSurvives(ms, 0);
    } else {
      assert AllInactive(ms) == [];
    }
  }

  /** Placemarks without coordinates leave the markers and the table alone. */
  lemma {:induction false} PassWithoutPoints(s: Pass, ns: seq<Element>, docBase: string,
                                             baseDir: Option<string>, doc: Doc, opts: Options, env: Env)
    requires forall i :: 0 <= i < |ns| ==> |ParentNames(ns[i], Tag("coordinates"))| == 0
    ensures var r := PlacemarkPass(s, ns, docBase, baseDir, true, doc, opts, env);
            r.markers == s.markers && r.table == s.table
    decreases |ns|
  {
    if ns != [] {
      PassWithoutPoints(s, ns[..|ns| - 1], docBase, baseDir, doc, opts, env);
      var m := PlacemarkPass(s, ns[..|ns| - 1], docBase, baseDir, true, doc, opts, env);
      PlacemarkWithoutCoordinates(ns[|ns| - 1], m.table, docBase, baseDir, opts, env);
    }
  }

  /** The ground-overlay records of a document (source lines 711-748), one per
      `GroundOverlay` element, in order. */
  function OverlaysOf(root: Element, baseDir: Option<string>, env: Env): (r: seq<GroundOverlay>)
    ensures |r| == |ByTag(root, "GroundOverlay")|
  {
    var ns := ByTag(root, "GroundOverlay");
    seq(|ns|, k requires 0 <= k < |ns| => GroundOverlayOf(ns[k], baseDir, env))
  }

  /** The first ground overlay, once pushed, ends `render` with an exception (source
      lines 749-770) on a reload, because the reconciliation calls `bounds()` on the
      plain record just pushed, and otherwise when `createOverlay` returns no overlay
      (lines 1094-1096 and 769-770). */
  predicate OverlaysThrow(root: Element, reload: bool, env: Env) {
    (reload || !env.overlayMade) && |ByTag(root, "GroundOverlay")| > 0
  }

  /** The links `render` loads right away, in document order, with their qualified
      `href`s (source lines 786-845). */
  function LinkHrefs(ns: seq<Element>, num: NumberSyntax, docPath: string): (r: seq<string>)
    ensures |r| <= |ns|
    decreases |ns|
  {
    if ns == [] then []
    else
      var l := QualifiedLink(ns[|ns| - 1], num, docPath);
      LinkHrefs(ns[..|ns| - 1], num, docPath) + (if LoadsOnce(l) then [l.href] else [])
  }

  /** What `render` leaves in a document that has no pending dependency: the style
      table, the placemark records, the markers, the ground-overlay records, and
      whether an exception ended it. */
  datatype Content = Content(table: Table, placemarks: seq<Placemark>, markers: Option<seq<MarkerRec>>,
                             overlays: seq<GroundOverlay>, threw: bool)

  /** The phases of `render` after the dependency scan (source lines 445-783), from a
      document whose records were just reset: the style phase; the markers made
      inactive on a reload; the placemark loop; the inactive markers spliced out; the
      ground overlays, the first of which throws on a reload or when no overlay is
      made. An exception ends it with
      what was done so far. */
  function ContentOf(t: Table, ms: Option<seq<MarkerRec>>, root: Element, key: string,
                     baseDir: Option<string>, reload: bool, doc: Doc, opts: Options, env: Env): Content
  {
    match StylePhase(t, root, key, baseDir, opts, env)
    case MapThrew(t1) => Content(t1, [], ms, [], true)
    case Mapped(t1) =>
      var r := PlacemarkPass(Pass([], Deactivated(ms, reload), t1, false), ByTag(root, "Placemark"),
                             key, baseDir, reload, doc, opts, env);
      if r.threw then Content(r.table, r.placemarks, r.markers, [], true)
      else
        var os := OverlaysOf(root, baseDir, env);
        if OverlaysThrow(root, reload, env) then Content(r.table, r.placemarks, Reconciled(r.markers, reload), os[..1], true)
        else Content(r.table, r.placemarks, Reconciled(r.markers, reload), os, false)
  }

  /** Without an overlay from `createOverlay`, a document with a ground overlay never
      gets through `render`: at most the first overlay record is kept. */
  lemma OverlayNotMadeThrows(t: Table, ms: Option<seq<MarkerRec>>, root: Element, key: string,
                             baseDir: Option<string>, reload: bool, doc: Doc, opts: Options, env: Env)
    requires !env.overlayMade && |ByTag(root, "GroundOverlay")| > 0
    ensures var c := ContentOf(t, ms, root, key, baseDir, reload, doc, opts, env);
            c.threw && |c.overlays| <= 1
  {
  }

  /** A rendered document: the table gains the document's base and no other; without an
      exception there is one record per `Placemark` and per `GroundOverlay` element, in
      order; an exception has a cause: a `StyleMap`, a placemark whose geometry threw
      (so fewer records than placemarks), or a ground overlay on a reload or when no
      overlay is made. */
  lemma ContentMeaning(t: Table, ms: Option<seq<MarkerRec>>, root: Element, key: string,
                       baseDir: Option<string>, reload: bool, doc: Doc, opts: Options, env: Env)
    ensures var c := ContentOf(t, ms, root, key, baseDir, reload, doc, opts, env);
            c.table.Keys == t.Keys + {key} &&
            c.overlays <= OverlaysOf(root, baseDir, env) &&
            (!c.threw ==> |c.placemarks| == |ByTag(root, "Placemark")| &&
                          c.overlays == OverlaysOf(root, baseDir, env)) &&
            (c.threw ==> |ByTag(root, "StyleMap")| > 0 || |c.placemarks| < |ByTag(root, "Placemark")| ||
                         OverlaysThrow(root, reload, env))
  {
    StylePhaseMeaning(t, root, key, baseDir, opts, env);
    var sp := StylePhase(t, root, key, baseDir, opts, env);
    if sp.Mapped? {
      var ps := ByTag(root, "Placemark");
      var s := Pass([], Deactivated(ms, reload), sp.table, false);
      PlacemarkPassMeaning(s, ps, key, baseDir, reload, doc, opts, env);
      PlacemarkPassShort(s, ps, key, baseDir, reload, doc, opts, env);
    }
  }

  /** Without a reload the markers kept from before stay first. */
  lemma ContentKeepsMarkers(t: Table, ms: Option<seq<MarkerRec>>, root: Element, key: string,
                            baseDir: Option<string>, reload: bool, doc: Doc, opts: Options, env: Env)
    requires !reload && ms.Some?
    ensures var c := ContentOf(t, ms, root, key, baseDir, reload, doc, opts, env);
            c.markers.Some? && ms.value <= c.markers.value
  {
    var sp := StylePhase(t, root, key, baseDir, opts, env);
    if sp.Mapped? {
      var ps := ByTag(root, "Placemark");
      var s := Pass([], ms, sp.table, false);
      var r := PlacemarkPass(s, ps, key, baseDir, false, doc, opts, env);
      PlacemarkPassMeaning(s, ps, key, baseDir, false, doc, opts, env);
      assert ms.value <= r.markers.value by {
        assert r.markers.value[..|ms.value|] == ms.value;
      }
    }
  }

  /** On a reload, a document without coordinates keeps no marker. */
  lemma ContentClearsMarkers(t: Table, ms: seq<MarkerRec>, root: Element, key: string,
                             baseDir: Option<string>, doc: Doc, opts: Options, env: Env)
    requires var ps := ByTag(root, "Placemark");
             forall i :: 0 <= i < |ps| ==> |ParentNames(ps[i], Tag("coordinates"))| == 0
    ensures var c := ContentOf(t, Some(ms), root, key, baseDir, true, doc, opts, env);
            !c.threw ==> c.markers == Some([])
  {
    var sp := StylePhase(t, root, key, baseDir, opts, env);
    if sp.Mapped? {
      ReloadWithoutPointsClears(ms, ByTag(root, "Placemark"), sp.table, key, baseDir, doc, opts, env);
    }
  }
}

=== FILE: styles.dfy ===
/** The default style, `styleUrl` splitting, and what one `processStyle` pass does to a
    style record: each style block present in the node overwrites the fields it names,
    and everything else keeps its value. */
module Styles {
  import opened Wrappers
  import opened Xml
  import opened Text
  import opened Numbers
  import opened Coords
  import opened Model

  /** The default balloon text, `<h3>$[name]</h3>\n<div>$>[description]</div>\n<div>$[geDirections]</div>`,
      written as the pieces the `$[var]` substitution sees. */
  const DefaultBalloonText: string :=
    "<h3>" + ("$[name]" + ("</h3>\n<div>" + ("$>[description]</div>\n<div>" + ("$[geDirections]" + "</div>"))))

  /** `DEFAULTSTYLE`, the record every style slot and every unstyled placemark starts
      from. */
  const DefaultStyle: Style :=
    Style(Balloon("ffffffff", "ff000000", DefaultBalloonText, "default"),
          Icon(Some(1.0), Dim(Some(0), Some(0), Some(-1), Some(-1), None, false),
               HotSpot(Some(0.5), Some(0.5), Some("fraction"), Some("fraction")),
               "", "", None, None, None, None),
          LineStyle("ffffffff", "normal", Number(1.0)),
          PolyStyle("ffffffff", "normal", true, true),
          None)

  /** The default line is one unit wide, white, in normal colour mode; the default icon
      is unscaled and its width and height are the "size unknown" sentinel that the
      parser tests with `< 0`; the default polygon is filled and outlined. */
  lemma DefaultStyleFacts()
    ensures DefaultStyle.line == LineStyle("ffffffff", "normal", Number(1.0))
    ensures DefaultStyle.icon.scale == Some(1.0)
    ensures DefaultStyle.icon.dim.x == Some(0) && DefaultStyle.icon.dim.y == Some(0)
    ensures IsNegative(DefaultStyle.icon.dim.w) && IsNegative(DefaultStyle.icon.dim.h)
    ensures DefaultStyle.poly.fill && DefaultStyle.poly.outline
    ensures DefaultStyle.poly.color == "ffffffff" && DefaultStyle.poly.colorMode == "normal"
  {
  }

  /** `processStyleUrl(node)`: the text of the first `styleUrl` descendant split at every
      `#` when it contains one, and `["", ""]` otherwise. */
  function ProcessStyleUrl(node: Element): (r: seq<string>)
    ensures |r| >= 2
  {
    var s := ChildValue(node, "styleUrl", "");
    if s != [] && IndexOf(s, '#') < |s| then Split(s, '#') else ["", ""]
  }

  /** A `styleUrl` without `#` gives two empty parts; one with `#` gives the document
      part before the first `#` and the id after it, and joining the parts with `#`
      gives the text back. */
  lemma {:induction false} ProcessStyleUrlMeaning(node: Element)
    ensures var s := ChildValue(node, "styleUrl", "");
            var r := ProcessStyleUrl(node);
            ('#' !in s ==> r == ["", ""]) &&
            ('#' in s ==> Join(r, '#') == s
                          && r[0] == s[..IndexOf(s, '#')] && '#' !in r[0]
                          && StartsWith(s[IndexOf(s, '#') + 1..], r[1]) && '#' !in r[1])
  {
    var s := ChildValue(node, "styleUrl", "");
    var i := IndexOf(s, '#');
    IndexOfMeaning(s, '#');
    if '#' in s {
      var k :| 0 <= k < |s| && s[k] == '#';
      assert i < |s|;
      SplitJoin(s, '#');
      var r := Split(s, '#');
      var t := s[i + 1..];
      assert r == [s[..i]] + Split(t, '#');
      var j := IndexOf(t, '#');
      IndexOfMeaning(t, '#');
      assert r[1] == Split(t, '#')[0];
      assert Split(t, '#')[0] == t[..j];
    }
  }

  /** `parseFloat(nodeValue(child, current))`: an absent node keeps the current number
      (`parseFloat` of a number's own text is that number). */
  function FloatField(n: Element, tag: string, current: Num, num: NumberSyntax): Num {
    match FirstByTag(n, tag)
    case None => current
    case Some(e) => num.parseFloat(e.text)
  }

  /** `parseInt(nodeValue(gx child, current))`, with the same reading for an absent
      node. */
  function IntField(n: Element, tag: string, current: Option<int>, num: NumberSyntax): Option<int> {
    match First(ByTagNS(n, GX_NS, tag))
    case None => current
    case Some(e) => num.parseInt(e.text)
  }

  /** `getBooleanValue(node, default)`: the default when the node is absent. */
  function BoolField(n: Element, tag: string, current: bool, env: Env): bool {
    match FirstByTag(n, tag)
    case None => current
    case Some(e) => env.booleanText(e.text, current)
  }

  /** A `hotSpot` element's attributes: a missing `x` or `y` is `null`, which the icon
      arithmetic reads as 0. */
  function HotSpotOf(h: Element, num: NumberSyntax): HotSpot {
    HotSpot(if "x" in h.attrs then num.toNumber(h.attrs["x"]) else Some(0.0),
            if "y" in h.attrs then num.toNumber(h.attrs["y"]) else Some(0.0),
            Attr(h, "xunits"), Attr(h, "yunits"))
  }

  /** The `BalloonStyle` block: each of the four fields is the text of its child in the
      first `BalloonStyle` descendant, or keeps its value when there is no such child or
      no such block. */
  function ApplyBalloon(b: Balloon, node: Element): (r: Balloon)
    ensures |ByTag(node, "BalloonStyle")| == 0 ==> r == b
    ensures |ByTag(node, "BalloonStyle")| > 0 ==>
              var n := ByTag(node, "BalloonStyle")[0];
              (FirstByTag(n, "bgColor").None? ==> r.bgColor == b.bgColor) &&
              (FirstByTag(n, "bgColor").Some? ==> r.bgColor == FirstByTag(n, "bgColor").value.text) &&
              (FirstByTag(n, "textColor").None? ==> r.textColor == b.textColor) &&
              (FirstByTag(n, "textColor").Some? ==> r.textColor == FirstByTag(n, "textColor").value.text) &&
              (FirstByTag(n, "text").None? ==> r.text == b.text) &&
              (FirstByTag(n, "text").Some? ==> r.text == FirstByTag(n, "text").value.text) &&
              (FirstByTag(n, "displayMode").None? ==> r.displayMode == b.displayMode) &&
              (FirstByTag(n, "displayMode").Some? ==> r.displayMode == FirstByTag(n, "displayMode").value.text)
  {
    var bs := ByTag(node, "BalloonStyle");
    if |bs| == 0 then b
    else
      var n := bs[0];
      Balloon(ChildValue(n, "bgColor", b.bgColor), ChildValue(n, "textColor", b.textColor),
              ChildValue(n, "text", b.text), ChildValue(n, "displayMode", b.displayMode))
  }

  /** What a loaded image tells the icon (source lines 231-236, 926-931, 948-953): its
      size when either cell dimension is still unknown (negative), otherwise only its
      height, kept as `th` for the palette row flip. */
  function RecordSize(dim: Dim, width: int, height: int): (r: Dim)
    ensures r.x == dim.x && r.y == dim.y && r.whGuess == dim.whGuess
    ensures IsNegative(dim.w) || IsNegative(dim.h) ==>
              r.w == Some(width) && r.h == Some(height) && r.th == dim.th
    ensures !(IsNegative(dim.w) || IsNegative(dim.h)) ==>
              r.w == dim.w && r.h == dim.h && r.th == Some(height)
  {
    if IsNegative(dim.w) || IsNegative(dim.h) then dim.(w := Some(width), h := Some(height))
    else dim.(th := Some(height))
  }

  /** The image part of an `IconStyle` (source lines 207-250): the `Icon` element's
      `href`, its URL resolved against the directory (and replaced by the archive's data
      URL when there is one), a fresh `dim` (the `gx:` cell fields, keeping the current
      value where absent; no `th`, no guess), and a new image whose size is recorded at
      once when the host reports a width. */
  function IconImage(icon: Icon, iconNode: Element, baseDir: Option<string>, env: Env): (r: Icon)
    ensures r.scale == icon.scale && r.hotSpot == icon.hotSpot
    ensures r.marker == icon.marker && r.shadow == icon.shadow && r.backlog == icon.backlog
    ensures r.href == ChildValue(iconNode, "href", "")
    ensures r.img.Some? && r.img.value.onload == RecordDims
    ensures r.dim.x == IntField(iconNode, "x", icon.dim.x, env.num)
    ensures r.dim.y == IntField(iconNode, "y", icon.dim.y, env.num)
    ensures !r.dim.whGuess
    ensures r.img.value.width <= 0 ==>
              r.dim.w == IntField(iconNode, "w", icon.dim.w, env.num) &&
              r.dim.h == IntField(iconNode, "h", icon.dim.h, env.num) && r.dim.th.None?
  {
    var href := ChildValue(iconNode, "href", "");
    var url0 := env.cleanURL(baseDir, href);
    var url := if url0 in env.dataUrls then env.dataUrls[url0] else url0;
    var dim := Dim(IntField(iconNode, "x", icon.dim.x, env.num),
                   IntField(iconNode, "y", icon.dim.y, env.num),
                   IntField(iconNode, "w", icon.dim.w, env.num),
                   IntField(iconNode, "h", icon.dim.h, env.num), None, false);
    var img := env.probe(url).(onload := RecordDims);
    var dim' := if img.width > 0 then RecordSize(dim, img.width, img.height) else dim;
    icon.(href := href, url := url, dim := dim', img := Some(img))
  }

  /** The `IconStyle` block: the scale and hot spot are replaced only when given, and the
      image part only when the style node has an `Icon` descendant (searched in the whole
      style node, not just the block). */
  function ApplyIcon(icon: Icon, node: Element, baseDir: Option<string>, env: Env): (r: Icon)
    ensures |ByTag(node, "IconStyle")| == 0 ==> r == icon
    ensures |ByTag(node, "IconStyle")| > 0 ==>
              var n := ByTag(node, "IconStyle")[0];
              r.scale == FloatField(n, "scale", icon.scale, env.num) &&
              (|ByTag(n, "hotSpot")| == 0 ==> r.hotSpot == icon.hotSpot) &&
              (|ByTag(n, "hotSpot")| > 0 ==> r.hotSpot == HotSpotOf(ByTag(n, "hotSpot")[0], env.num)) &&
              (|ByTag(node, "Icon")| == 0 ==>
                 r.href == icon.href && r.url == icon.url && r.dim == icon.dim && r.img == icon.img) &&
              r.marker == icon.marker && r.shadow == icon.shadow && r.backlog == icon.backlog
  {
    var iss := ByTag(node, "IconStyle");
    if |iss| == 0 then icon
    else
      var n := iss[0];
      var hs := ByTag(n, "hotSpot");
      var icon' := icon.(scale := FloatField(n, "scale", icon.scale, env.num),
                         hotSpot := if |hs| > 0 then HotSpotOf(hs[0], env.num) else icon.hotSpot);
      var icons := ByTag(node, "Icon");
      if |icons| == 0 then icon' else IconImage(icon', icons[0], baseDir, env)
  }

  /** The `LineStyle` block: colour, colour mode and width (as node text) replaced only
      where given. */
  function ApplyLine(l: LineStyle, node: Element): (r: LineStyle)
    ensures |ByTag(node, "LineStyle")| == 0 ==> r == l
    ensures |ByTag(node, "LineStyle")| > 0 ==>
              var n := ByTag(node, "LineStyle")[0];
              r.color == ChildValue(n, "color", l.color) &&
              r.colorMode == ChildValue(n, "colorMode", l.colorMode) &&
              (FirstByTag(n, "width").None? ==> r.width == l.width) &&
              (FirstByTag(n, "width").Some? ==> r.width == Text(FirstByTag(n, "width").value.text))
  {
    var ls := ByTag(node, "LineStyle");
    if |ls| == 0 then l
    else
      var n := ls[0];
      LineStyle(ChildValue(n, "color", l.color), ChildValue(n, "colorMode", l.colorMode),
                match FirstByTag(n, "width") case None => l.width case Some(e) => Text(e.text))
  }

  /** The `PolyStyle` block: colour, colour mode, outline and fill replaced only where
      given. */
  function ApplyPoly(p: PolyStyle, node: Element, env: Env): (r: PolyStyle)
    ensures |ByTag(node, "PolyStyle")| == 0 ==> r == p
    ensures |ByTag(node, "PolyStyle")| > 0 ==>
              var n := ByTag(node, "PolyStyle")[0];
              r.color == ChildValue(n, "color", p.color) &&
              r.colorMode == ChildValue(n, "colorMode", p.colorMode) &&
              (FirstByTag(n, "outline").None? ==> r.outline == p.outline) &&
              (FirstByTag(n, "fill").None? ==> r.fill == p.fill)
  {
    var ps := ByTag(node, "PolyStyle");
    if |ps| == 0 then p
    else
      var n := ps[0];
      PolyStyle(ChildValue(n, "color", p.color), ChildValue(n, "colorMode", p.colorMode),
                BoolField(n, "fill", p.fill, env), BoolField(n, "outline", p.outline, env))
  }

  /** The overwrites `processStyle` applies to a style record for one style node. */
  function ApplyStyleNode(s: Style, node: Element, baseDir: Option<string>, env: Env): (r: Style)
    ensures r.pairs == s.pairs
    ensures r.balloon == ApplyBalloon(s.balloon, node)
    ensures r.icon == ApplyIcon(s.icon, node, baseDir, env)
    ensures r.line == ApplyLine(s.line, node)
    ensures r.poly == ApplyPoly(s.poly, node, env)
  {
    s.(balloon := ApplyBalloon(s.balloon, node), icon := ApplyIcon(s.icon, node, baseDir, env),
       line := ApplyLine(s.line, node), poly := ApplyPoly(s.poly, node, env))
  }

  /** A node with no style blocks changes nothing: this is what a `StyleMap` pair whose
      `Style` is passed as text amounts to. */
  lemma ApplyChildless(s: Style, node: Element, baseDir: Option<string>, env: Env)
    requires node.children == []
    ensures ApplyStyleNode(s, node, baseDir, env) == s
  {
    SelectChildless(node, Tag("BalloonStyle"));
    SelectChildless(node, Tag("IconStyle"));
    SelectChildless(node, Tag("LineStyle"));
    SelectChildless(node, Tag("PolyStyle"));
  }
}

=== FILE: styletable.dfy ===
/** The parser's style table, `styles[base][id]`: one map of style slots per document
    base URL. `processStyle` fetches or creates a slot and overwrites what a style node
    gives; `processStyleMap` resolves a `StyleMap`'s pairs into the map's own slot;
    `processStyles` runs the icon processing over one document's slots. Each is stated
    here on table values; the parser object applies them to its `styles` field. */
module StyleTable {
  import opened Wrappers
  import opened Xml
  import opened Model
  import opened Styles
  import opened Icons

  type Table = map<string, map<string, Style>>

  /** The base name `render` passes for a placemark's inline style. */
  const Inline: string := "{inline}"

  /** `styles[base][id]` is set. */
  predicate HasSlot(t: Table, base: string, id: string) {
    base in t && id in t[base]
  }

  /** The style a placemark's style reference stands for in the table. */
  function StyleOf(t: Table, r: StyleRef): Style {
    match r
    case Shared(b, i) => if HasSlot(t, b, i) then t[b][i] else DefaultStyle
    case Own(s) => s
  }

  /** `styles[base][id] = s`, which needs `styles[base]`. */
  function Store(t: Table, base: string, id: string, s: Style): Table
    requires base in t
  {
    t[base := t[base][id := s]]
  }

  /** Storing into a slot sets that slot and leaves every other slot as it was, present
      or absent. */
  lemma StoreFrame(t: Table, base: string, id: string, s: Style)
    requires base in t
    ensures var r := Store(t, base, id, s);
            HasSlot(r, base, id) && r[base][id] == s && r.Keys == t.Keys &&
            forall b, i :: (b != base || i != id) ==>
              (HasSlot(r, b, i) <==> HasSlot(t, b, i)) && (HasSlot(t, b, i) ==> r[b][i] == t[b][i])
  {
  }

  /** What `processStyle` returns and leaves in the table, or `NoTable` when it reads a
      slot of a base that has no table (a `TypeError`). */
  datatype StyleResult = Styled(table: Table, style: Style) | NoTable

  /** `processStyle(node, base, id, baseDir)` (source lines 175-274): an inline style is
      a fresh copy of the default with the node's overwrites; any other style is the
      slot, created from a copy of the default when absent, overwritten in place. */
  function ProcessStyleOf(t: Table, node: Element, base: string, id: string,
                          baseDir: Option<string>, env: Env): StyleResult
  {
    if base == Inline then Styled(t, ApplyStyleNode(DefaultStyle, node, baseDir, env))
    else if base !in t then NoTable
    else
      var s := ApplyStyleNode(if id in t[base] then t[base][id] else DefaultStyle, node, baseDir, env);
      Styled(Store(t, base, id, s), s)
  }

  /** An inline style leaves the table alone. Any other style fails exactly when its
      base has no table; otherwise the slot is the returned style, every other slot is
      unchanged, the slot is created only when it was absent, and a style block the
      node lacks leaves the slot's block (or the default's) as it was. */
  lemma ProcessStyleMeaning(t: Table, node: Element, base: string, id: string,
                            baseDir: Option<string>, env: Env)
    ensures var r := ProcessStyleOf(t, node, base, id, baseDir, env);
            (r.NoTable? <==> base != Inline && base !in t) &&
            (base == Inline ==> r.table == t && r.style.pairs.None?)
    ensures var r := ProcessStyleOf(t, node, base, id, baseDir, env);
            base != Inline && base in t ==>
              var prior := if HasSlot(t, base, id) then t[base][id] else DefaultStyle;
              HasSlot(r.table, base, id) && r.table[base][id] == r.style &&
              r.table.Keys == t.Keys &&
              (HasSlot(t, base, id) ==> r.table[base].Keys == t[base].Keys) &&
              (forall b, i :: (b != base || i != id) ==>
                 (HasSlot(r.table, b, i) <==> HasSlot(t, b, i)) &&
                 (HasSlot(t, b, i) ==> r.table[b][i] == t[b][i])) &&
              r.style.pairs == prior.pairs &&
              (|ByTag(node, "BalloonStyle")| == 0 ==> r.style.balloon == prior.balloon) &&
              (|ByTag(node, "IconStyle")| == 0 ==> r.style.icon == prior.icon) &&
              (|ByTag(node, "LineStyle")| == 0 ==> r.style.line == prior.line) &&
              (|ByTag(node, "PolyStyle")| == 0 ==> r.style.poly == prior.poly)
  {
    if base != Inline && base in t {
      var prior := if HasSlot(t, base, id) then t[base][id] else DefaultStyle;
      var s := ApplyStyleNode(prior, node, baseDir, env);
      StoreFrame(t, base, id, s);
    }
  }

  /** A base with a table never throws, and the bases stay as they were. */
  lemma ProcessStyleKeys(t: Table, node: Element, base: string, id: string,
                         baseDir: Option<string>, env: Env)
    requires base in t
    ensures var r := ProcessStyleOf(t, node, base, id, baseDir, env);
            r.Styled? && r.table.Keys == t.Keys
  {
    if base != Inline {
      var s := ApplyStyleNode(if id in t[base] then t[base][id] else DefaultStyle, node, baseDir, env);
      StoreFrame(t, base, id, s);
    }
  }

  /** An entry of a `StyleMap` under construction: the slot object itself (a pair whose
      `Style` is given is the slot `processStyle` returns) or a copy of a slot's value
      (a pair that refers to a style). */
  datatype PairEntry = FromSlot(base: string, id: string) | Copy(style: Style)

  /** What `processStyleMap` reads from one `Pair`: its `key`, the text of its `Style`
      element, and the slot its `styleUrl` names, the map's own base when the URL has
      no document part. */
  datatype PairRead = PairRead(key: string, styleText: string, base: string, id: string)

  function ReadPair(pair: Element, base: string, baseDir: Option<string>, env: Env): PairRead {
    var url := ProcessStyleUrl(pair);
    PairRead(ChildValue(pair, "key", ""), ChildValue(pair, "Style", ""),
             if url[0] != "" then env.cleanURL(baseDir, url[0]) else base, url[1])
  }

  /** A pair that names no document is looked up in the map's own base; one that does
      is looked up in that document resolved against the directory. */
  lemma ReadPairBase(pair: Element, base: string, baseDir: Option<string>, env: Env)
    ensures var url := ProcessStyleUrl(pair);
            var p := ReadPair(pair, base, baseDir, env);
            p.id == url[1] &&
            (url[0] == "" ==> p.base == base) &&
            (url[0] != "" ==> p.base == env.cleanURL(baseDir, url[0]))
  {
  }

  /** The table and the entries collected so far, or the `TypeError` of reading a slot
      of a base that has no table, with the table as the exception leaves it. */
  datatype Collected = Collected(table: Table, entries: map<string, PairEntry>) | NoPairTable(table: Table)

  /** One pair (source lines 298-310). A pair with `Style` text goes through
      `processStyle` with that text; text has no style blocks, so the call only fetches
      or creates the slot (`ApplyChildless`), and the entry is the slot itself. A pair
      with only a reference gets a copy of the slot it names when that slot exists. */
  function AddPair(c: Collected, p: PairRead): Collected {
    match c
    case NoPairTable(_) => c
    case Collected(t, m) =>
      if p.styleText != "" then
        if p.base == Inline then Collected(t, m[p.key := Copy(DefaultStyle)])
        else if p.base !in t then NoPairTable(t)
        else Collected(if p.id in t[p.base] then t else Store(t, p.base, p.id, DefaultStyle),
                       m[p.key := FromSlot(p.base, p.id)])
      else if p.id != "" then
        if p.base !in t then NoPairTable(t)
        else if p.id in t[p.base] then Collected(t, m[p.key := Copy(t[p.base][p.id])])
        else c
      else c
  }

  /** The pairs taken in document order. */
  function CollectPairs(c: Collected, ps: seq<PairRead>): Collected
    decreases |ps|
  {
    if ps == [] then c else AddPair(CollectPairs(c, ps[..|ps| - 1]), ps[|ps| - 1])
  }

  /** A reference-only pair is added exactly when the slot it names exists, as a copy of
      that slot, and then changes nothing else; one naming no id is skipped; with
      `Style` text, the entry is the slot, created when absent. */
  lemma AddPairMeaning(t: Table, m: map<string, PairEntry>, p: PairRead)
    ensures var r := AddPair(Collected(t, m), p);
            (p.styleText == "" && p.id == "" ==> r == Collected(t, m)) &&
            (p.styleText == "" && p.id != "" && p.base in t ==>
               r.Collected? && r.table == t &&
               (p.key in r.entries <==> p.key in m || p.id in t[p.base]) &&
               (p.id in t[p.base] ==> r.entries == m[p.key := Copy(t[p.base][p.id])]) &&
               (p.id !in t[p.base] ==> r.entries == m))
    ensures var r := AddPair(Collected(t, m), p);
            p.styleText != "" && p.base != Inline && p.base in t ==>
              r.Collected? && HasSlot(r.table, p.base, p.id) &&
              r.table[p.base][p.id] == (if HasSlot(t, p.base, p.id) then t[p.base][p.id] else DefaultStyle) &&
              r.entries == m[p.key := FromSlot(p.base, p.id)]
    ensures (p.styleText != "" || p.id != "") && p.base != Inline && p.base !in t ==>
              AddPair(Collected(t, m), p).NoPairTable?
  {
  }

  /** The value an entry has in the table `t`. */
  function EntryValue(t: Table, e: PairEntry): Style {
    match e
    case FromSlot(b, i) => if HasSlot(t, b, i) then t[b][i] else DefaultStyle
    case Copy(s) => s
  }

  /** The icon processing `processStyleID` applies to a whole style. */
  function WithProcessedIcon(s: Style, env: Env): Style {
    s.(icon := ProcessStyleID(s.icon, env))
  }

  /** Where the entries stand once the map's own slot has been replaced: `detached` is
      the value of the object the slot held before, which entries taken from that slot
      still refer to. */
  datatype Resolved = Resolved(table: Table, entries: map<string, PairEntry>, detached: Style)

  /** Which object an entry refers to once the map's own slot `(base, id)` has been
      replaced: the replaced object for an entry taken from that slot, the table slot for
      any other entry taken from a slot, the entry's own copy otherwise. */
  function FinalValue(r: Resolved, base: string, id: string, e: PairEntry): Style {
    if e == FromSlot(base, id) then r.detached else EntryValue(r.table, e)
  }

  /** The `normal` entry's value, or the default without one. */
  function Normal(t: Table, m: map<string, PairEntry>): Style {
    if "normal" in m then EntryValue(t, m["normal"]) else DefaultStyle
  }

  /** The map's own slot replaced by a copy of the `normal` value (source lines
      312-315); the object it held before stays referenced by the entries. */
  function Replaced(t: Table, m: map<string, PairEntry>, base: string, id: string): (r: Resolved)
    requires base in t
    ensures HasSlot(r.table, base, id) && r.table[base][id] == Normal(t, m)
    ensures r.table.Keys == t.Keys && r.entries == m
    ensures r.detached == if HasSlot(t, base, id) then t[base][id] else DefaultStyle
    ensures forall b, i :: (b != base || i != id) ==>
              (HasSlot(r.table, b, i) <==> HasSlot(t, b, i)) && (HasSlot(t, b, i) ==> r.table[b][i] == t[b][i])
  {
    StoreFrame(t, base, id, Normal(t, m));
    Resolved(Store(t, base, id, Normal(t, m)), m, if HasSlot(t, base, id) then t[base][id] else DefaultStyle)
  }

  /** The `highlight` step (source lines 316-318): when `processStyles` is set,
      `processStyleID` is applied in place to the object the `highlight` entry refers
      to. It keeps the bases, the entry keys and the map's own slot. */
  function Highlighted(r: Resolved, base: string, id: string, processStyles: bool, env: Env): (a: Resolved)
    requires HasSlot(r.table, base, id)
    ensures a.table.Keys == r.table.Keys && HasSlot(a.table, base, id)
    ensures a.table[base][id] == r.table[base][id] && a.entries.Keys == r.entries.Keys
    ensures !(processStyles && "highlight" in r.entries) ==> a == r
  {
    if !(processStyles && "highlight" in r.entries) then r
    else
      match r.entries["highlight"]
      case Copy(s) => r.(entries := r.entries["highlight" := Copy(WithProcessedIcon(s, env))])
      case FromSlot(b, i) =>
        if b == base && i == id then r.(detached := WithProcessedIcon(r.detached, env))
        else if HasSlot(r.table, b, i) then
          StoreFrame(r.table, b, i, WithProcessedIcon(r.table[b][i], env));
          r.(table := Store(r.table, b, i, WithProcessedIcon(r.table[b][i], env)))
        else r
  }

  /** The copy of the entries stored on the map's slot. */
  function StoredPairs(a: Resolved, base: string, id: string): (r: map<string, Style>)
    ensures r.Keys == a.entries.Keys
  {
    map k | k in a.entries :: FinalValue(a, base, id, a.entries[k])
  }

  /** The outcome of `processStyleMap` (or of several): the table, or the `TypeError` of
      a missing base with the table as it was then. */
  datatype MapResult = Mapped(table: Table) | MapThrew(table: Table)

  /** `processStyleMap` after its pairs are collected (source lines 312-319): the map's
      slot becomes a copy of the `normal` entry, or of the default without one; the
      `highlight` entry's icon is processed when `processStyles` is set; and a copy of
      the entries is stored on the slot. */
  function FinishStyleMap(c: Collected, base: string, id: string, processStyles: bool, env: Env): MapResult {
    if c.NoPairTable? || base !in c.table then MapThrew(c.table)
    else
      var a := Highlighted(Replaced(c.table, c.entries, base, id), base, id, processStyles, env);
      Mapped(Store(a.table, base, id, a.table[base][id].(pairs := Some(StoredPairs(a, base, id)))))
  }

  /** The `Pair` elements of a `StyleMap`, read in document order. */
  function PairReads(node: Element, base: string, baseDir: Option<string>, env: Env): (r: seq<PairRead>)
    ensures |r| == |ByTag(node, "Pair")|
  {
    var ps := ByTag(node, "Pair");
    seq(|ps|, k requires 0 <= k < |ps| => ReadPair(ps[k], base, baseDir, env))
  }

  /** The whole of `processStyleMap(node, base, id, baseDir)`. */
  function ProcessStyleMapOf(t: Table, node: Element, base: string, id: string,
                             baseDir: Option<string>, processStyles: bool, env: Env): MapResult
  {
    FinishStyleMap(CollectPairs(Collected(t, map[]), PairReads(node, base, baseDir, env)), base, id, processStyles, env)
  }

  /** The map's slot is the `normal` entry's value (the default without one) carrying a
      copy of every entry. */
  lemma FinishStyleMapSlot(t: Table, m: map<string, PairEntry>, base: string, id: string,
                           processStyles: bool, env: Env)
    requires base in t
    ensures var r := FinishStyleMap(Collected(t, m), base, id, processStyles, env);
            var normal := if "normal" in m then EntryValue(t, m["normal"]) else DefaultStyle;
            r.Mapped? && HasSlot(r.table, base, id) && r.table.Keys == t.Keys &&
            r.table[base][id].pairs.Some? && r.table[base][id].pairs.value.Keys == m.Keys &&
            r.table[base][id] == normal.(pairs := r.table[base][id].pairs)
  {
    var a := Highlighted(Replaced(t, m, base, id), base, id, processStyles, env);
    StoreFrame(a.table, base, id, a.table[base][id].(pairs := Some(StoredPairs(a, base, id))));
  }

  /** Without a `highlight` step, no slot but the map's own changes, and the stored
      entries are the entries' values: a copy's own value, the slot's value for an entry
      taken from a slot, and the slot's previous value for an entry taken from the map's
      own slot. */
  lemma FinishStyleMapFrame(t: Table, m: map<string, PairEntry>, base: string, id: string,
                            processStyles: bool, env: Env)
    requires base in t && !(processStyles && "highlight" in m)
    ensures var r := FinishStyleMap(Collected(t, m), base, id, processStyles, env);
            var old0 := if HasSlot(t, base, id) then t[base][id] else DefaultStyle;
            r.Mapped? && HasSlot(r.table, base, id) && r.table[base][id].pairs.Some? &&
            (forall b, i :: (b != base || i != id) ==>
               (HasSlot(r.table, b, i) <==> HasSlot(t, b, i)) &&
               (HasSlot(t, b, i) ==> r.table[b][i] == t[b][i])) &&
            forall k :: k in m ==>
              r.table[base][id].pairs.value[k] == (if m[k] == FromSlot(base, id) then old0 else EntryValue(t, m[k]))
  {
    var a := Replaced(t, m, base, id);
    var pairs := StoredPairs(a, base, id);
    StoreFrame(a.table, base, id, a.table[base][id].(pairs := Some(pairs)));
    forall k | k in m
      ensures pairs[k] == (if m[k] == FromSlot(base, id) then a.detached else EntryValue(t, m[k]))
    {
      if m[k] != FromSlot(base, id) && m[k].FromSlot? {
        var b, i := m[k].base, m[k].id;
        assert HasSlot(a.table, b, i) <==> HasSlot(t, b, i);
      }
    }
  }

  /** With `processStyles`, a `highlight` entry that is a copy is stored with its icon
      processed. */
  lemma FinishStyleMapHighlight(t: Table, m: map<string, PairEntry>, base: string, id: string, env: Env)
    requires base in t && "highlight" in m && m["highlight"].Copy?
    ensures var r := FinishStyleMap(Collected(t, m), base, id, true, env);
            r.Mapped? && HasSlot(r.table, base, id) && r.table[base][id].pairs.Some? &&
            "highlight" in r.table[base][id].pairs.value &&
            r.table[base][id].pairs.value["highlight"] == WithProcessedIcon(m["highlight"].style, env)
  {
    var a := Highlighted(Replaced(t, m, base, id), base, id, true, env);
    assert a.entries["highlight"] == Copy(WithProcessedIcon(m["highlight"].style, env));
    StoreFrame(a.table, base, id, a.table[base][id].(pairs := Some(StoredPairs(a, base, id))));
  }

  /** Once a pair has thrown, the later pairs change nothing. */
  lemma {:induction false} CollectPairsThrown(c: Collected, ps: seq<PairRead>, j: nat)
    requires j <= |ps| && CollectPairs(c, ps[..j]).NoPairTable?
    ensures CollectPairs(c, ps) == CollectPairs(c, ps[..j])
    decreases |ps|
  {
    if j == |ps| {
      assert ps[..j] == ps;
    } else {
      var ps' := ps[..|ps| - 1];
      assert ps'[..j] == ps[..j];
      CollectPairsThrown(c, ps', j);
    }
  }

  /** Collecting pairs never adds or removes a base, whether or not it throws. */
  lemma {:induction false} CollectPairsKeys(c: Collected, ps: seq<PairRead>)
    ensures CollectPairs(c, ps).table.Keys == c.table.Keys
    decreases |ps|
  {
    if ps != [] {
      var c' := CollectPairs(c, ps[..|ps| - 1]);
      CollectPairsKeys(c, ps[..|ps| - 1]);
      var p := ps[|ps| - 1];
      if c'.Collected? && p.styleText != "" && p.base != Inline && p.base in c'.table {
        StoreFrame(c'.table, p.base, p.id, DefaultStyle);
      }
    }
  }

  /** `processStyleMap` never adds or removes a base, whether it completes or throws; it
      throws exactly when a pair that needs a slot names a base without a table, or when
      its own base has none. */
  lemma ProcessStyleMapKeys(t: Table, node: Element, base: string, id: string,
                            baseDir: Option<string>, processStyles: bool, env: Env)
    ensures ProcessStyleMapOf(t, node, base, id, baseDir, processStyles, env).table.Keys == t.Keys
    ensures base !in t ==> ProcessStyleMapOf(t, node, base, id, baseDir, processStyles, env).MapThrew?
  {
    var prs := PairReads(node, base, baseDir, env);
    var c := CollectPairs(Collected(t, map[]), prs);
    CollectPairsKeys(Collected(t, map[]), prs);
    if c.Collected? && base in c.table {
      var a := Highlighted(Replaced(c.table, c.entries, base, id), base, id, processStyles, env);
      StoreFrame(a.table, base, id, a.table[base][id].(pairs := Some(StoredPairs(a, base, id))));
    }
  }

  /** `processStyles(doc)` on one base's slots (source lines 1052-1056): every slot's
      icon goes through `processStyleID`. */
  function ProcessIcons(slots: map<string, Style>, env: Env): map<string, Style> {
    map i | i in slots :: WithProcessedIcon(slots[i], env)
  }

  /** Every slot is kept, with its icon processed and everything else as it was; a slot
      whose icon has no `href` is unchanged. */
  lemma ProcessIconsMeaning(slots: map<string, Style>, env: Env)
    ensures var r := ProcessIcons(slots, env);
            r.Keys == slots.Keys &&
            forall i :: i in slots ==>
              r[i].balloon == slots[i].balloon && r[i].line == slots[i].line &&
              r[i].poly == slots[i].poly && r[i].pairs == slots[i].pairs &&
              r[i].icon == ProcessStyleID(slots[i].icon, env) &&
              (slots[i].icon.href == "" ==> r[i] == slots[i])
  {
  }
}

=== FILE: text.dfy ===
/** The JavaScript string operations the coordinate parser uses: `trim()`,
    `replace(/,\s+/g, ',')`, `split(/\s+/g)` and `split(',')`, over strings of
    UTF-16 code units modelled as `seq<char>`. */
module Text {

  /** JavaScript's `\s` class (WhiteSpace and LineTerminator), also what `trim()` removes. */
  predicate IsSpace(c: char) {
    var n := c as int;
    if n < 0xA0 then (0x09 <= n <= 0x0D) || n == 0x20
    else n == 0xA0 || n == 0x1680 || (0x2000 <= n <= 0x200A) || n == 0x2028 || n == 0x2029
         || n == 0x202F || n == 0x205F || n == 0x3000 || n == 0xFEFF
  }

  predicate NoSpace(s: string) {
    forall i :: 0 <= i < |s| ==> !IsSpace(s[i])
  }

  /** Neither end of `s` is white space. */
  predicate Trimmed(s: string) {
    s == [] || (!IsSpace(s[0]) && !IsSpace(s[|s| - 1]))
  }

  /** `s` with every white-space character removed: the reference against which the
      splitting and collapsing functions below are checked. */
  function Squeeze(s: string): string
  {
    if s == [] then []
    else (if IsSpace(s[0]) then [] else [s[0]]) + Squeeze(s[1..])
  }

  lemma {:induction false} SqueezeAppend(a: string, b: string)
    ensures Squeeze(a + b) == Squeeze(a) + Squeeze(b)
  {
    if a != [] {
      assert (a + b)[1..] == a[1..] + b;
      SqueezeAppend(a[1..], b);
    } else {
      assert a + b == b;
    }
  }

  /** White space at the end of `s` dropped. */
  function TrimEnd(s: string): (r: string)
    ensures |r| <= |s|
    ensures r == [] || !IsSpace(r[|r| - 1])
  {
    if s != [] && IsSpace(s[|s| - 1]) then TrimEnd(s[..|s| - 1]) else s
  }

  /** What `TrimEnd` keeps is a prefix of `s`. */
  lemma {:induction false} TrimEndPrefix(s: string)
    ensures TrimEnd(s) == s[..|TrimEnd(s)|]
    decreases |s|
  {
    if s != [] && IsSpace(s[|s| - 1]) {
      TrimEndPrefix(s[..|s| - 1]);
      assert s[..|s| - 1][..|TrimEnd(s)|] == s[..|TrimEnd(s)|];
    }
  }

  lemma {:induction false} TrimEndSqueeze(s: string)
    ensures Squeeze(TrimEnd(s)) == Squeeze(s)
    decreases |s|
  {
    if s != [] && IsSpace(s[|s| - 1]) {
      TrimEndSqueeze(s[..|s| - 1]);
      assert s == s[..|s| - 1] + [s[|s| - 1]];
      SqueezeAppend(s[..|s| - 1], [s[|s| - 1]]);
    }
  }

  /** `s.trim()`: white space dropped at both ends. */
  function Trim(s: string): (r: string)
  {
    if s != [] && IsSpace(s[0]) then Trim(s[1..]) else TrimEnd(s)
  }

  /** Trimming drops the leading white space, then the trailing white space. */
  lemma {:induction false} TrimIsDropThenTrimEnd(s: string)
    ensures Trim(s) == TrimEnd(DropSpaces(s))
  {
    if s != [] && IsSpace(s[0]) {
      TrimIsDropThenTrimEnd(s[1..]);
    }
  }

  /** `trim()` removes white space only, and only at the ends: the result neither starts
      nor ends with white space, has the same non-white-space content as `s`, and is the
      slice of `s` that starts where the leading white space ends. */
  lemma TrimMeaning(s: string)
    ensures Trimmed(Trim(s))
    ensures Squeeze(Trim(s)) == Squeeze(s)
    ensures var i := |s| - |DropSpaces(s)|; i + |Trim(s)| <= |s| && Trim(s) == s[i..i + |Trim(s)|]
  {
    var t := DropSpaces(s);
    var r := TrimEnd(t);
    TrimIsDropThenTrimEnd(s);
    TrimEndSqueeze(t);
    DropSpacesSqueeze(s);
    DropSpacesSuffix(s);
    TrimEndPrefix(t);
    assert Trimmed(r) by {
      if r != [] { assert r[0] == t[0]; }
    }
    var i := |s| - |t|;
    assert t == s[i..];
    assert r == t[..|r|];
  }

  /** The white space at the front of `s` dropped (the tail of a `\s+` match). */
  function DropSpaces(s: string): (r: string)
    ensures |r| <= |s|
    ensures r == [] || !IsSpace(r[0])
  {
    if s != [] && IsSpace(s[0]) then DropSpaces(s[1..]) else s
  }

  /** What `DropSpaces` keeps is a suffix of `s`. */
  lemma {:induction false} DropSpacesSuffix(s: string)
    ensures DropSpaces(s) == s[|s| - |DropSpaces(s)|..]
    decreases |s|
  {
    if s != [] && IsSpace(s[0]) {
      DropSpacesSuffix(s[1..]);
      assert s[1..][|s| - 1 - |DropSpaces(s)|..] == s[|s| - |DropSpaces(s)|..];
    }
  }

  lemma {:induction false} DropSpacesSqueeze(s: string)
    ensures Squeeze(DropSpaces(s)) == Squeeze(s)
  {
    if s != [] && IsSpace(s[0]) {
      DropSpacesSqueeze(s[1..]);
      assert s == [s[0]] + s[1..];
      SqueezeAppend([s[0]], s[1..]);
    }
  }

  /** `s.replace(/,\s+/g, ',')`: every run of white space that follows a comma removed. */
  function CollapseCommaSpace(s: string): (r: string)
    decreases |s|
  {
    if s == [] then []
    else if s[0] == ',' then [','] + CollapseCommaSpace(DropSpaces(s[1..]))
    else [s[0]] + CollapseCommaSpace(s[1..])
  }

  /** The collapse removes white space only: nothing else is added, dropped or reordered,
      and no comma in the result is followed by white space. */
  lemma {:induction false} CollapseCommaSpaceMeaning(s: string)
    ensures Squeeze(CollapseCommaSpace(s)) == Squeeze(s)
    ensures forall i :: 0 <= i < |CollapseCommaSpace(s)| - 1 && CollapseCommaSpace(s)[i] == ','
              ==> !IsSpace(CollapseCommaSpace(s)[i + 1])
    decreases |s|
  {
    if s != [] {
      var r := CollapseCommaSpace(s);
      if s[0] == ',' {
        var t := DropSpaces(s[1..]);
        CollapseCommaSpaceMeaning(t);
        DropSpacesSqueeze(s[1..]);
        SqueezeAppend([','], CollapseCommaSpace(t));
        assert s == [s[0]] + s[1..];
        SqueezeAppend([s[0]], s[1..]);
        assert r == [','] + CollapseCommaSpace(t);
        forall i | 0 <= i < |r| - 1 && r[i] == ','
          ensures !IsSpace(r[i + 1])
        {
          if i > 0 {
            assert r[i] == CollapseCommaSpace(t)[i - 1];
          } else {
            assert CollapseCommaSpace(t) != [];
            assert t != [];
            assert CollapseCommaSpace(t)[0] == t[0];
          }
        }
      } else {
        CollapseCommaSpaceMeaning(s[1..]);
        SqueezeAppend([s[0]], CollapseCommaSpace(s[1..]));
        assert s == [s[0]] + s[1..];
        SqueezeAppend([s[0]], s[1..]);
        forall i | 0 <= i < |r| - 1 && r[i] == ','
          ensures !IsSpace(r[i + 1])
        {
          assert r[i] == CollapseCommaSpace(s[1..])[i - 1];
        }
      }
    }
  }

  /** The index of the first white-space character of `s`, or `|s|` when there is none. */
  function FirstSpace(s: string): (i: nat)
    ensures i <= |s|
  {
    if s == [] || IsSpace(s[0]) then 0 else 1 + FirstSpace(s[1..])
  }

  /** `FirstSpace` finds the first white-space character. */
  lemma {:induction false} FirstSpaceMeaning(s: string)
    ensures forall k :: 0 <= k < FirstSpace(s) ==> !IsSpace(s[k])
    ensures FirstSpace(s) < |s| ==> IsSpace(s[FirstSpace(s)])
  {
    if s != [] && !IsSpace(s[0]) {
      FirstSpaceMeaning(s[1..]);
      forall k | 0 <= k < FirstSpace(s) ensures !IsSpace(s[k]) {
        if k > 0 { assert s[k] == s[1..][k - 1]; }
      }
    }
  }

  /** `s.split(/\s+/g)`: the pieces between the maximal runs of white space (an empty
      first or last piece when `s` starts or ends with white space; `[""]` for `""`). */
  function SplitSpaces(s: string): (r: seq<string>)
    ensures |r| >= 1
    decreases |s|
  {
    var i := FirstSpace(s);
    if i == |s| then [s] else [s[..i]] + SplitSpaces(DropSpaces(s[i..]))
  }

  /** The concatenation of a list of strings. */
  function Concat(parts: seq<string>): string {
    if parts == [] then [] else parts[0] + Concat(parts[1..])
  }

  /** No piece of a white-space split holds white space. */
  lemma {:induction false} SplitSpacesNoSpace(s: string)
    ensures forall k :: 0 <= k < |SplitSpaces(s)| ==> NoSpace(SplitSpaces(s)[k])
    decreases |s|
  {
    var i := FirstSpace(s);
    var r := SplitSpaces(s);
    FirstSpaceMeaning(s);
    if i < |s| {
      var rest := DropSpaces(s[i..]);
      SplitSpacesNoSpace(rest);
      assert r == [s[..i]] + SplitSpaces(rest);
      forall k | 0 <= k < |r| ensures NoSpace(r[k]) {
        if k > 0 { assert r[k] == SplitSpaces(rest)[k - 1]; }
      }
    }
  }

  /** Splitting on white space loses only the white space: the pieces put back together
      give `s` without its white space. */
  lemma {:induction false} SplitSpacesConcat(s: string)
    ensures Concat(SplitSpaces(s)) == Squeeze(s)
    decreases |s|
  {
    var i := FirstSpace(s);
    FirstSpaceMeaning(s);
    if i == |s| {
      NoSpaceSqueeze(s);
    } else {
      var rest := DropSpaces(s[i..]);
      var parts := [s[..i]] + SplitSpaces(rest);
      assert Concat(SplitSpaces(s)) == s[..i] + Concat(SplitSpaces(rest)) by {
        assert SplitSpaces(s) == parts;
        assert parts[1..] == SplitSpaces(rest);
      }
      assert Concat(SplitSpaces(rest)) == Squeeze(s[i..]) by {
        SplitSpacesConcat(rest);
        DropSpacesSqueeze(s[i..]);
      }
      assert Squeeze(s) == s[..i] + Squeeze(s[i..]) by {
        assert s == s[..i] + s[i..];
        SqueezeAppend(s[..i], s[i..]);
        NoSpaceSqueeze(s[..i]);
      }
    }
  }

  /** On a trimmed non-empty string no piece of the white-space split is empty. */
  lemma {:induction false} SplitSpacesNonEmpty(s: string)
    requires Trimmed(s) && s != []
    ensures forall k :: 0 <= k < |SplitSpaces(s)| ==> SplitSpaces(s)[k] != []
    decreases |s|
  {
    var i := FirstSpace(s);
    if i < |s| {
      TrimmedAfterSpace(s, i);
      var rest := DropSpaces(s[i..]);
      SplitSpacesNonEmpty(rest);
      var tail := SplitSpaces(rest);
      assert SplitSpaces(s) == [s[..i]] + tail;
      PrependNonEmpty(s[..i], tail);
    }
  }

  lemma PrependNonEmpty(x: string, tail: seq<string>)
    requires x != [] && forall k :: 0 <= k < |tail| ==> tail[k] != []
    ensures forall k :: 0 <= k < |[x] + tail| ==> ([x] + tail)[k] != []
  {
    forall k | 0 <= k < |[x] + tail| ensures ([x] + tail)[k] != [] {
      if k > 0 { assert ([x] + tail)[k] == tail[k - 1]; }
    }
  }

  /** In a trimmed string, the first piece before a white-space run is not empty and
      what follows the run is again trimmed and not empty. */
  lemma TrimmedAfterSpace(s: string, i: nat)
    requires Trimmed(s) && s != [] && i == FirstSpace(s) < |s|
    ensures i > 0
    ensures Trimmed(DropSpaces(s[i..])) && DropSpaces(s[i..]) != []
  {
    FirstSpaceMeaning(s);
    var t := s[i..];
    var rest := DropSpaces(t);
    assert t[|t| - 1] == s[|s| - 1];
    DropSpacesKeepsLast(t);
    DropSpacesSuffix(t);
    assert rest[|rest| - 1] == t[|t| - 1];
  }

  lemma {:induction false} NoSpaceSqueeze(s: string)
    requires NoSpace(s)
    ensures Squeeze(s) == s
  {
    if s != [] {
      NoSpaceSqueeze(s[1..]);
      assert s == [s[0]] + s[1..];
    }
  }

  /** Leading white space cannot swallow a string that ends in a non-space character. */
  lemma {:induction false} DropSpacesKeepsLast(s: string)
    requires s != [] && !IsSpace(s[|s| - 1])
    ensures DropSpaces(s) != []
  {
    if IsSpace(s[0]) {
      assert |s| > 1;
      assert s[1..][|s[1..]| - 1] == s[|s| - 1];
      DropSpacesKeepsLast(s[1..]);
    }
  }

  /** The index of the first `c` in `s`, or `|s|` when there is none. */
  function IndexOf(s: string, c: char): (i: nat)
    ensures i <= |s|
  {
    if s == [] || s[0] == c then 0 else 1 + IndexOf(s[1..], c)
  }

  /** `IndexOf` finds the first `c`. */
  lemma {:induction false} IndexOfMeaning(s: string, c: char)
    ensures forall k :: 0 <= k < IndexOf(s, c) ==> s[k] != c
    ensures IndexOf(s, c) < |s| ==> s[IndexOf(s, c)] == c
    ensures IndexOf(s, c) == |s| <==> c !in s
  {
    if s != [] && s[0] != c {
      IndexOfMeaning(s[1..], c);
      assert s == [s[0]] + s[1..];
      forall k | 0 <= k < IndexOf(s, c) ensures s[k] != c {
        if k > 0 { assert s[k] == s[1..][k - 1]; }
      }
    }
  }

  /** `s.split(c)` for a one-character separator: the pieces between the occurrences of
      `c`, empty pieces included. */
  function Split(s: string, c: char): (r: seq<string>)
    ensures |r| >= 1
    decreases |s|
  {
    var i := IndexOf(s, c);
    if i == |s| then [s] else [s[..i]] + Split(s[i + 1..], c)
  }

  /** `parts.join(c)`. */
  function Join(parts: seq<string>, c: char): string
    requires |parts| >= 1
  {
    if |parts| == 1 then parts[0] else parts[0] + [c] + Join(parts[1..], c)
  }

  /** Splitting and joining on the same character are inverse: the join gives back the
      string, and no piece contains the separator. */
  lemma {:induction false} SplitJoin(s: string, c: char)
    ensures Join(Split(s, c), c) == s
    ensures forall k :: 0 <= k < |Split(s, c)| ==> c !in Split(s, c)[k]
    decreases |s|
  {
    var i := IndexOf(s, c);
    var r := Split(s, c);
    IndexOfMeaning(s, c);
    if i < |s| {
      SplitJoin(s[i + 1..], c);
      assert s == s[..i] + [c] + s[i + 1..];
      forall k | 0 <= k < |r| ensures c !in r[k] {
        if k > 0 { assert r[k] == Split(s[i + 1..], c)[k - 1]; }
      }
    }
  }

  /** `s` starts with `p`. */
  predicate StartsWith(s: string, p: string) {
    |p| <= |s| && s[..|p|] == p
  }

  /** A string begins with its own first part. */
  lemma StartsWithConcat(p: string, s: string)
    ensures StartsWith(p + s, p)
  {
    assert (p + s)[..|p|] == p;
  }

  /** A prefix stays a prefix when text is put around the string and the same text in
      front of the prefix. */
  lemma StartsWithInside(a: string, x: string, b: string, p: string)
    requires StartsWith(x, p)
    ensures StartsWith(a + x + b, a + p)
  {
    assert (a + x + b)[..|a + p|] == a + x[..|p|];
  }

  /** A join begins with its first part. */
  lemma JoinStartsWith(parts: seq<string>, c: char)
    requires |parts| >= 1
    ensures StartsWith(Join(parts, c), parts[0])
  {
    if |parts| > 1 {
      assert Join(parts, c) == parts[0] + ([c] + Join(parts[1..], c));
      StartsWithConcat(parts[0], [c] + Join(parts[1..], c));
    }
  }

  /** `s.indexOf(p) > -1`: `p` occurs somewhere in `s`. */
  predicate Contains(s: string, p: string)
    decreases |s|
  {
    StartsWith(s, p) || (s != [] && Contains(s[1..], p))
  }

  /** A string occurs in any text that has it in the middle. */
  lemma {:induction false} ContainsMiddle(a: string, p: string, b: string)
    ensures Contains(a + p + b, p)
    decreases |a|
  {
    if a == [] {
      assert a + p + b == p + b;
      StartsWithConcat(p, b);
    } else {
      assert (a + p + b)[1..] == a[1..] + p + b;
      ContainsMiddle(a[1..], p, b);
    }
  }
}

=== FILE: wrappers.dfy ===
/** Option values: a JavaScript `undefined`/`null`, a missing element or attribute, or a NaN. */
module Wrappers {

  datatype Option<+T> = None | Some(value: T) {

    /** The value when present, `default` otherwise (JavaScript's `x || default` on a
        value that is never falsy when present). */
    function GetOr(default: T): T {
      match this
      case Some(v) => v
      case None => default
    }
  }
}

=== FILE: xml.dfy ===
/** The parsed KML document as an abstract element tree, and the DOM accessors the
    parser uses on it: getElementsByTagName, getElementsByTagNameNS, getAttribute and
    nodeValue. */
module Xml {
  import opened Wrappers

  /** One element: its namespace prefix and local name (together the DOM nodeName),
      its namespace URI, its attributes, its text content and its child elements. */
  datatype Element = Element(prefix: string, local: string, ns: string,
                             attrs: map<string, string>, text: string,
                             children: seq<Element>)
  {
    /** The DOM nodeName: `prefix:local`, or `local` when the element is unprefixed. */
    function QName(): string {
      if prefix == "" then local else prefix + ":" + local
    }
  }

  /** What a descendant search looks for: a nodeName (getElementsByTagName) or a
      namespace URI and local name (getElementsByTagNameNS). */
  datatype Matcher = Tag(name: string) | TagNS(uri: string, name: string)

  predicate Matches(m: Matcher, e: Element) {
    match m
    case Tag(n) => e.QName() == n
    case TagNS(u, n) => e.ns == u && e.local == n
  }

  /** The proper descendants of `e` that `m` selects, in document (pre-)order. */
  function Select(e: Element, m: Matcher): seq<Element>
    decreases e, 1
  {
    SelectIn(e.children, m)
  }

  function SelectIn(cs: seq<Element>, m: Matcher): seq<Element>
    decreases cs, 0
  {
    if cs == [] then []
    else (if Matches(m, cs[0]) then [cs[0]] else []) + Select(cs[0], m) + SelectIn(cs[1..], m)
  }

  /** getElementsByTagName(e, tag). */
  function ByTag(e: Element, tag: string): seq<Element> {
    Select(e, Tag(tag))
  }

  /** getElementsByTagNameNS(e, uri, tag). */
  function ByTagNS(e: Element, uri: string, tag: string): seq<Element> {
    Select(e, TagNS(uri, tag))
  }

  /** An element without children has no descendants to find. */
  lemma SelectChildless(e: Element, m: Matcher)
    requires e.children == []
    ensures Select(e, m) == []
  {
    assert Select(e, m) == SelectIn(e.children, m);
  }

  /** Independent definition of "proper descendant". */
  ghost predicate DescendantOf(d: Element, e: Element)
    decreases e
  {
    exists k :: 0 <= k < |e.children| && (d == e.children[k] || DescendantOf(d, e.children[k]))
  }

  /** The descendant search finds exactly the proper descendants that match. */
  lemma {:induction false} SelectExactly(e: Element, m: Matcher, d: Element)
    ensures d in Select(e, m) <==> DescendantOf(d, e) && Matches(m, d)
    decreases e, 1
  {
    SelectInExactly(e.children, m, d);
  }

  lemma {:induction false} SelectInExactly(cs: seq<Element>, m: Matcher, d: Element)
    ensures d in SelectIn(cs, m) <==>
            Matches(m, d) && exists k :: 0 <= k < |cs| && (d == cs[k] || DescendantOf(d, cs[k]))
    decreases cs, 0
  {
    if cs != [] {
      SelectExactly(cs[0], m, d);
      SelectInExactly(cs[1..], m, d);
      var here := (if Matches(m, cs[0]) then [cs[0]] else []);
      assert SelectIn(cs, m) == here + Select(cs[0], m) + SelectIn(cs[1..], m);
      if Matches(m, d) && exists k :: 0 <= k < |cs| && (d == cs[k] || DescendantOf(d, cs[k])) {
        var k :| 0 <= k < |cs| && (d == cs[k] || DescendantOf(d, cs[k]));
        if k > 0 {
          assert cs[1..][k - 1] == cs[k];
        }
      }
      if d in SelectIn(cs[1..], m) {
        var k :| 0 <= k < |cs[1..]| && (d == cs[1..][k] || DescendantOf(d, cs[1..][k]));
        assert cs[k + 1] == cs[1..][k];
      }
    }
  }

  /** The node names of the parents of the elements that `Select(e, m)` finds, in the
      same order (`node.parentNode.nodeName` for each found node). */
  function ParentNames(e: Element, m: Matcher): (r: seq<string>)
    ensures |r| == |Select(e, m)|
    decreases e, 1
  {
    ParentNamesIn(e, e.children, m)
  }

  function ParentNamesIn(p: Element, cs: seq<Element>, m: Matcher): (r: seq<string>)
    ensures |r| == |SelectIn(cs, m)|
    decreases cs, 0
  {
    if cs == [] then []
    else (if Matches(m, cs[0]) then [p.QName()] else []) + ParentNames(cs[0], m)
         + ParentNamesIn(p, cs[1..], m)
  }

  /** `list[0]`, which is `undefined` on an empty list. */
  function First(list: seq<Element>): (r: Option<Element>)
    ensures r.Some? <==> |list| > 0
    ensures r.Some? ==> r.value == list[0]
  {
    if |list| == 0 then None else Some(list[0])
  }

  /** `getElementsByTagName(e, tag)[0]`. */
  function FirstByTag(e: Element, tag: string): Option<Element> {
    First(ByTag(e, tag))
  }

  /** `getAttribute(name)`: `null` (here `None`) when the attribute is absent, and its
      value when it is present. */
  function Attr(e: Element, name: string): (r: Option<string>)
    ensures r.Some? <==> name in e.attrs
    ensures r.Some? ==> r.value == e.attrs[name]
  {
    if name in e.attrs then Some(e.attrs[name]) else None
  }

  /** `getElementsByTagName(e, tag)[0]` is `undefined` exactly when no proper descendant
      of `e` has that node name, and is otherwise such a descendant. */
  lemma FirstByTagMeaning(e: Element, tag: string)
    ensures FirstByTag(e, tag).Some? <==> exists d :: DescendantOf(d, e) && d.QName() == tag
    ensures FirstByTag(e, tag).Some? ==>
              DescendantOf(FirstByTag(e, tag).value, e) && FirstByTag(e, tag).value.QName() == tag
  {
    var l := ByTag(e, tag);
    if |l| > 0 {
      SelectExactly(e, Tag(tag), l[0]);
    }
    if exists d :: DescendantOf(d, e) && d.QName() == tag {
      var d :| DescendantOf(d, e) && d.QName() == tag;
      SelectExactly(e, Tag(tag), d);
    }
  }

  /** `nodeValue(node, default)`: the text content of the node, or `default` when
      there is no node. */
  function NodeValue(n: Option<Element>, default: string): (r: string)
    ensures n.None? ==> r == default
    ensures n.Some? ==> r == n.value.text
  {
    match n
    case Some(e) => e.text
    case None => default
  }

  /** `nodeValue(getElementsByTagName(e, tag)[0], default)`. */
  function ChildValue(e: Element, tag: string, default: string): string {
    NodeValue(FirstByTag(e, tag), default)
  }

  /** The text of the first element named `tag` below `e` is the default when no proper
      descendant has that name, and otherwise the text of one that does. */
  lemma ChildValueMeaning(e: Element, tag: string, default: string)
    ensures (forall d :: DescendantOf(d, e) ==> d.QName() != tag) ==> ChildValue(e, tag, default) == default
    ensures (exists d :: DescendantOf(d, e) && d.QName() == tag) ==>
              exists d :: DescendantOf(d, e) && d.QName() == tag && ChildValue(e, tag, default) == d.text
  {
    FirstByTagMeaning(e, tag);
  }
}
